=== FILE: README.md ===
# dbm migration engine, modelled in Dafny

dbm is a command-line tool that keeps an SQL database's schema in step with
a directory of migration files. Each file is named `<timestamp>_<name>.sql`.
It holds an "up" part and a "down" part, separated by the line
`!========================!`. The database keeps a ledger table,
`tracked_migrations`, that holds the timestamp id of every migration that
has run. `up` runs the next files the ledger does not yet list. `rollback`
undoes the last ones it does list, newest first. `new` writes a fresh
migration file from a template.

This project models the engine behind those commands as pure Dafny
functions, and proves what they promise:

- `Splitter`: the statement splitter that cuts a migration part into
  statements at every `;` outside quotes and comments. The reference is a
  character automaton. The program's index-jumping loop (`RunMigrationPart`)
  is proved to execute exactly the automaton's statements.
- `MigrationFile`: reading a file into its up and down parts, and its
  round trip with composing a file from two parts. It also covers the
  scanner's 64 KiB line limit, which the program as written does not
  report (see "## Findings").
- `Database`: a connection as a log of `Exec` calls, a ledger of rows and a
  table of driver faults. `ExecAll` runs statements in order and stops at
  the first failure.
- `Sync`: `migFormat` (the ledger id of a file) and the check that the
  ledger agrees with the first files on disk.
- `Runner`: `migrate` for one file, and the step and slice logic of
  `doMigrations` and `doRollback`. The main results:
  - a completed `up` leaves the ledger holding the ids of the first files;
  - a completed `rollback` removes exactly the last ids.
- `Engines`: `NewEngine`, the ledger statements of each driver, the
  Postgres connection parameters of the engine, and `CreateDB`/`DropDB`.
- `Config`: the connection strings of the configuration package, for MySQL,
  Postgres and sqlite3. The MySQL string has a parser-based round trip.
- `Naming`: the name pattern of `new`, the timestamp digits, the file name
  and the template.
- `Text`, `Paths`, `Results`: the few string, path and error helpers the
  rest needs (`strings.Split`/`Join`, `filepath.Join`/`Base`/`Ext`/`Dir`,
  an `Option` and `Result`).

Go's `exitLn`/`exitf` end the process. Here they are an `Exited` outcome
that carries the message and the connection as it was at that moment. A
slice expression out of range is a `Panicked` outcome. The wall clock, the
working directory, the VCS root and the file system are parameters.

`up` over a ledger with more rows than there are files does not stop at the
consistency check. The check only lists the extra rows as missing files.
The slice `files[len(done):len(done)+step]` then panics. `BadSlicePanics`
states this behaviour as written.

The MySQL connection string of `sqlengines.go` (`makeDSN`) is character for
character the one of `config/config.go` (`mysqlDSN`). The engine therefore
reuses `Config.MySqlDsn`. The two Postgres strings differ, and both are
modelled:
- the engine's string never carries an `sslmode`;
- the engine's string does not treat a host starting with `/` as a socket
  directory;
- the engine's string leaves out `dbname` when not asked for, where the
  configuration uses `dbname='postgres'`.

## Model

| member | source | states |
|---|---|---|
| Splitter.RunMigrationPart | migrate.go:142-198 | The character loop executes the automaton's statements in order and stops at the first statement the driver rejects. Its result is that of executing `Statements(part)` one by one. |
| Splitter.StatementsEndInSemicolon | migrate.go:185-195 | Every executed statement is non-empty and ends with the `;` that cut it, keeping the text before it, leading whitespace included. |
| Splitter.StatementsCoverPrefix | migrate.go:145-197 | The statements, concatenated, are exactly the text up to the last top-level `;`. No `;` after that point ends a statement, so a trailing fragment is never executed. |
| Splitter.StatementEnds | migrate.go:185-195 | A character ends a statement if and only if it is a `;` read outside quotes and comments. |
| Splitter.QuotedSpan | migrate.go:148-162 | Inside a quote, up to the matching closing quote, no `;` ends a statement. The other two quote characters have no effect there. The closing quote returns the scanner to code. |
| Splitter.LineCommentSpan | migrate.go:163-174 | A `#` or `--` comment runs to the next newline, and no `;` inside it ends a statement. |
| Splitter.BlockCommentSpan | migrate.go:175-184 | A `/*` comment runs to the first `/` preceded by `*`. The `*` of the opener counts, so `/*/` is a whole comment. No `;` inside it ends a statement. |
| Splitter.UnterminatedBlockComment | migrate.go:179-184 | A block comment with no end swallows the rest of the part: nothing from its opening on is executed. |
| Splitter.NewlineEndedIsSafe | migrate.go:172-174 | A part that is empty or ends in a newline leaves no line comment open. The comment skip, which is not bounds-checked, cannot run past the end of such a part. |
| Splitter.SingleStatement | migrate.go:185-195 | A plain line ended by `;` and a newline is exactly one statement: the line through its `;`. |
| Splitter.Toggle | migrate.go:148-162 | A quote character flips its own flag only when neither other flag is set; otherwise it changes nothing. The other two flags never change. At most one flag is ever set. |
| Splitter.ToggleFollowsAutomaton | migrate.go:148-162 | The three flags track the reference automaton's quote states exactly: toggling on a quote character moves them to the state the automaton reaches. |
| Splitter.AbortIsFinal | migrate.go:190-191 | Once a statement of the part has been rejected, the run's result is fixed: the rest of the part is never executed. |
| SplitterVectors.BlockCommentVector | migrate_test.go:41-44 | The block-comment test case splits into the two statements the test expects. |
| SplitterVectors.DashCommentVector | migrate_test.go:45-48 | The `--` comment test case splits into the two statements the test expects. |
| SplitterVectors.HashCommentVector | migrate_test.go:49-52 | The `#` comment test case splits into the two statements the test expects. |
| SplitterVectors.SingleQuoteVector | migrate_test.go:53-56 | Inside single quotes, comment openers, other quotes and `;` are ignored, as the test expects. |
| SplitterVectors.DoubleQuoteVector | migrate_test.go:57-60 | The same for double quotes. |
| SplitterVectors.BackQuoteVector | migrate_test.go:61-64 | The same for back quotes. |
| MigrationFile.GetMigrationParts | migrate.go:116-139 | The line loop produces the reference split. Up is every line before the first separator line. Down is every later non-separator line. Each line is followed by a newline. |
| MigrationFile.Kept | migrate.go:125-136 | The down lines drop every separator line and keep every other line as often as it was read. A line is kept exactly when it was read and is not a separator. Lines without a separator are kept unchanged. |
| MigrationFile.KeptConcat | migrate.go:125-136 | Lines are kept one by one, in the order they were read: keeping two runs of lines is keeping each run in turn. |
| MigrationFile.ComposeRoundTrip | migrate.go:116-139 | Over the file's lines, a file composed of up lines, a separator line and down lines reads back as exactly those two parts. |
| MigrationFile.NoSeparatorNoDown | migrate.go:125-136 | A file without a separator line is all up part, with an empty down part. |
| MigrationFile.PartsAreSafe | migrate.go:131-135 | Both parts the reader produces leave no line comment open at their end. So the splitter is always called on a part it can scan without running off the end. |
| MigrationFile.LinesUnlines | migrate.go:119-120 | Splitting a text written from newline-free lines at its newlines gives back those lines. |
| MigrationFile.ScannedLines | migrate.go:119-120 | The scanner yields the lines before the first line of 65536 bytes or more, counted in UTF-8. All of them are shorter than that, and when it stops early, the next line is too long. |
| MigrationFile.Utf8Len | migrate.go:119-120 | A line's length in bytes is between its number of characters and four times that, and equals it for an ASCII line. |
| MigrationFile.ThreeByteLineTooLong | migrate.go:119-120 | A line of 22000 three-byte characters is 66000 bytes, so the scanner refuses it although it has fewer than 65536 characters. |
| MigrationFile.ScanPartsTruncates | migrate.go:119-139 | As written, the parts of a file whose line k is the first one too long are those of its first k lines. Nothing reports the loss. |
| MigrationFile.LongLineLosesStatements | migrate.go:119-139 | As written, a file of two statements around a 65536-character line yields an up part holding only the first statement, which differs from the file's own split. |
| MigrationFile.ReadParts | migrate.go:116-139 | With the scanner's error looked at after the loop, reading succeeds if and only if no line is too long. Success gives the file's full split, which agrees with the as-written parts; failure carries the scanner's "token too long" error. |
| MigrationFile.ReadComposeRoundTrip | migrate.go:116-139 | With the error looked at, a composed file reads back as its two parts exactly when none of its lines is too long, and is refused otherwise. |
| MigrationFile.LayoutComposed | new.go:27-34 | The template of a new migration is the file composed of an empty line and the up placeholder, a separator, and the down placeholder. |
| MigrationFile.LayoutParts | new.go:27-34 | The template reads back as the up placeholder after an empty line, and the down placeholder. |
| Database.Exec | sqlengines.go:70-71 | Every call is logged, whether or not it fails. It fails exactly when the driver rejects it, with the driver's message. The ledger is left to the ledger calls, which assumes migration statements do not write the ledger table (see "## Left out"). |
| Database.ExecAllProceeds | migrate.go:189-194 | Executing statements goes through if and only if no statement faults. Then every statement was issued once, in order, without arguments. |
| Database.ExecAllAborts | migrate.go:190-191 | When statement k is the first that faults, the run stops with `Error in statement` naming that statement and the driver's error. The statements up to it have been issued, and none after. |
| Database.ExecAllAbortPrefix | migrate.go:190-191 | After an abort, later statements are never issued. |
| Sync.MigFormatCharacterized | migrate.go:302-304 | A string is a file's ledger id if and only if it has no `_`, is a prefix of the base name, and is either the whole base name or stops just before a `_`. |
| Sync.EnsureMatch | migrate.go:212-234 | An out-of-sync verdict names the first position where a file's id differs from its ledger row, with the program's message. That message gives the row and the file's base name. An in-sync verdict means no position differs. Its missing rows are the ledger rows beyond the last file. |
| Sync.EnsureMatchIds | migrate.go:212-234 | A ledger no longer than the file list passes if and only if it is the ids of the first files, in order. |
| Sync.EnsureMatchAt | migrate.go:216-224 | The first disagreeing position decides the verdict, with that position's message. |
| Sync.EnsureMatchEnd | migrate.go:216-233 | Agreement while both lists last gives in sync, with the leftover ledger rows listed as missing. |
| Sync.CheckSync | migrate.go:212-234 | The program's side-by-side loop computes the same verdict. |
| Sync.NewMigrationId | new.go:52-55 | The file `new` writes lands under `db/migrate`, has extension `.sql` (so the migration scan picks it up), and its ledger id is its 14 timestamp digits. |
| Sync.FileNameParts | new.go:52 | A new file name contains no path separator. Its first `_` is the one right after the timestamp digits. |
| Sync.NewMigrationPathShape | new.go:54-55 | The new file's path is the migration directory, a separator, then the file name. |
| Runner.RollbackWithoutDown | migrate.go:93-96 | Rolling back a migration whose down part is empty stops the program with the no-down message. Nothing is executed and the ledger is untouched. |
| Runner.LineTooLongStops | migrate.go:119-123 | A migration file with a line too long for the scanner stops the program with "Failed to read file:" and the scanner's error, before anything is issued. |
| Runner.MigrateCompletes | migrate.go:82-107 | Given statements that do not fault, a migration completes if and only if its ledger call does not fault. Then the log is its statements followed by that call. Up adds the file's id to the ledger; rollback removes it. |
| Runner.MigrateStatementFails | migrate.go:98-101 | When statement j of the part is the first the driver rejects, the program stops with that statement's error. Statements 0..j have been issued, and no ledger call was made. |
| Runner.MigrateFile | migrate.go:82-140 | The program's `migrate`, with the corrected read check (line loop, then the scanner's error, then the character loop, then the ledger call), has the outcome of the reference `Migrate`. |
| Runner.MigrateLedger | migrate.go:99-102 | A migration that completes appends its id to the ledger going up, and removes every row with its id going down. |
| Runner.UpCount | migrate.go:38-41 | For outstanding work and a non-negative step, `up` runs the step's count when it is within the outstanding count. Otherwise, or for step 0, it runs all outstanding migrations. |
| Runner.RollbackCount | migrate.go:64-70 | `rollback` undoes the step's count. Step 0 means one. A step beyond the ledger means all of it. |
| Runner.UpToDateFirst | migrate.go:33-36 | With as many files as ledger rows, `up` stops with `Up to date.`, before any consistency check. |
| Runner.OutOfSyncStops | migrate.go:43-72 | A ledger that disagrees with the files stops both commands with the mismatch message, before anything is migrated. |
| Runner.BadSlicePanics | migrate.go:45-74 | After the consistency check passes, a negative step puts the low bound of either command's slice above its high bound. `up` over more ledger rows than files does the same. The command panics without migrating anything. |
| Runner.UpPlanRuns | migrate.go:26-51 | `up` runs migrations only over a ledger that is the ids of the first files. It then runs exactly the next `UpCount` files, in ascending order. |
| Runner.RollbackPlanRuns | migrate.go:53-80 | `rollback` undoes migrations only over a ledger that is the ids of the first files. It takes exactly the last `RollbackCount` of those files. |
| Runner.UpLedger | migrate.go:26-51 | A completed `up` leaves the ledger holding exactly the ids of the first files, extended by the count it ran. |
| Runner.RollbackLedger | migrate.go:53-80 | A completed `rollback` over a ledger of distinct ids leaves exactly the ledger without its last `RollbackCount` rows. |
| Runner.MigrateStepLedger | migrate.go:98-102 | Each completed forward `migrate` appends its file's id to the ledger. Each completed backward one removes that id. |
| Runner.UpRunLedger | migrate.go:26-51 | Take any forward step that appends its file's id when it completes, as `migrate` does. A completed `up` plan carried out with it leaves the ledger holding exactly the ids of the first files, through the ones it ran. |
| Runner.UpPlanCompleted | migrate.go:33-50 | An `up` completes only when its plan runs the next `UpCount` files. The ledger before them must hold the ids of the files before them. |
| Runner.RunUpLedger | migrate.go:45-50 | Run files n to m with id-appending steps, over a ledger of the ids of the first n files. On completion the ledger holds the ids of the first m. |
| Runner.RollbackRunLedger | migrate.go:53-80 | Take any backward step that removes its file's id when it completes, as `migrate` does. A completed `rollback` plan over distinct ids leaves the ledger without its last `RollbackCount` rows. |
| Runner.RollbackPlanCompleted | migrate.go:60-79 | A `rollback` completes only when its plan undoes the last `RollbackCount` of the files whose ids the ledger holds. |
| Runner.UnwindDownLedger | migrate.go:74-79 | Roll back files m to n, last first, with id-removing steps, over a distinct ledger of the ids of the first n files. On completion the ledger keeps its first m rows. |
| Runner.ApplyUpLedger | migrate.go:48-50 | A completed forward run of `migrate` over a list of files adds their ids to the ledger, in order. |
| Runner.StepsAppend | migrate.go:48-50 | Running two lists of migrations one after the other is running the first, then the second only if the first completed. |
| Runner.StepsUpLedger | migrate.go:48-50 | A forward run that completes adds the ids of the files it ran to the ledger, in order. |
| Runner.StepsDownLedger | migrate.go:77-79 | A backward run over files whose ids end a distinct ledger removes exactly those ids when it completes. |
| Runner.RunAll | migrate.go:48-50 | The program's ascending loop has the outcome of migrating each file in turn, stopping at the first that does not complete. |
| Runner.RunBackward | migrate.go:77-79 | The program's descending loop has the outcome of rolling back the files last to first. |
| Runner.PlanUp | migrate.go:33-45 | Pins down the order of the checks before `up`: up to date, step, consistency, slice. Run in that order, with the program's side-by-side consistency loop, they reach the reference decision. |
| Runner.PlanRollback | migrate.go:60-74 | Pins down the order of the checks before `rollback`: empty ledger, step, consistency, slice. Run in that order, with the program's side-by-side consistency loop, they reach the reference decision. |
| Runner.Up | migrate.go:26-51 | `doMigrations`, each file read with the corrected read check, has the outcome of the reference `DoMigrations`. |
| Runner.Rollback | migrate.go:53-80 | `doRollback`, each file read with the corrected read check, has the outcome of the reference `DoRollback`. |
| Engines.NewEngine | sqlengines.go:37-52 | A configuration without a name is refused first. Next an unknown kind is refused, with the kind in the message. Otherwise the engine keeps the configuration and a kind spelled as configured. A sqlite3 engine carries its file path. |
| Engines.KindNameRoundTrip | sqlengines.go:42-51 | The kind names `mysql`, `postgres` and `sqlite3` are read back as their kinds and only as them. |
| Engines.SqlitePathCases | sqlengines.go:238-248 | An absolute name keeps its place. A relative one goes under `<workingDir>/db/`. `.sqlite3` is added only when there is no extension. |
| Engines.SqlitePathIdempotent | sqlengines.go:238-248 | Under an absolute working directory the file path is absolute. Computing the path again from it changes nothing. |
| Engines.EngineCredentials | sqlengines.go:208-215 | The engine's Postgres parameters hold the user and the password exactly when each is set, and never an sslmode. |
| Engines.EngineHost | sqlengines.go:216-225 | The host and port parameters are the first and second `:`-pieces of the host, each only when non-empty. |
| Engines.EngineDbName | sqlengines.go:226-228 | The engine names the database if and only if asked to. |
| Engines.EngineParamsOrdered | sqlengines.go:208-230 | The engine's parameters come in the fixed order user, password, host, port, dbname, each key at most once. |
| Engines.EngineAndConfigParams | sqlengines.go:208-230 | For a host that is not a socket directory, the configuration's Postgres parameters are the engine's server parameters followed by sslmode and dbname. The engine's own connection adds only dbname. |
| Engines.LedgerStatements | sqlengines.go:24-27 | The ledger insert and delete name the ledger table and use the driver's placeholder: `?` for MySQL and sqlite3, `$1` for Postgres. |
| Engines.CreateMigrationsTable | sqlengines.go:283-292 | Creating the ledger table succeeds if and only if neither the create nor the wipe faults. Success issues the create, then the wipe, and leaves an empty ledger. A failed create issues nothing more. |
| Engines.AddMigration | sqlengines.go:294-297 | Exactly one call is issued: the driver's insert statement into the ledger table, with the migration as its only argument. It fails exactly when the driver rejects it. Success appends the row; failure leaves the ledger as it was. |
| Engines.DeleteMigration | sqlengines.go:299-302 | Exactly one call is issued: the driver's delete statement on the ledger table, with the migration as its only argument. Success leaves the ledger with every row for the migration removed (`Remove`); failure leaves the ledger as it was. |
| Engines.Remove | sqlengines.go:299-302 | A delete drops every row recording the migration and keeps every other row as often as it occurred. A ledger without the migration is unchanged. |
| Engines.RemoveConcat | sqlengines.go:299-302 | A delete keeps the surviving rows in their order: deleting from two runs of rows is deleting from each run in turn. |
| Engines.RemoveAfterAppend | sqlengines.go:294-302 | Deleting a row just inserted gives back a ledger that did not hold it. |
| Engines.CreateDropActions | sqlengines.go:91-117 | MySQL creates with `IF NOT EXISTS` and Postgres without it. Both drop with `IF EXISTS`, over a connection that leaves the database out. Sqlite3 runs no statement: it makes the file's directory, or removes the file. |
| Engines.AdminDsnOmitsName | sqlengines.go:168-194 | The server connection used to create and drop never names the database. The connection `Open` uses always does. |
| Config.MySqlDsnRoundTrip | config/config.go:167-187 | Reading the MySQL connection string back recovers the user, the host and, when asked for, the name. It recovers the password only alongside a user. This holds for fields without `/` or `@`, and a user without `:`. |
| Config.PostgresCredentials | config/config.go:191-196 | The user and password parameters are present exactly when set. |
| Config.PostgresHost | config/config.go:197-210 | The host and port parameters are those of the host rule. |
| Config.ConfigHostLookup | config/config.go:197-210 | No host gives neither parameter. A host starting with `/` is the host, whole, with no port. Any other host gives its first and second `:`-pieces when non-empty. |
| Config.PostgresSslAndName | config/config.go:212-227 | There is always an sslmode: disable without SSL, verify-full with SSL, require when verification is skipped. There is always a dbname: the configured name, or `postgres` for the server connection. |
| Config.PostgresParamsOrdered | config/config.go:189-229 | The parameters come in the fixed order user, password, host, port, sslmode, dbname, each key at most once. |
| Config.KeyNameInjective | config/config.go:191-227 | No two parameters are written under the same name. |
| Config.Sqlite3DsnCases | config/config.go:238-262 | A name with a separator is kept as it is. A plain name lands in `<root>/db/`. `.sqlite3` is added only when there is no extension. |
| Config.Dsn | config/config.go:151-165 | `mysql` gives the MySQL string and `postgres` the Postgres string, each told whether to name the database. `sqlite3` gives the file path, which does not depend on that choice. Any other kind is an error, with the program's panic message, and only such a kind is. |
| Naming.MatchName | new.go:37 | The matcher accepts a name if and only if it is one lower-case letter, or lower-case letters and underscores that start and end with a letter. |
| Naming.MigrationName | new.go:44-50 | Without arguments the name is `new_migration`. Given arguments are accepted if and only if their `_`-join matches the pattern, and the accepted name is that join. A name the command accepts always matches the pattern. A refusal happens only for given arguments, and its message carries the joined name. |
| Naming.JoinValidNames | new.go:45-50 | Arguments that each match the pattern join with `_` into a name that matches it, so the command accepts them. |
| Naming.DefaultNameAccepted | new.go:44 | Without arguments the name is `new_migration`, which matches the pattern. |
| Naming.DecimalRoundTrip | new.go:52 | The zero-padded digits of a number read back as that number. They are exactly the padding width long when the number fits. |
| Naming.StampDigitsLength | new.go:52 | A calendar timestamp formats as exactly 14 digits. |
| Naming.FileName | new.go:52 | A new file name starts with the timestamp digits followed by `_`. |
| Text.SplitJoin | migrate.go:303 | Splitting at a character undoes joining with it when no piece contains it. |
| Paths.ExtOfJoin | migrate.go:269 | The extension of a joined path is that of its last element. |
| Paths.BaseOfJoin | migrate.go:85 | The base name of `dir/f` is `f`, whatever the directory. |

## Left out

- Reading the configuration file and the environment (`config.go` loading, TOML, VCS root lookup): the configuration is a `DbConfig` value, and the sqlite3 root directory is a parameter.
- `getMigrationData`, `getMigrations` and `getRunMigrations`: the directory walk, its sort and the `SELECT` of the ledger are file-system and driver I/O. The model takes the sorted file list and the ledger rows as given. `Sync.NewMigrationId` shows that a new file would be picked up by the scan.
- `getStep`: parsing the step argument with `strconv.ParseInt` is left out; the step is an `int` parameter. Its error exit is not modelled.
- `Open`, `Close`, `sql.Open` and `Query` are driver calls. `CreateDB`/`DropDB` are modelled as the action they take (`AdminAction`), not performed.
- `newMigration`'s file-system effects (`EnsureDirectory`, `os.Create`, template `Execute`) and `time.Now` are left out. The clock reading is a `Stamp` parameter, and the file written is `MigLayout` (the template has no substitution).
- The progress output (`Running N migrations...`, the verbose banners and echoed statements, the listing of missing migrations) is not modelled. The missing ledger rows are reported in `SyncReport.missing`.
- `rgxUpDown` and `sqlUseDB` are declared but never used by the program.
- `Paths.Join` and `Paths.Dir` do not apply `filepath.Clean` to their result.
- Engines.SqlitePathCases: the path is the joined text as it stands, without `filepath.Clean`. It equals the program's path for names without `.` or `..` elements or doubled separators. For other names the program's path is the cleaned form of the model's.
- Config.Sqlite3DsnCases: the path is the joined text as it stands, without `filepath.Clean`. It equals the program's path for names without `.` or `..` elements or doubled separators and a root that does not end in `/`. For other inputs the program's path is the cleaned form of the model's.
- The splitter scans characters where the program scans bytes (the line limit is counted in bytes, `MigrationFile.Utf8Len`). Every character it tests for is ASCII, which UTF-8 never uses inside a multi-byte character, so the statements cut are the same.
- The scanner's handling of `\r\n` line endings and its exit on a failed read are not modelled. `MigrationFile.Lines` splits at `\n` only.
- MigrationFile.LinesUnlines: stated for splitting at newlines, without the scanner's limit. The scanner itself stops at a line of 65536 bytes or more (`MigrationFile.ScannedLines`).
- MigrationFile.ComposeRoundTrip: stated over the file's lines, without the scanner's limit. The program as written silently cuts a part off before a line of 65536 bytes or more (`MigrationFile.LongLineLosesStatements`). The corrected reader refuses such a file (`MigrationFile.ReadComposeRoundTrip`).
- `Runner.Migrate` reads files with the corrected reader, `MigrationFile.ReadParts`, so a line too long for the scanner stops the program. As written, the program runs the shortened part and records the migration (see "## Findings").
- Runner.MigrateFile: includes the corrected read check, which the program as written does not make.
- Runner.Up: runs each file through `Runner.MigrateFile`, so it includes the corrected read check.
- Runner.Rollback: runs each file through `Runner.MigrateFile`, so it includes the corrected read check.
- Splitter.RunMigrationPart: requires that the part does not end inside a line comment. On such a part the program reads past its buffer and panics. `MigrationFile.PartsAreSafe` shows every part the program builds meets this requirement.
- Config.MySqlDsnRoundTrip: stated only for fields without `/` or `@` and a user without `:`. Other values make the connection string ambiguous.
- Config.Dsn: the program panics on an unknown kind; the model returns an error with the same message.
- Runner.RollbackLedger: stated for a ledger of distinct ids. The ledger table has no uniqueness constraint, and a delete removes every row with the id.
- Go slices are bounded by capacity in the program; the model bounds them by length. The capacity of the file list depends on how `append` grew it, which the model does not follow. This matters only for the out-of-range panic.
- Runner.BadSlicePanics: the rollback half is stated only for a negative step. With more ledger rows than files and a step that is not negative, the program's slice may reach into the list's spare capacity. It then exits with "Could not open file" for an empty path instead of panicking. The model's `DoRollback` panics there, since it bounds slices by length.
- The model assumes the driver returns the ledger rows in insertion order. The `SELECT` of the ledger has no `ORDER BY` and the table has no key, so SQL does not guarantee this order. The program never sorts the rows, and its positional consistency check depends on the order.
- The model assumes a migration's own statements never write the ledger table. They are arbitrary SQL run on the same database, so a migration can change `tracked_migrations`. `Database.ExecAll` keeps the ledger unchanged, and the ledger results (`Runner.MigrateLedger`, `Runner.MigrateCompletes`, `Runner.UpLedger`, `Runner.RollbackLedger` and those built on them) hold only for migrations that leave that table alone.

## Findings

| source | as written | input that shows it | evidently intended | confidence | as-written member | corrected member |
|---|---|---|---|---|---|---|
| migrate.go:119-123 | `scanner.Err()` is looked at only inside the `Scan` loop. `Scan` returns false on a line of 65536 bytes or more, counted in UTF-8 (`bufio.ErrTooLong`), so the error is never seen. The parts end before that line, and `migrate` runs the shortened part and records the migration. | An up part of three lines: `CREATE TABLE a (x int);`, 65536 `-` characters, `CREATE TABLE b (y int);`. The second statement is never run. | Look at the scanner's error once the loop ends, and exit with "Failed to read file:" | high; not executed | MigrationFile.LongLineLosesStatements | MigrationFile.ReadParts |

=== FILE: config.dfy ===
/** The connection strings of config/config.go (`dsn`, `mysqlDSN`,
    `postgresDSN`, `DSNSqlite3`). The root directory a relative sqlite3 name is
    placed under (the working directory or the VCS root the program looks up)
    is a parameter. */
module Config {
  import opened Results
  import opened Text
  import opened Paths

  /** A database configuration: one table of the configuration file. */
  datatype DbConfig = DbConfig(
    name: string, kind: string, host: string, user: string, pass: string,
    ssl: bool, sslSkipVerify: bool)

  /** The directory, under the root, where database files live. */
  const DataDir: string := "db"

  // ---------------------------------------------------------------------
  // MySQL: [user[:pass]@][(host)]/[name]

  /** The go-sql-driver/mysql form: the user (with ":pass" when a password is
      set) and '@' only when a user is set, the host in parentheses only when
      set, then '/' and, when asked for, the database name. */
  function MySqlDsn(c: DbConfig, specifyDb: bool): (r: string)
  {
    AuthPart(c) + HostPart(c) + "/" + (if specifyDb then c.name else "")
  }

  /** What a reader of a MySQL connection string finds in it. */
  datatype MySqlFields = MySqlFields(user: string, pass: string, host: string, name: string)

  /** The user and password of "user[:pass]": split at the first ':'. */
  function ParseUserInfo(info: string): (string, string)
  {
    match IndexOf(info, ':')
    case None => (info, "")
    case Some(k) => (info[..k], info[k + 1..])
  }

  /** The user information before the first '@', and what follows it. */
  function ParseServer(pre: string): (string, string)
  {
    match IndexOf(pre, '@')
    case None => ("", pre)
    case Some(j) => (pre[..j], pre[j + 1..])
  }

  /** The host inside "(host)". */
  function ParseHost(part: string): string
  {
    if |part| >= 2 then part[1..|part| - 1] else ""
  }

  /** Reads a MySQL connection string back: the name after the first '/', the
      user information before an '@', the host between parentheses, and the
      password after the first ':' of the user information. */
  function ParseMySqlDsn(s: string): MySqlFields
  {
    match IndexOf(s, '/')
    case None => MySqlFields("", "", "", "")
    case Some(i) =>
      var (info, rest) := ParseServer(s[..i]);
      var (user, pass) := ParseUserInfo(info);
      MySqlFields(user, pass, ParseHost(rest), s[i + 1..])
  }

  /** Field values the MySQL form can carry unambiguously: no '/' or '@' before
      the name, and no ':' in the user. */
  predicate MySqlSafe(c: DbConfig)
  {
    '/' !in c.user && '/' !in c.pass && '/' !in c.host &&
    '@' !in c.user && '@' !in c.pass && '@' !in c.host && ':' !in c.user
  }

  function AuthPart(c: DbConfig): string
  {
    if c.user == "" then "" else c.user + (if c.pass == "" then "" else ":" + c.pass) + "@"
  }

  function HostPart(c: DbConfig): string
  {
    if c.host == "" then "" else "(" + c.host + ")"
  }

  lemma SplitAt(a: string, c: char, b: string)
    requires c !in a
    ensures IndexOf(a + [c] + b, c) == Some(|a|)
    ensures (a + [c] + b)[..|a|] == a && (a + [c] + b)[|a| + 1..] == b
  {
    IndexOfJoin(a, c, b);
  }

  lemma UserInfoRoundTrip(user: string, pass: string)
    requires ':' !in user
    ensures ParseUserInfo(user + (if pass == "" then "" else ":" + pass)) == (user, pass)
  {
    if pass != "" {
      var info := user + (":" + pass);
      assert info == user + [':'] + pass;
      SplitAt(user, ':', pass);
      assert IndexOf(info, ':') == Some(|user|);
      assert info[..|user|] == user && info[|user| + 1..] == pass;
    } else {
      assert user + "" == user;
    }
  }

  lemma ServerRoundTrip(c: DbConfig)
    requires MySqlSafe(c)
    ensures ParseServer(AuthPart(c) + HostPart(c)) ==
      (if c.user == "" then "" else c.user + (if c.pass == "" then "" else ":" + c.pass), HostPart(c))
  {
    var host := HostPart(c);
    if c.user != "" {
      var info := c.user + (if c.pass == "" then "" else ":" + c.pass);
      assert '@' !in info;
      assert AuthPart(c) + host == info + ['@'] + host;
      SplitAt(info, '@', host);
    } else {
      assert AuthPart(c) + host == host;
    }
  }

  lemma HostRoundTrip(c: DbConfig)
    ensures ParseHost(HostPart(c)) == c.host
  {
  }

  /** Reading the connection string back recovers every field the string
      carries: the password only alongside a user, the name only when asked
      for. */
  lemma MySqlDsnRoundTrip(c: DbConfig, specifyDb: bool)
    requires MySqlSafe(c)
    ensures ParseMySqlDsn(MySqlDsn(c, specifyDb)) ==
      MySqlFields(c.user, if c.user == "" then "" else c.pass, c.host, if specifyDb then c.name else "")
  {
    var name := if specifyDb then c.name else "";
    var pre := AuthPart(c) + HostPart(c);
    assert MySqlDsn(c, specifyDb) == pre + ['/'] + name;
    assert '/' !in pre;
    SplitAt(pre, '/', name);
    ServerRoundTrip(c);
    HostRoundTrip(c);
    if c.user != "" {
      UserInfoRoundTrip(c.user, c.pass);
    }
  }

  // ---------------------------------------------------------------------
  // Postgres: space-separated key=value parameters

  /** The lib/pq parameters the program writes. */
  datatype Key = UserKey | PasswordKey | HostKey | PortKey | SslModeKey | DbNameKey

  /** The name a parameter is written under. */
  function KeyName(k: Key): string
  {
    match k
    case UserKey => "user"
    case PasswordKey => "password"
    case HostKey => "host"
    case PortKey => "port"
    case SslModeKey => "sslmode"
    case DbNameKey => "dbname"
  }

  /** No two parameters are written under the same name. */
  lemma KeyNameInjective(a: Key, b: Key)
    ensures KeyName(a) == KeyName(b) <==> a == b
  {
  }

  /** One lib/pq parameter; values other than the sslmode are single-quoted. */
  datatype Param = Param(key: Key, value: string, quoted: bool)

  function Render(p: Param): string
  {
    KeyName(p.key) + "=" + (if p.quoted then "'" + p.value + "'" else p.value)
  }

  function RenderAll(ps: seq<Param>): (r: seq<string>)
    ensures |r| == |ps| && forall i :: 0 <= i < |ps| ==> r[i] == Render(ps[i])
  {
    if |ps| == 0 then [] else RenderAll(ps[..|ps| - 1]) + [Render(ps[|ps| - 1])]
  }

  /** The connection string for a list of parameters. */
  function ParamString(ps: seq<Param>): string
  {
    JoinWith(RenderAll(ps), " ")
  }

  /** The value of the first parameter named `key`. */
  function Lookup(ps: seq<Param>, key: Key): (r: Option<string>)
    ensures r.None? <==> forall i :: 0 <= i < |ps| ==> ps[i].key != key
  {
    if |ps| == 0 then None
    else if ps[0].key == key then Some(ps[0].value)
    else Lookup(ps[1..], key)
  }

  lemma {:induction false} LookupAppend(a: seq<Param>, b: seq<Param>, key: Key)
    ensures Lookup(a + b, key) == if Lookup(a, key).Some? then Lookup(a, key) else Lookup(b, key)
    decreases |a|
  {
    if |a| > 0 {
      assert (a + b)[1..] == a[1..] + b;
      LookupAppend(a[1..], b, key);
    } else {
      assert a + b == b;
    }
  }

  /** The position of a parameter in the order they are written in. */
  function Rank(key: Key): nat
  {
    match key
    case UserKey => 0
    case PasswordKey => 1
    case HostKey => 2
    case PortKey => 3
    case SslModeKey => 4
    case DbNameKey => 5
  }

  /** Parameters in the fixed order, each key at most once. */
  predicate Ordered(ps: seq<Param>)
  {
    forall i, j :: 0 <= i < j < |ps| ==> Rank(ps[i].key) < Rank(ps[j].key)
  }

  /** A parameter when the value is present, nothing otherwise. */
  function Opt(key: Key, v: Option<string>): (r: seq<Param>)
    ensures Lookup(r, key) == v
    ensures |r| <= 1 && forall i :: 0 <= i < |r| ==> r[i].key == key && r[i].quoted
  {
    if v.None? then [] else [Param(key, v.value, true)]
  }

  /** `host` and `port` from a "host:port" value: the pieces before the first
      and second ':', each only when non-empty; later pieces are ignored. */
  function SplitHostParams(host: string): (r: seq<Param>)
    ensures Lookup(r, HostKey) == NonEmpty(SplitOn(host, ':')[0])
    ensures Lookup(r, PortKey) ==
      (var pieces := SplitOn(host, ':'); if |pieces| > 1 then NonEmpty(pieces[1]) else None)
    ensures Ordered(r)
  {
    var pieces := SplitOn(host, ':');
    var port := if |pieces| > 1 then NonEmpty(pieces[1]) else None;
    var r := Opt(HostKey, NonEmpty(pieces[0])) + Opt(PortKey, port);
    LookupAppend(Opt(HostKey, NonEmpty(pieces[0])), Opt(PortKey, port), HostKey);
    LookupAppend(Opt(HostKey, NonEmpty(pieces[0])), Opt(PortKey, port), PortKey);
    r
  }

  /** The host parameters of config.go: a host starting with '/' (a socket
      directory) is given whole; any other host is split at ':'. */
  function ConfigHostParams(host: string): (r: seq<Param>)
    ensures Ordered(r)
    ensures forall i :: 0 <= i < |r| ==> r[i].key == HostKey || r[i].key == PortKey
    ensures host == "" ==> r == []
    ensures HasPrefix(host, "/") ==> r == [Param(HostKey, host, true)]
  {
    if host == "" then []
    else if HasPrefix(host, "/") then [Param(HostKey, host, true)]
    else
      var r := SplitHostParams(host);
      assert forall i :: 0 <= i < |r| ==> r[i].key == HostKey || r[i].key == PortKey by {
        var pieces := SplitOn(host, ':');
        var port := if |pieces| > 1 then NonEmpty(pieces[1]) else None;
        assert r == Opt(HostKey, NonEmpty(pieces[0])) + Opt(PortKey, port);
      }
      r
  }

  /** The sslmode for the SSL settings. */
  function SslMode(c: DbConfig): string
  {
    if !c.ssl then "disable" else if !c.sslSkipVerify then "verify-full" else "require"
  }

  /** The parameters of config.go's Postgres connection string. */
  function PostgresParams(c: DbConfig, specifyDb: bool): (r: seq<Param>)
  {
    Opt(UserKey, NonEmpty(c.user)) + Opt(PasswordKey, NonEmpty(c.pass)) + ConfigHostParams(c.host) +
    [Param(SslModeKey, SslMode(c), false)] +
    [Param(DbNameKey, if specifyDb then c.name else "postgres", true)]
  }

  /** Parameters whose ranks all lie in `[lo, hi)`. */
  predicate Ranked(ps: seq<Param>, lo: nat, hi: nat)
  {
    forall i :: 0 <= i < |ps| ==> lo <= Rank(ps[i].key) < hi
  }

  /** Two ordered runs, the first ranked wholly below the second, stay ordered. */
  lemma OrderedAppend(a: seq<Param>, b: seq<Param>, lo: nat, mid: nat, hi: nat)
    requires lo <= mid <= hi
    requires Ordered(a) && Ranked(a, lo, mid)
    requires Ordered(b) && Ranked(b, mid, hi)
    ensures Ordered(a + b) && Ranked(a + b, lo, hi)
  {
  }

  lemma OptRanked(key: Key, v: Option<string>)
    ensures Ordered(Opt(key, v)) && Ranked(Opt(key, v), Rank(key), Rank(key) + 1)
  {
  }

  lemma HostRanked(host: string)
    ensures Ranked(ConfigHostParams(host), 2, 4)
  {
  }

  /** The Postgres parameters are written in the fixed order, each key at most
      once, ending with the sslmode and the database name: the configured
      name, or 'postgres' for the server connection. */
  lemma PostgresParamsOrdered(c: DbConfig, specifyDb: bool)
    ensures var r := PostgresParams(c, specifyDb);
      Ordered(r) && |r| >= 2 && r[|r| - 2] == Param(SslModeKey, SslMode(c), false) &&
      r[|r| - 1] == Param(DbNameKey, if specifyDb then c.name else "postgres", true)
  {
    var u := Opt(UserKey, NonEmpty(c.user));
    var p := Opt(PasswordKey, NonEmpty(c.pass));
    var h := ConfigHostParams(c.host);
    var s := [Param(SslModeKey, SslMode(c), false)];
    var d := [Param(DbNameKey, if specifyDb then c.name else "postgres", true)];
    OptRanked(UserKey, NonEmpty(c.user));
    OptRanked(PasswordKey, NonEmpty(c.pass));
    PostgresRuns(c, specifyDb);
    OrderedFive(u, p, h, s, d);
  }

  /** Five ordered runs in rank order stay ordered. */
  lemma OrderedFive(u: seq<Param>, p: seq<Param>, h: seq<Param>, s: seq<Param>, d: seq<Param>)
    requires Ordered(u) && Ranked(u, 0, 1) && Ordered(p) && Ranked(p, 1, 2)
    requires Ordered(h) && Ranked(h, 2, 4) && Ordered(s) && Ranked(s, 4, 5)
    requires Ordered(d) && Ranked(d, 5, 6)
    ensures Ordered(u + p + h + s + d)
  {
    OrderedAppend(u, p, 0, 1, 2);
    OrderedAppend(u + p, h, 0, 2, 4);
    OrderedAppend(u + p + h, s, 0, 4, 5);
    OrderedAppend(u + p + h + s, d, 0, 5, 6);
  }

  /** Looking a key up in five runs of parameters laid end to end. */
  lemma LookupFive(u: seq<Param>, p: seq<Param>, h: seq<Param>, s: seq<Param>, d: seq<Param>, key: Key)
    ensures Lookup(u + p + h + s + d, key) ==
      if Lookup(u, key).Some? then Lookup(u, key)
      else if Lookup(p, key).Some? then Lookup(p, key)
      else if Lookup(h, key).Some? then Lookup(h, key)
      else if Lookup(s, key).Some? then Lookup(s, key)
      else Lookup(d, key)
  {
    assert u + p + h + s + d == u + (p + (h + (s + d)));
    LookupAppend(u, p + (h + (s + d)), key);
    LookupAppend(p, h + (s + d), key);
    LookupAppend(h, s + d, key);
    LookupAppend(s, d, key);
  }

  /** A key ranked outside a run is not found in it. */
  lemma LookupOutside(ps: seq<Param>, lo: nat, hi: nat, key: Key)
    requires Ranked(ps, lo, hi) && !(lo <= Rank(key) < hi)
    ensures Lookup(ps, key).None?
  {
  }

  /** In five runs ranked one after the other, a key is looked up in the run
      its rank falls in. */
  lemma LookupFiveRanked(u: seq<Param>, p: seq<Param>, h: seq<Param>, s: seq<Param>, d: seq<Param>, key: Key)
    requires Ranked(u, 0, 1) && Ranked(p, 1, 2) && Ranked(h, 2, 4) && Ranked(s, 4, 5) && Ranked(d, 5, 6)
    ensures Lookup(u + p + h + s + d, key) ==
      Lookup(if Rank(key) == 0 then u else if Rank(key) == 1 then p else if Rank(key) < 4 then h
        else if Rank(key) == 4 then s else d, key)
  {
    LookupFive(u, p, h, s, d, key);
    if Rank(key) != 0 { LookupOutside(u, 0, 1, key); }
    if Rank(key) != 1 { LookupOutside(p, 1, 2, key); }
    if !(2 <= Rank(key) < 4) { LookupOutside(h, 2, 4, key); }
    if Rank(key) != 4 { LookupOutside(s, 4, 5, key); }
  }

  /** The five runs of config.go's Postgres parameters, ranked. */
  lemma PostgresRuns(c: DbConfig, specifyDb: bool)
    ensures Ranked(Opt(UserKey, NonEmpty(c.user)), 0, 1)
    ensures Ranked(Opt(PasswordKey, NonEmpty(c.pass)), 1, 2)
    ensures Ranked(ConfigHostParams(c.host), 2, 4)
    ensures Ranked([Param(SslModeKey, SslMode(c), false)], 4, 5)
    ensures Ranked([Param(DbNameKey, if specifyDb then c.name else "postgres", true)], 5, 6)
  {
    OptRanked(UserKey, NonEmpty(c.user));
    OptRanked(PasswordKey, NonEmpty(c.pass));
    HostRanked(c.host);
  }

  /** The user and password parameters are present exactly when set. */
  lemma PostgresCredentials(c: DbConfig, specifyDb: bool)
    ensures var r := PostgresParams(c, specifyDb);
      Lookup(r, UserKey) == NonEmpty(c.user) && Lookup(r, PasswordKey) == NonEmpty(c.pass)
  {
    var u := Opt(UserKey, NonEmpty(c.user));
    var p := Opt(PasswordKey, NonEmpty(c.pass));
    var h := ConfigHostParams(c.host);
    var s := [Param(SslModeKey, SslMode(c), false)];
    var d := [Param(DbNameKey, if specifyDb then c.name else "postgres", true)];
    PostgresRuns(c, specifyDb);
    LookupFiveRanked(u, p, h, s, d, UserKey);
    LookupFiveRanked(u, p, h, s, d, PasswordKey);
  }

  /** The host and port parameters are those of the host rule. */
  lemma PostgresHost(c: DbConfig, specifyDb: bool)
    ensures var r := PostgresParams(c, specifyDb);
      Lookup(r, HostKey) == Lookup(ConfigHostParams(c.host), HostKey) &&
      Lookup(r, PortKey) == Lookup(ConfigHostParams(c.host), PortKey)
  {
    var u := Opt(UserKey, NonEmpty(c.user));
    var p := Opt(PasswordKey, NonEmpty(c.pass));
    var h := ConfigHostParams(c.host);
    var s := [Param(SslModeKey, SslMode(c), false)];
    var d := [Param(DbNameKey, if specifyDb then c.name else "postgres", true)];
    PostgresRuns(c, specifyDb);
    LookupFiveRanked(u, p, h, s, d, HostKey);
    LookupFiveRanked(u, p, h, s, d, PortKey);
  }

  /** There is always an sslmode, from the SSL table, and a database name. */
  lemma PostgresSslAndName(c: DbConfig, specifyDb: bool)
    ensures var r := PostgresParams(c, specifyDb);
      Lookup(r, SslModeKey) == Some(SslMode(c)) &&
      Lookup(r, DbNameKey) == Some(if specifyDb then c.name else "postgres")
  {
    var u := Opt(UserKey, NonEmpty(c.user));
    var p := Opt(PasswordKey, NonEmpty(c.pass));
    var h := ConfigHostParams(c.host);
    var s := [Param(SslModeKey, SslMode(c), false)];
    var d := [Param(DbNameKey, if specifyDb then c.name else "postgres", true)];
    PostgresRuns(c, specifyDb);
    LookupFiveRanked(u, p, h, s, d, SslModeKey);
    LookupFiveRanked(u, p, h, s, d, DbNameKey);
  }

  /** The host rule of config.go: no host gives no host or port; a host
      starting with '/' is the host, whole, with no port; any other host gives
      the pieces around its first ':'. */
  lemma ConfigHostLookup(host: string)
    ensures host == "" ==>
      Lookup(ConfigHostParams(host), HostKey).None? && Lookup(ConfigHostParams(host), PortKey).None?
    ensures HasPrefix(host, "/") ==>
      Lookup(ConfigHostParams(host), HostKey) == Some(host) && Lookup(ConfigHostParams(host), PortKey).None?
    ensures host != "" && !HasPrefix(host, "/") ==>
      var pieces := SplitOn(host, ':');
      Lookup(ConfigHostParams(host), HostKey) == NonEmpty(pieces[0]) &&
      Lookup(ConfigHostParams(host), PortKey) == (if |pieces| > 1 then NonEmpty(pieces[1]) else None)
  {
  }

  /** config.go's Postgres connection string. */
  function PostgresDsn(c: DbConfig, specifyDb: bool): string
  {
    ParamString(PostgresParams(c, specifyDb))
  }

  // ---------------------------------------------------------------------
  // sqlite3: a file path

  /** The sqlite3 file: a name without a separator goes under `<root>/db/`; a
      name with one is used as it is; ".sqlite3" is added when the result has
      no extension. */
  function Sqlite3Dsn(c: DbConfig, root: string): (r: string)
    ensures Ext(r) != ""
  {
    var name := if Separator !in c.name then Join([root, DataDir, c.name]) else c.name;
    if Ext(name) == "" then ExtOfSuffix(name, ".sqlite3"); name + ".sqlite3" else name
  }

  /** Where the sqlite3 file goes: a plain name lands in `<root>/db/`, keeping
      its extension or gaining ".sqlite3"; a name with a separator keeps its
      directory. */
  lemma Sqlite3DsnCases(c: DbConfig, root: string)
    ensures Separator in c.name ==>
      Sqlite3Dsn(c, root) == c.name + (if Ext(c.name) == "" then ".sqlite3" else "")
    ensures Separator !in c.name && root != "" && c.name != "" ==>
      Sqlite3Dsn(c, root) ==
        root + "/" + DataDir + "/" + c.name + (if Ext(c.name) == "" then ".sqlite3" else "")
  {
    if Separator !in c.name && root != "" && c.name != "" {
      JoinThree(root, DataDir, c.name);
      var p := root + [Separator] + DataDir;
      assert Join([root, DataDir, c.name]) == p + [Separator] + c.name;
      ExtOfJoin(p, c.name);
    }
  }

  // ---------------------------------------------------------------------

  /** `dsn`: the connection string for the configured kind; any other kind is
      the program's panic. The sqlite3 path does not depend on `specifyDb`. */
  function Dsn(c: DbConfig, specifyDb: bool, root: string): (r: Result<string>)
    ensures r.Err? <==> c.kind !in {"mysql", "postgres", "sqlite3"}
    ensures r.Err? ==> r.msg == "dbm/config: No such database kind: " + c.kind
    ensures c.kind == "mysql" ==> r == Ok(MySqlDsn(c, specifyDb))
    ensures c.kind == "postgres" ==> r == Ok(PostgresDsn(c, specifyDb))
    ensures c.kind == "sqlite3" ==> r == Ok(Sqlite3Dsn(c, root))
  {
    match c.kind
    case "mysql" => Ok(MySqlDsn(c, specifyDb))
    case "postgres" => Ok(PostgresDsn(c, specifyDb))
    case "sqlite3" => Ok(Sqlite3Dsn(c, root))
    case _ => Err("dbm/config: No such database kind: " + c.kind)
  }
}

=== FILE: database.dfy ===
/** The database connection as the migration engine sees it. Like the recording
    engine of migrate_test.go, every `Exec` is appended to a log; the ledger
    table (`tracked_migrations`) is kept as the sequence of its rows, taken to
    come back in insertion order; and a fault map says which calls the driver
    rejects and with which error. Only the ledger calls change the ledger: a
    migration's own statements are taken not to write that table. */
module Database {
  import opened Results

  /** One `Exec(stmt, args...)` call. */
  datatype Call = Call(stmt: string, args: seq<string>)

  datatype Db = Db(log: seq<Call>, ledger: seq<string>, faults: map<Call, string>)

  /** The connection after a call, and the driver's error if it failed. */
  datatype Reply = Reply(db: Db, err: Option<string>)

  /** Where a sequence of steps stopped: still going, or aborted with the
      message the program prints before exiting. */
  datatype Status = Proceed(db: Db) | Abort(db: Db, msg: string)

  /** Issues one call. The call is logged whether or not it fails. */
  function Exec(db: Db, call: Call): (r: Reply)
    ensures r.db.log == db.log + [call]
    ensures r.db.ledger == db.ledger && r.db.faults == db.faults
    ensures r.err.Some? <==> call in db.faults
    ensures r.err.Some? ==> r.err.value == db.faults[call]
  {
    Reply(db.(log := db.log + [call]), if call in db.faults then Some(db.faults[call]) else None)
  }

  /** The message of a failed migration statement (migrate.go:191). */
  function StmtError(stmt: string, err: string): string
  {
    StmtHead + stmt + ErrHead + err + "\n"
  }

  const StmtHead: string := "Error in statement:\nStmt: "
  const ErrHead: string := "\nErr: "

  /** The calls that execute migration statements: no bound arguments. */
  function PlainCalls(stmts: seq<string>): (r: seq<Call>)
    ensures |r| == |stmts|
    ensures forall j :: 0 <= j < |stmts| ==> r[j] == Call(stmts[j], [])
  {
    if |stmts| == 0 then [] else PlainCalls(stmts[..|stmts| - 1]) + [Call(stmts[|stmts| - 1], [])]
  }

  /** Executes statements in order and stops at the first one the driver
      rejects; the statements before it stay executed. */
  function ExecAll(db: Db, stmts: seq<string>): (r: Status)
    ensures r.db.ledger == db.ledger && r.db.faults == db.faults
    ensures |db.log| <= |r.db.log| <= |db.log| + |stmts|
    decreases |stmts|
  {
    if |stmts| == 0 then Proceed(db)
    else
      match ExecAll(db, stmts[..|stmts| - 1])
      case Abort(d, m) => Abort(d, m)
      case Proceed(d) =>
        var last := stmts[|stmts| - 1];
        var rep := Exec(d, Call(last, []));
        if rep.err.Some? then Abort(rep.db, StmtError(last, rep.err.value)) else Proceed(rep.db)
  }

  /** The driver rejects statement `stmt` when it is issued on its own. */
  predicate Faulty(db: Db, stmt: string)
  {
    Call(stmt, []) in db.faults
  }

  /** `ExecAll` goes through exactly when no statement faults, and then every
      statement was issued once, in order. */
  lemma {:induction false} ExecAllProceeds(db: Db, stmts: seq<string>)
    ensures ExecAll(db, stmts).Proceed? <==> forall j :: 0 <= j < |stmts| ==> !Faulty(db, stmts[j])
    ensures ExecAll(db, stmts).Proceed? ==> ExecAll(db, stmts).db.log == db.log + PlainCalls(stmts)
    decreases |stmts|
  {
    if |stmts| > 0 {
      var init := stmts[..|stmts| - 1];
      ExecAllProceeds(db, init);
      assert forall j :: 0 <= j < |init| ==> init[j] == stmts[j];
    }
  }

  /** When statement `k` is the first that faults, `ExecAll` issues the
      statements through `k` in order and aborts with the driver's error for
      `k`; nothing after it is issued. */
  lemma ExecAllAborts(db: Db, stmts: seq<string>, k: nat)
    requires k < |stmts| && Faulty(db, stmts[k])
    requires forall j :: 0 <= j < k ==> !Faulty(db, stmts[j])
    ensures ExecAll(db, stmts) ==
      Abort(db.(log := db.log + PlainCalls(stmts[..k + 1])),
            StmtError(stmts[k], db.faults[Call(stmts[k], [])]))
  {
    var pre := stmts[..k + 1];
    assert pre[..k] == stmts[..k];
    ExecAllProceeds(db, stmts[..k]);
    assert PlainCalls(pre) == PlainCalls(stmts[..k]) + [Call(stmts[k], [])];
    ExecAllAbortTake(db, stmts, k + 1);
  }

  /** Once a prefix aborts, later statements are never issued. */
  lemma {:induction false} ExecAllAbortPrefix(db: Db, a: seq<string>, b: seq<string>)
    requires ExecAll(db, a).Abort?
    ensures ExecAll(db, a + b) == ExecAll(db, a)
    decreases |b|
  {
    if |b| > 0 {
      assert (a + b)[..|a + b| - 1] == a + b[..|b| - 1];
      ExecAllAbortPrefix(db, a, b[..|b| - 1]);
    } else {
      assert a + b == a;
    }
  }

  /** The same, for a run cut short at `k` statements. */
  lemma ExecAllAbortTake(db: Db, stmts: seq<string>, k: nat)
    requires k <= |stmts| && ExecAll(db, stmts[..k]).Abort?
    ensures ExecAll(db, stmts) == ExecAll(db, stmts[..k])
  {
    assert stmts == stmts[..k] + stmts[k..];
    ExecAllAbortPrefix(db, stmts[..k], stmts[k..]);
  }

  /** Executing one more statement after a run that went through. */
  lemma ExecAllSnoc(db: Db, stmts: seq<string>, last: string)
    requires ExecAll(db, stmts).Proceed?
    ensures var rep := Exec(ExecAll(db, stmts).db, Call(last, []));
      ExecAll(db, stmts + [last]) ==
        if rep.err.Some? then Abort(rep.db, StmtError(last, rep.err.value)) else Proceed(rep.db)
  {
    assert (stmts + [last])[..|stmts|] == stmts;
  }
}

=== FILE: engines.dfy ===
/** The database back ends of sqlengines.go: choosing an engine for a
    configuration, the connection strings the engine itself builds, the sqlite3
    file path, and the statements that keep the ledger table. The engine's
    connection is the `Database.Db` log; creating and dropping a database are
    described as the action the engine takes rather than performed. */
module Engines {
  import opened Results
  import opened Text
  import opened Paths
  import opened Database
  import opened Config

  /** The three supported back ends. */
  datatype Kind = MySql | Postgres | Sqlite3

  /** An engine: its kind, its configuration and, for sqlite3, the file. */
  datatype Engine = Engine(kind: Kind, conf: DbConfig, path: string)

  /** The kind as it is spelled in the configuration. */
  function KindName(k: Kind): string
  {
    match k
    case MySql => "mysql"
    case Postgres => "postgres"
    case Sqlite3 => "sqlite3"
  }

  /** The kind a configuration names, if it is one of the three. */
  function KindOf(s: string): (r: Option<Kind>)
    ensures r.Some? <==> s in {"mysql", "postgres", "sqlite3"}
  {
    match s
    case "mysql" => Some(MySql)
    case "postgres" => Some(Postgres)
    case "sqlite3" => Some(Sqlite3)
    case _ => None
  }

  /** Spelling and reading a kind are inverse. */
  lemma KindNameRoundTrip(k: Kind, s: string)
    ensures KindOf(KindName(k)) == Some(k)
    ensures KindOf(s) == Some(k) ==> KindName(k) == s
  {
  }

  // ---------------------------------------------------------------------
  // Engine construction

  /** The sqlite3 database file: a relative name goes under
      `<workingDir>/db/`, and ".sqlite3" is added when the path has no
      extension. */
  function SqlitePath(name: string, workingDir: string): (r: string)
    ensures Ext(r) != ""
  {
    var p := if IsAbs(name) then name else Join([workingDir, DataDir, name]);
    if Ext(p) == "" then ExtOfSuffix(p, ".sqlite3"); p + ".sqlite3" else p
  }

  /** An absolute name keeps its directory; a relative name lands in
      `<workingDir>/db/`; either way the extension is kept or ".sqlite3" is
      added. */
  lemma SqlitePathCases(name: string, workingDir: string)
    ensures IsAbs(name) ==>
      SqlitePath(name, workingDir) == name + (if Ext(name) == "" then ".sqlite3" else "")
    ensures !IsAbs(name) && workingDir != "" && name != "" ==>
      SqlitePath(name, workingDir) ==
        workingDir + "/" + DataDir + "/" + name + (if Ext(name) == "" then ".sqlite3" else "")
  {
    if !IsAbs(name) && workingDir != "" && name != "" {
      JoinThree(workingDir, DataDir, name);
      var d := workingDir + [Separator] + DataDir;
      assert Join([workingDir, DataDir, name]) == d + [Separator] + name;
      ExtOfJoin(d, name);
    }
  }

  /** Under an absolute working directory the file path is absolute and has an
      extension, so using it again as the name gives the same file. */
  lemma SqlitePathIdempotent(name: string, workingDir: string)
    requires IsAbs(workingDir) && name != ""
    ensures IsAbs(SqlitePath(name, workingDir))
    ensures SqlitePath(SqlitePath(name, workingDir), workingDir) == SqlitePath(name, workingDir)
  {
    SqlitePathCases(name, workingDir);
  }

  /** `NewEngine`: a configuration without a name is refused before its kind
      is looked at; an unknown kind is refused; otherwise the engine of that
      kind, which never fails to build. */
  function NewEngine(conf: DbConfig, workingDir: string): (r: Result<Engine>)
    ensures conf.name == "" ==> r == Err("dbm: Database must have a name.")
    ensures conf.name != "" && KindOf(conf.kind).None? ==> r == Err("dbm: Unknown db engine: " + conf.kind)
    ensures r.Ok? <==> conf.name != "" && conf.kind in {"mysql", "postgres", "sqlite3"}
    ensures r.Ok? ==> r.value.conf == conf && KindName(r.value.kind) == conf.kind
    ensures r.Ok? && r.value.kind == Sqlite3 ==> r.value.path == SqlitePath(conf.name, workingDir)
  {
    if conf.name == "" then Err("dbm: Database must have a name.")
    else
      match KindOf(conf.kind)
      case None => Err("dbm: Unknown db engine: " + conf.kind)
      case Some(k) =>
        KindNameRoundTrip(k, conf.kind);
        Ok(Engine(k, conf, if k == Sqlite3 then SqlitePath(conf.name, workingDir) else ""))
  }

  // ---------------------------------------------------------------------
  // Connection strings built by the engine

  lemma SplitHostRanked(host: string)
    ensures Ordered(SplitHostParams(host)) && Ranked(SplitHostParams(host), 2, 4)
  {
    var pieces := SplitOn(host, ':');
    var port := if |pieces| > 1 then NonEmpty(pieces[1]) else None;
    assert SplitHostParams(host) == Opt(HostKey, NonEmpty(pieces[0])) + Opt(PortKey, port);
  }

  /** The engine's host and port: the first and second ':'-pieces of the host,
      each only when non-empty. */
  function EngineHostParams(host: string): (r: seq<Param>)
    ensures Ordered(r) && Ranked(r, 2, 4)
    ensures Lookup(r, HostKey) == NonEmpty(SplitOn(host, ':')[0])
    ensures Lookup(r, PortKey) ==
      (var pieces := SplitOn(host, ':'); if |pieces| > 1 then NonEmpty(pieces[1]) else None)
  {
    if host == "" then
      assert SplitOn(host, ':') == [""];
      []
    else
      SplitHostRanked(host);
      SplitHostParams(host)
  }

  /** The database name parameter, present only when asked for. */
  function DbNameParams(name: string, addDbName: bool): (r: seq<Param>)
    ensures Ordered(r) && Ranked(r, 5, 6)
    ensures Lookup(r, DbNameKey) == if addDbName then Some(name) else None
  {
    if addDbName then [Param(DbNameKey, name, true)] else []
  }

  /** The Postgres parameters the engine writes: user, password, host and
      port, each only when non-empty, then the database name when asked for.
      No sslmode, and no special case for a socket directory. */
  function EngineParams(c: DbConfig, addDbName: bool): seq<Param>
  {
    Opt(UserKey, NonEmpty(c.user)) + Opt(PasswordKey, NonEmpty(c.pass)) +
    EngineHostParams(c.host) + DbNameParams(c.name, addDbName)
  }

  /** Four ordered runs in rank order stay ordered. */
  lemma OrderedFour(u: seq<Param>, p: seq<Param>, h: seq<Param>, d: seq<Param>)
    requires Ordered(u) && Ranked(u, 0, 1) && Ordered(p) && Ranked(p, 1, 2)
    requires Ordered(h) && Ranked(h, 2, 4) && Ordered(d) && Ranked(d, 5, 6)
    ensures Ordered(u + p + h + d)
  {
    OrderedAppend(u, p, 0, 1, 2);
    OrderedAppend(u + p, h, 0, 2, 4);
    OrderedAppend(u + p + h, d, 0, 5, 6);
  }

  /** The engine's Postgres parameters are in the fixed order, each key at most
      once. */
  lemma EngineParamsOrdered(c: DbConfig, addDbName: bool)
    ensures Ordered(EngineParams(c, addDbName))
  {
    OptRanked(UserKey, NonEmpty(c.user));
    OptRanked(PasswordKey, NonEmpty(c.pass));
    EngineRuns(c, addDbName);
    OrderedFour(Opt(UserKey, NonEmpty(c.user)), Opt(PasswordKey, NonEmpty(c.pass)),
      EngineHostParams(c.host), DbNameParams(c.name, addDbName));
  }

  lemma LookupFour(u: seq<Param>, p: seq<Param>, h: seq<Param>, d: seq<Param>, key: Key)
    ensures Lookup(u + p + h + d, key) ==
      if Lookup(u, key).Some? then Lookup(u, key)
      else if Lookup(p, key).Some? then Lookup(p, key)
      else if Lookup(h, key).Some? then Lookup(h, key)
      else Lookup(d, key)
  {
    assert u + p + h + d == u + (p + (h + d));
    LookupAppend(u, p + (h + d), key);
    LookupAppend(p, h + d, key);
    LookupAppend(h, d, key);
  }

  /** In four runs ranked one after the other, a key is looked up in the run
      its rank falls in; none holds the sslmode. */
  lemma LookupFourRanked(u: seq<Param>, p: seq<Param>, h: seq<Param>, d: seq<Param>, key: Key)
    requires Ranked(u, 0, 1) && Ranked(p, 1, 2) && Ranked(h, 2, 4) && Ranked(d, 5, 6)
    ensures Rank(key) == 4 ==> Lookup(u + p + h + d, key).None?
    ensures Rank(key) != 4 ==>
      Lookup(u + p + h + d, key) ==
        Lookup(if Rank(key) == 0 then u else if Rank(key) == 1 then p else if Rank(key) < 4 then h else d, key)
  {
    LookupFour(u, p, h, d, key);
    if Rank(key) != 0 { LookupOutside(u, 0, 1, key); }
    if Rank(key) != 1 { LookupOutside(p, 1, 2, key); }
    if !(2 <= Rank(key) < 4) { LookupOutside(h, 2, 4, key); }
    if Rank(key) != 5 { LookupOutside(d, 5, 6, key); }
  }

  /** The four runs of the engine's Postgres parameters, ranked. */
  lemma EngineRuns(c: DbConfig, addDbName: bool)
    ensures Ranked(Opt(UserKey, NonEmpty(c.user)), 0, 1)
    ensures Ranked(Opt(PasswordKey, NonEmpty(c.pass)), 1, 2)
    ensures Ranked(EngineHostParams(c.host), 2, 4)
    ensures Ranked(DbNameParams(c.name, addDbName), 5, 6)
  {
    OptRanked(UserKey, NonEmpty(c.user));
    OptRanked(PasswordKey, NonEmpty(c.pass));
  }

  /** The engine sends user and password when set, and never an sslmode. */
  lemma EngineCredentials(c: DbConfig, addDbName: bool)
    ensures var r := EngineParams(c, addDbName);
      Lookup(r, UserKey) == NonEmpty(c.user) && Lookup(r, PasswordKey) == NonEmpty(c.pass) &&
      Lookup(r, SslModeKey) == None
  {
    var u := Opt(UserKey, NonEmpty(c.user));
    var p := Opt(PasswordKey, NonEmpty(c.pass));
    var h := EngineHostParams(c.host);
    var d := DbNameParams(c.name, addDbName);
    EngineRuns(c, addDbName);
    LookupFourRanked(u, p, h, d, UserKey);
    LookupFourRanked(u, p, h, d, PasswordKey);
    LookupFourRanked(u, p, h, d, SslModeKey);
  }

  /** The engine sends the host's pieces as host and port, by the rule of
      `EngineHostParams`. */
  lemma EngineHost(c: DbConfig, addDbName: bool)
    ensures var r := EngineParams(c, addDbName);
      Lookup(r, HostKey) == Lookup(EngineHostParams(c.host), HostKey) &&
      Lookup(r, PortKey) == Lookup(EngineHostParams(c.host), PortKey)
  {
    var u := Opt(UserKey, NonEmpty(c.user));
    var p := Opt(PasswordKey, NonEmpty(c.pass));
    var h := EngineHostParams(c.host);
    var d := DbNameParams(c.name, addDbName);
    EngineRuns(c, addDbName);
    LookupFourRanked(u, p, h, d, HostKey);
    LookupFourRanked(u, p, h, d, PortKey);
  }

  /** The engine names the database exactly when asked to. */
  lemma EngineDbName(c: DbConfig, addDbName: bool)
    ensures Lookup(EngineParams(c, addDbName), DbNameKey) == if addDbName then Some(c.name) else None
  {
    var u := Opt(UserKey, NonEmpty(c.user));
    var p := Opt(PasswordKey, NonEmpty(c.pass));
    var h := EngineHostParams(c.host);
    var d := DbNameParams(c.name, addDbName);
    EngineRuns(c, addDbName);
    LookupFourRanked(u, p, h, d, DbNameKey);
  }

  /** The two Postgres connection strings of the program side by side: for a
      host that is not a socket directory, the configuration's parameters are
      the engine's admin parameters followed by the sslmode and the database
      name; the engine's own connection differs only by lacking the sslmode. */
  lemma EngineAndConfigParams(c: DbConfig)
    requires !HasPrefix(c.host, "/")
    ensures EngineParams(c, true) == EngineParams(c, false) + [Param(DbNameKey, c.name, true)]
    ensures PostgresParams(c, true) ==
      EngineParams(c, false) + [Param(SslModeKey, SslMode(c), false), Param(DbNameKey, c.name, true)]
  {
    var h := EngineHostParams(c.host);
    assert ConfigHostParams(c.host) == h;
    var q := Opt(UserKey, NonEmpty(c.user)) + Opt(PasswordKey, NonEmpty(c.pass)) + h;
    assert EngineParams(c, false) == q + [];
    assert EngineParams(c, true) == q + [Param(DbNameKey, c.name, true)];
    assert PostgresParams(c, true) ==
      q + [Param(SslModeKey, SslMode(c), false)] + [Param(DbNameKey, c.name, true)];
  }

  function EnginePostgresDsn(c: DbConfig, addDbName: bool): string
  {
    ParamString(EngineParams(c, addDbName))
  }

  /** The connection string `Open` uses: the one naming the database. */
  function OpenDsn(e: Engine): string
  {
    match e.kind
    case MySql => MySqlDsn(e.conf, true)
    case Postgres => EnginePostgresDsn(e.conf, true)
    case Sqlite3 => e.path
  }

  // ---------------------------------------------------------------------
  // Statements

  /** The name of the ledger table. */
  const MigTableName: string := "tracked_migrations"

  /** A statement with one `%s` slot. */
  datatype Template = Template(before: string, after: string)

  /** `fmt.Sprintf` of a one-slot template. */
  function Fill(t: Template, arg: string): string
  {
    t.before + arg + t.after
  }

  const SqlCreateDb: Template := Template("CREATE DATABASE IF NOT EXISTS ", ";")
  const SqlCreateDbPq: Template := Template("CREATE DATABASE ", ";")
  const SqlAddMig: Template := Template("INSERT INTO ", " (migration) VALUES (?);")
  const SqlAddMigPq: Template := Template("INSERT INTO ", " (migration) VALUES ($1);")
  const SqlDelMig: Template := Template("DELETE FROM ", " WHERE migration=?;")
  const SqlDelMigPq: Template := Template("DELETE FROM ", " WHERE migration=$1;")
  const SqlDropDb: Template := Template("DROP DATABASE IF EXISTS ", ";")
  const SqlWipeTrackTable: string := "DELETE FROM " + MigTableName + ";"
  const SqlCreateTrackTable: string :=
    "\nCREATE TABLE IF NOT EXISTS " + MigTableName + " (\n\tmigration varchar(255) NOT NULL\n);"

  /** The bind placeholder of the kind's driver. */
  function Placeholder(k: Kind): string
  {
    if k == Postgres then "$1" else "?"
  }

  /** The statement recording a migration, for the kind's driver. */
  function AddStatement(k: Kind): string
  {
    Fill(if k == Postgres then SqlAddMigPq else SqlAddMig, MigTableName)
  }

  /** The statement removing a migration's record, for the kind's driver. */
  function DeleteStatement(k: Kind): string
  {
    Fill(if k == Postgres then SqlDelMigPq else SqlDelMig, MigTableName)
  }

  /** Both ledger statements name the ledger table and use the driver's own
      placeholder: `$1` for Postgres, `?` for MySQL and sqlite3. */
  lemma LedgerStatements(k: Kind)
    ensures AddStatement(k) == "INSERT INTO " + MigTableName + " (migration) VALUES (" + Placeholder(k) + ");"
    ensures DeleteStatement(k) == "DELETE FROM " + MigTableName + " WHERE migration=" + Placeholder(k) + ";"
  {
    if k == Postgres {
      assert SqlAddMigPq.after == " (migration) VALUES (" + "$1" + ");";
      assert SqlDelMigPq.after == " WHERE migration=" + "$1" + ";";
    } else {
      assert SqlAddMig.after == " (migration) VALUES (" + "?" + ");";
      assert SqlDelMig.after == " WHERE migration=" + "?" + ";";
    }
  }

  // ---------------------------------------------------------------------
  // The ledger table

  /** The ledger without any row recording `mig`: every other row is kept,
      as often as it occurs. */
  function Remove(ledger: seq<string>, mig: string): (r: seq<string>)
    ensures multiset(r) == multiset(ledger)[mig := 0]
    ensures mig !in r
    ensures forall x :: x in r <==> x in ledger && x != mig
    ensures mig !in ledger ==> r == ledger
  {
    if |ledger| == 0 then []
    else
      var init := Remove(ledger[..|ledger| - 1], mig);
      var last := ledger[|ledger| - 1];
      assert ledger == ledger[..|ledger| - 1] + [last];
      if last == mig then init else init + [last]
  }

  /** Removing works row by row and keeps the order of the rows: the ledger
      of two runs of rows loses the record from each run separately. */
  lemma {:induction false} RemoveConcat(a: seq<string>, b: seq<string>, mig: string)
    ensures Remove(a + b, mig) == Remove(a, mig) + Remove(b, mig)
    decreases |b|
  {
    if |b| > 0 {
      var init := b[..|b| - 1];
      var last := b[|b| - 1];
      assert (a + b)[..|a + b| - 1] == a + init;
      RemoveConcat(a, init, mig);
    } else {
      assert a + b == a;
    }
  }

  /** Removing a record just added leaves a ledger that did not hold it as it
      was. */
  lemma {:induction false} RemoveAfterAppend(ledger: seq<string>, mig: string)
    ensures Remove(ledger + [mig], mig) == Remove(ledger, mig)
    ensures mig !in ledger ==> Remove(ledger + [mig], mig) == ledger
  {
    assert (ledger + [mig])[..|ledger|] == ledger;
  }

  /** `createTrackTable`: create the ledger table if needed, then empty it;
      when the first statement fails the second is not issued. */
  function CreateMigrationsTable(db: Db): (r: Reply)
    ensures r.err.None? <==> !Faulty(db, SqlCreateTrackTable) && !Faulty(db, SqlWipeTrackTable)
    ensures r.err.None? ==>
      r.db.ledger == [] && r.db.log == db.log + [Call(SqlCreateTrackTable, []), Call(SqlWipeTrackTable, [])]
    ensures Faulty(db, SqlCreateTrackTable) ==>
      r == Reply(db.(log := db.log + [Call(SqlCreateTrackTable, [])]), Some(db.faults[Call(SqlCreateTrackTable, [])]))
    ensures r.err.Some? ==> r.db.ledger == db.ledger
  {
    var first := Exec(db, Call(SqlCreateTrackTable, []));
    if first.err.Some? then first
    else
      var second := Exec(first.db, Call(SqlWipeTrackTable, []));
      if second.err.Some? then second else Reply(second.db.(ledger := []), None)
  }

  /** `AddMigration`: one call, the insert with the migration as its only
      argument; when it goes through the migration is the ledger's newest row. */
  function AddMigration(k: Kind, db: Db, mig: string): (r: Reply)
    ensures |r.db.log| == |db.log| + 1 && r.db.log[..|db.log|] == db.log
    ensures r.db.log[|db.log|].args == [mig]
    ensures Contains(r.db.log[|db.log|].stmt, MigTableName)
    ensures r.db.log == db.log + [Call(AddStatement(k), [mig])]
    ensures r.err.None? <==> !(Call(AddStatement(k), [mig]) in db.faults)
    ensures r.err.None? ==> r.db.ledger == db.ledger + [mig]
    ensures r.err.Some? ==> r.db.ledger == db.ledger
  {
    var rep := Exec(db, Call(AddStatement(k), [mig]));
    var t := if k == Postgres then SqlAddMigPq else SqlAddMig;
    ContainsMiddle(t.before, MigTableName, t.after);
    assert rep.db.log[..|db.log|] == db.log;
    if rep.err.Some? then rep else Reply(rep.db.(ledger := rep.db.ledger + [mig]), None)
  }

  /** `DeleteMigration`: one call, the delete with the migration as its only
      argument; when it goes through no row records the migration any more. */
  function DeleteMigration(k: Kind, db: Db, mig: string): (r: Reply)
    ensures |r.db.log| == |db.log| + 1 && r.db.log[..|db.log|] == db.log
    ensures r.db.log[|db.log|].args == [mig]
    ensures Contains(r.db.log[|db.log|].stmt, MigTableName)
    ensures r.db.log == db.log + [Call(DeleteStatement(k), [mig])]
    ensures r.err.None? <==> !(Call(DeleteStatement(k), [mig]) in db.faults)
    ensures r.err.None? ==> r.db.ledger == Remove(db.ledger, mig)
    ensures r.err.None? ==> mig !in r.db.ledger && forall x :: x != mig ==> (x in r.db.ledger <==> x in db.ledger)
    ensures r.err.Some? ==> r.db.ledger == db.ledger
  {
    var rep := Exec(db, Call(DeleteStatement(k), [mig]));
    var t := if k == Postgres then SqlDelMigPq else SqlDelMig;
    ContainsMiddle(t.before, MigTableName, t.after);
    assert rep.db.log[..|db.log|] == db.log;
    if rep.err.Some? then rep else Reply(rep.db.(ledger := Remove(rep.db.ledger, mig)), None)
  }

  // ---------------------------------------------------------------------
  // Creating and dropping the database

  /** What `CreateDB` and `DropDB` do: run one statement over a connection that
      does not name the database, make sure a directory exists, or remove a
      file. */
  datatype AdminAction = RunStatement(dsn: string, stmt: string) | EnsureDirectory(dir: string) | RemoveFile(path: string)

  /** The server connection of the SQL engines. */
  function AdminDsn(e: Engine): string
  {
    if e.kind == MySql then MySqlDsn(e.conf, false) else EnginePostgresDsn(e.conf, false)
  }

  function CreateDb(e: Engine): AdminAction
  {
    match e.kind
    case MySql => RunStatement(AdminDsn(e), Fill(SqlCreateDb, e.conf.name))
    case Postgres => RunStatement(AdminDsn(e), Fill(SqlCreateDbPq, e.conf.name))
    case Sqlite3 => EnsureDirectory(Dir(e.path))
  }

  function DropDb(e: Engine): AdminAction
  {
    match e.kind
    case Sqlite3 => RemoveFile(e.path)
    case _ => RunStatement(AdminDsn(e), Fill(SqlDropDb, e.conf.name))
  }

  /** MySQL creates with IF NOT EXISTS, Postgres without it, and both drop
      with IF EXISTS, over a connection that leaves the database out; sqlite3
      runs no statement at all but works on the file and its directory. */
  lemma CreateDropActions(e: Engine)
    ensures e.kind == MySql ==>
      CreateDb(e) == RunStatement(MySqlDsn(e.conf, false), "CREATE DATABASE IF NOT EXISTS " + e.conf.name + ";")
    ensures e.kind == Postgres ==>
      CreateDb(e) == RunStatement(EnginePostgresDsn(e.conf, false), "CREATE DATABASE " + e.conf.name + ";")
    ensures e.kind != Sqlite3 ==>
      DropDb(e) == RunStatement(AdminDsn(e), "DROP DATABASE IF EXISTS " + e.conf.name + ";")
    ensures e.kind == Sqlite3 ==> CreateDb(e) == EnsureDirectory(Dir(e.path)) && DropDb(e) == RemoveFile(e.path)
  {
  }

  /** The server connection never names the database; the connection `Open`
      uses always does. */
  lemma AdminDsnOmitsName(e: Engine)
    requires e.kind != Sqlite3
    ensures e.kind == MySql ==>
      AdminDsn(e)[|AdminDsn(e)| - 1] == '/' && OpenDsn(e) == AdminDsn(e) + e.conf.name
    ensures e.kind == Postgres ==>
      Lookup(EngineParams(e.conf, false), DbNameKey) == None &&
      Lookup(EngineParams(e.conf, true), DbNameKey) == Some(e.conf.name)
  {
    if e.kind == Postgres {
      EngineDbName(e.conf, false);
      EngineDbName(e.conf, true);
    }
  }
}

=== FILE: migration_file.dfy ===
/** Reading a migration file into its up and down parts (`getMigrationParts`,
    migrate.go:109-140). The file arrives as its lines, as `bufio.Scanner`
    yields them; every line equal to the separator is dropped, the lines before
    the first separator make the up part and all later lines the down part,
    each kept line followed by a newline. */
module MigrationFile {
  import opened Results
  import opened Text
  import opened Naming
  import Splitter

  /** The lines of a text as the scanner yields them: split at each newline,
      with no empty last line for a text that ends in a newline. */
  function Lines(text: string): (r: seq<string>)
    ensures forall i :: 0 <= i < |r| ==> '\n' !in r[i]
  {
    if text == "" then []
    else
      var pieces := SplitOn(text, '\n');
      if pieces[|pieces| - 1] == "" then pieces[..|pieces| - 1] else pieces
  }

  /** Each line followed by a newline: the text a list of lines was read from. */
  function Unlines(lines: seq<string>): (r: string)
    ensures r == "" || r[|r| - 1] == '\n'
    ensures |lines| == 0 ==> r == ""
  {
    if |lines| == 0 then "" else Unlines(lines[..|lines| - 1]) + lines[|lines| - 1] + "\n"
  }

  lemma UnlinesAppend(a: seq<string>, b: seq<string>)
    ensures Unlines(a + b) == Unlines(a) + Unlines(b)
    decreases |b|
  {
    if |b| > 0 {
      assert (a + b)[..|a + b| - 1] == a + b[..|b| - 1];
      UnlinesAppend(a, b[..|b| - 1]);
    } else {
      assert a + b == a;
    }
  }

  lemma UnlinesOne(x: string)
    ensures Unlines([x]) == x + "\n"
  {
    assert [x][..0] == [];
  }

  /** `Unlines` written front to back: the first line, its newline, the rest. */
  lemma UnlinesCons(x: string, rest: seq<string>)
    ensures Unlines([x] + rest) == x + "\n" + Unlines(rest)
  {
    UnlinesAppend([x], rest);
    assert [x][..0] == [];
  }

  /** Splitting `Unlines(lines)` at newlines gives the lines and one empty piece. */
  lemma {:induction false} SplitUnlines(lines: seq<string>)
    requires forall i :: 0 <= i < |lines| ==> '\n' !in lines[i]
    ensures SplitOn(Unlines(lines), '\n') == lines + [""]
    decreases |lines|
  {
    var pieces := lines + [""];
    assert forall i :: 0 <= i < |pieces| ==> '\n' !in pieces[i];
    JoinUnlines(lines);
    SplitJoin(pieces, '\n');
  }

  lemma {:induction false} JoinUnlines(lines: seq<string>)
    ensures JoinWith(lines + [""], "\n") == Unlines(lines)
    decreases |lines|
  {
    if |lines| > 0 {
      var rest := lines[1..];
      JoinUnlines(rest);
      assert (lines + [""])[1..] == rest + [""];
      assert lines == [lines[0]] + rest;
      UnlinesCons(lines[0], rest);
    }
  }

  /** Reading back the text written from lines gives the same lines. */
  lemma LinesUnlines(lines: seq<string>)
    requires forall i :: 0 <= i < |lines| ==> '\n' !in lines[i]
    ensures Lines(Unlines(lines)) == lines
  {
    if |lines| > 0 {
      SplitUnlines(lines);
      assert (lines + [""])[..|lines|] == lines;
    }
  }

  predicate IsSeparator(line: string)
  {
    line == MigSeparator
  }

  /** The lines that are not separators, in order: every other line is kept,
      as often as it occurs. */
  function Kept(lines: seq<string>): (r: seq<string>)
    ensures forall i :: 0 <= i < |r| ==> !IsSeparator(r[i])
    ensures multiset(r) == multiset(lines)[MigSeparator := 0]
    ensures forall x :: x in r <==> x in lines && !IsSeparator(x)
    ensures (forall i :: 0 <= i < |lines| ==> !IsSeparator(lines[i])) ==> r == lines
    ensures |r| <= |lines|
  {
    if |lines| == 0 then []
    else
      var init := Kept(lines[..|lines| - 1]);
      assert lines == lines[..|lines| - 1] + [lines[|lines| - 1]];
      if IsSeparator(lines[|lines| - 1]) then init else init + [lines[|lines| - 1]]
  }

  /** Keeping works line by line and keeps the order of the lines. */
  lemma {:induction false} KeptConcat(a: seq<string>, b: seq<string>)
    ensures Kept(a + b) == Kept(a) + Kept(b)
    decreases |b|
  {
    if |b| > 0 {
      var init := b[..|b| - 1];
      assert (a + b)[..|a + b| - 1] == a + init;
      KeptConcat(a, init);
    } else {
      assert a + b == a;
    }
  }

  /** Where the first separator line is. */
  function FirstSeparator(lines: seq<string>): (r: Option<nat>)
    ensures r.None? <==> forall i :: 0 <= i < |lines| ==> !IsSeparator(lines[i])
    ensures r.Some? ==>
      r.value < |lines| && IsSeparator(lines[r.value]) && forall i :: 0 <= i < r.value ==> !IsSeparator(lines[i])
  {
    if |lines| == 0 then None
    else if IsSeparator(lines[0]) then Some(0)
    else
      match FirstSeparator(lines[1..])
      case None => None
      case Some(i) => Some(i + 1)
  }

  lemma FirstSeparatorAt(lines: seq<string>, k: nat)
    requires k < |lines| && IsSeparator(lines[k])
    requires forall i :: 0 <= i < k ==> !IsSeparator(lines[i])
    ensures FirstSeparator(lines) == Some(k)
  {
  }

  /** The up and down parts of a migration file. */
  datatype Parts = Parts(up: string, down: string)

  /** The reference split: up is the text before the first separator line, down
      is every later line that is not itself a separator. */
  function SplitParts(lines: seq<string>): (r: Parts)
  {
    match FirstSeparator(lines)
    case None => Parts(Unlines(lines), "")
    case Some(i) => Parts(Unlines(lines[..i]), Unlines(Kept(lines[i + 1..])))
  }

  lemma KeptSnoc(lines: seq<string>, x: string)
    ensures Kept(lines + [x]) == if IsSeparator(x) then Kept(lines) else Kept(lines) + [x]
  {
    assert (lines + [x])[..|lines|] == lines;
  }

  /** The parts of the lines read so far, as the program's loop holds them. */
  predicate Read(lines: seq<string>, n: nat, up: string, down: string, doingDown: bool)
    requires n <= |lines|
  {
    var pre := lines[..n];
    doingDown == FirstSeparator(pre).Some? && Parts(up, down) == SplitParts(pre)
  }

  /** The program's loop over the lines (`getMigrationParts`): a separator line
      switches to the down part and is dropped; any other line goes, with a
      newline, to the part being read. */
  method GetMigrationParts(lines: seq<string>) returns (up: string, down: string)
    ensures Parts(up, down) == SplitParts(lines)
  {
    up, down := "", "";
    var doingDown := false;
    var n := 0;
    while n < |lines|
      invariant n <= |lines|
      invariant Read(lines, n, up, down, doingDown)
    {
      var line := lines[n];
      assert lines[..n + 1] == lines[..n] + [line];
      ReadStep(lines[..n], line, up, down, doingDown);
      if IsSeparator(line) {
        doingDown := true;
      } else if doingDown {
        down := down + line + "\n";
      } else {
        up := up + line + "\n";
      }
      n := n + 1;
    }
    assert lines[..n] == lines;
  }

  /** One line more, as the loop body treats it. */
  lemma ReadStep(pre: seq<string>, line: string, up: string, down: string, doingDown: bool)
    requires doingDown == FirstSeparator(pre).Some? && Parts(up, down) == SplitParts(pre)
    ensures var p := pre + [line];
      FirstSeparator(p).Some? == (doingDown || IsSeparator(line)) &&
      SplitParts(p) ==
        if IsSeparator(line) then Parts(up, down)
        else if doingDown then Parts(up, down + line + "\n")
        else Parts(up + line + "\n", down)
  {
    var p := pre + [line];
    assert forall i :: 0 <= i < |pre| ==> p[i] == pre[i];
    match FirstSeparator(pre)
    case None =>
      ReadStepInUp(pre, line);
    case Some(i) =>
      ReadStepInDown(pre, line, i);
  }

  /** Before any separator: a separator line opens the down part, any other line
      extends the up part. */
  lemma ReadStepInUp(pre: seq<string>, line: string)
    requires FirstSeparator(pre).None?
    ensures var p := pre + [line];
      FirstSeparator(p).Some? == IsSeparator(line) &&
      SplitParts(p) ==
        if IsSeparator(line) then Parts(Unlines(pre), "") else Parts(Unlines(pre) + line + "\n", "")
  {
    var p := pre + [line];
    assert p[..|pre|] == pre;
    assert forall i :: 0 <= i < |pre| ==> p[i] == pre[i];
    if IsSeparator(line) {
      FirstSeparatorAt(p, |pre|);
      assert p[|pre| + 1..] == [];
    } else {
      assert FirstSeparator(p).None?;
    }
  }

  /** After the first separator: every other line extends the down part. */
  lemma ReadStepInDown(pre: seq<string>, line: string, i: nat)
    requires FirstSeparator(pre) == Some(i)
    ensures var p := pre + [line];
      FirstSeparator(p) == Some(i) &&
      SplitParts(p) ==
        var d := Unlines(Kept(pre[i + 1..]));
        Parts(Unlines(pre[..i]), if IsSeparator(line) then d else d + line + "\n")
  {
    FirstSeparatorSnoc(pre, line, i);
    DownSnoc(pre[i + 1..], line);
  }

  lemma FirstSeparatorSnoc(pre: seq<string>, line: string, i: nat)
    requires FirstSeparator(pre) == Some(i)
    ensures var p := pre + [line];
      FirstSeparator(p) == Some(i) && p[..i] == pre[..i] && p[i + 1..] == pre[i + 1..] + [line]
  {
    var p := pre + [line];
    assert forall j :: 0 <= j < |pre| ==> p[j] == pre[j];
    FirstSeparatorAt(p, i);
  }

  lemma DownSnoc(rest: seq<string>, line: string)
    ensures Unlines(Kept(rest + [line])) ==
      if IsSeparator(line) then Unlines(Kept(rest)) else Unlines(Kept(rest)) + line + "\n"
  {
    KeptSnoc(rest, line);
    UnlinesAppend(Kept(rest), [line]);
    UnlinesOne(line);
  }

  /** A file without a separator line has an empty down part. */
  lemma NoSeparatorNoDown(lines: seq<string>)
    requires forall i :: 0 <= i < |lines| ==> !IsSeparator(lines[i])
    ensures SplitParts(lines) == Parts(Unlines(lines), "")
  {
  }

  /** Both parts are empty or end in a newline, so the splitter can never run
      past a line comment at their end. */
  lemma PartsAreSafe(lines: seq<string>)
    ensures var p := SplitParts(lines);
      Splitter.ModeAt(p.up, |p.up|) != Splitter.LineComment &&
      Splitter.ModeAt(p.down, |p.down|) != Splitter.LineComment
  {
    var p := SplitParts(lines);
    Splitter.NewlineEndedIsSafe(p.up);
    Splitter.NewlineEndedIsSafe(p.down);
  }

  /** The text of a migration file with the given up and down lines. */
  function Compose(up: seq<string>, down: seq<string>): string
  {
    Unlines(up + [MigSeparator] + down)
  }

  /** Reading a composed file gives back its two parts: the parser inverts
      composition when no line is a separator or holds a newline. */
  lemma ComposeRoundTrip(up: seq<string>, down: seq<string>)
    requires forall i :: 0 <= i < |up| ==> !IsSeparator(up[i]) && '\n' !in up[i]
    requires forall i :: 0 <= i < |down| ==> !IsSeparator(down[i]) && '\n' !in down[i]
    ensures SplitParts(Lines(Compose(up, down))) == Parts(Unlines(up), Unlines(down))
  {
    ComposedLines(up, down);
    SplitComposed(up, down);
  }

  /** The lines of a composed file are its up lines, the separator and its
      down lines. */
  lemma ComposedLines(up: seq<string>, down: seq<string>)
    requires forall i :: 0 <= i < |up| ==> '\n' !in up[i]
    requires forall i :: 0 <= i < |down| ==> '\n' !in down[i]
    ensures Lines(Compose(up, down)) == up + [MigSeparator] + down
  {
    var lines := up + [MigSeparator] + down;
    assert forall i :: 0 <= i < |lines| ==> '\n' !in lines[i] by {
      assert forall i :: 0 <= i < |up| ==> lines[i] == up[i];
      assert forall i :: |up| < i < |lines| ==> lines[i] == down[i - |up| - 1];
    }
    LinesUnlines(lines);
  }

  /** Splitting at the one separator between up and down lines gives back
      both. */
  lemma SplitComposed(up: seq<string>, down: seq<string>)
    requires forall i :: 0 <= i < |up| ==> !IsSeparator(up[i])
    requires forall i :: 0 <= i < |down| ==> !IsSeparator(down[i])
    ensures SplitParts(up + [MigSeparator] + down) == Parts(Unlines(up), Unlines(down))
  {
    var lines := up + [MigSeparator] + down;
    assert forall i :: 0 <= i < |up| ==> lines[i] == up[i];
    FirstSeparatorAt(lines, |up|);
    assert lines[..|up|] == up;
    assert lines[|up| + 1..] == down;
    assert Kept(down) == down;
  }

  // ---------------------------------------------------------------------
  // The scanner's line limit

  /** `bufio.MaxScanTokenSize`: the scanner gives up on a line of this many
      bytes or more, its newline not counted. */
  const MaxScanTokenSize: nat := 65536

  /** The error the scanner keeps for such a line. */
  const TokenTooLong: string := "bufio.Scanner: token too long"

  /** The number of bytes UTF-8 spends on a character. */
  function Utf8Width(c: char): (w: nat)
    ensures 1 <= w <= 4
    ensures w == 1 <==> c as int < 0x80
  {
    if c as int < 0x80 then 1
    else if c as int < 0x800 then 2
    else if c as int < 0x1_0000 then 3
    else 4
  }

  /** The length of a line in bytes, as the file holds it in UTF-8: at least
      one byte and at most four per character. */
  function Utf8Len(s: string): (n: nat)
    ensures |s| <= n <= 4 * |s|
    ensures (forall i :: 0 <= i < |s| ==> s[i] as int < 0x80) ==> n == |s|
  {
    if |s| == 0 then 0 else Utf8Len(s[..|s| - 1]) + Utf8Width(s[|s| - 1])
  }

  /** Characters of one width take that many bytes each. */
  lemma {:induction false} Utf8LenUniform(s: string, w: nat)
    requires forall i :: 0 <= i < |s| ==> Utf8Width(s[i]) == w
    ensures Utf8Len(s) == w * |s|
    decreases |s|
  {
    if |s| > 0 {
      var init := s[..|s| - 1];
      assert forall i :: 0 <= i < |init| ==> init[i] == s[i];
      Utf8LenUniform(init, w);
    }
  }

  /** The scanner counts bytes: a line is too long at 65536 bytes. */
  predicate TooLong(line: string)
  {
    Utf8Len(line) >= MaxScanTokenSize
  }

  /** A line of 22000 euro signs is only 22000 characters long, but 66000
      bytes: too long for the scanner. */
  lemma ThreeByteLineTooLong()
    ensures TooLong(seq(22000, _ => '€'))
  {
    var line := seq(22000, _ => '€');
    assert Utf8Width('€') == 3;
    Utf8LenUniform(line, 3);
  }

  /** No line is too long for the scanner. */
  predicate Readable(lines: seq<string>)
  {
    forall i :: 0 <= i < |lines| ==> !TooLong(lines[i])
  }

  /** Lines joined end to end are readable exactly when both runs are. */
  lemma ReadableConcat(a: seq<string>, b: seq<string>)
    ensures Readable(a + b) <==> Readable(a) && Readable(b)
  {
    assert forall i :: 0 <= i < |a| ==> (a + b)[i] == a[i];
    assert forall i :: 0 <= i < |b| ==> (a + b)[|a| + i] == b[i];
  }

  /** The lines the scanner yields: those before the first line that is too
      long. `Scan` returns false on that line and yields nothing after it. */
  function ScannedLines(lines: seq<string>): (r: seq<string>)
    ensures |r| <= |lines| && r == lines[..|r|]
    ensures Readable(r)
    ensures |r| < |lines| ==> TooLong(lines[|r|])
  {
    if |lines| == 0 || TooLong(lines[0]) then []
    else
      var rest := ScannedLines(lines[1..]);
      assert [lines[0]] + rest == lines[..|rest| + 1];
      [lines[0]] + rest
  }

  /** `getMigrationParts` as written: the scanner's error is looked at only
      inside the loop, which has already ended when `Scan` fails. The parts
      are those of the lines before a line that is too long. */
  function ScanParts(lines: seq<string>): Parts
  {
    SplitParts(ScannedLines(lines))
  }

  /** As written, a line that is too long ends the file without a word: the
      parts are those of the lines before it. */
  lemma ScanPartsTruncates(lines: seq<string>, k: nat)
    requires k < |lines| && TooLong(lines[k])
    requires forall i :: 0 <= i < k ==> !TooLong(lines[i])
    ensures ScanParts(lines) == SplitParts(lines[..k])
  {
    assert |ScannedLines(lines)| == k;
  }

  /** A statement after a line that is too long is lost: the up part as
      written holds only the first statement, where the file has two. */
  lemma LongLineLosesStatements()
    ensures var long := seq(MaxScanTokenSize, _ => '-');
      var lines := ["CREATE TABLE a (x int);", long, "CREATE TABLE b (y int);"];
      ScanParts(lines) == Parts("CREATE TABLE a (x int);\n", "") &&
      SplitParts(lines) == Parts(Unlines(lines), "") &&
      ScanParts(lines) != SplitParts(lines)
  {
    var long := seq(MaxScanTokenSize, _ => '-');
    var lines := ["CREATE TABLE a (x int);", long, "CREATE TABLE b (y int);"];
    ScanPartsTruncates(lines, 1);
    assert lines[..1] == ["CREATE TABLE a (x int);"];
    assert FirstSeparator(lines[..1]) == None;
    UnlinesOne("CREATE TABLE a (x int);");
    assert |long| != |MigSeparator|;
    assert TooLong(long);
    assert FirstSeparator(lines) == None;
    assert lines == [lines[0]] + [long, lines[2]];
    UnlinesCons(lines[0], [long, lines[2]]);
    UnlinesCons(long, [lines[2]]);
    assert |Unlines(lines)| > MaxScanTokenSize;
  }

  /** `getMigrationParts` with the scanner's error looked at once the loop
      has ended: a line that is too long is reported, never cut off. */
  function ReadParts(lines: seq<string>): (r: Result<Parts>)
    ensures r.Ok? <==> Readable(lines)
    ensures r.Err? ==> r.msg == TokenTooLong
    ensures r.Ok? ==> r.value == SplitParts(lines)
    ensures r.Ok? ==> r.value == ScanParts(lines)
  {
    var scanned := ScannedLines(lines);
    if |scanned| < |lines| then Err(TokenTooLong)
    else
      assert scanned == lines;
      Ok(ScanParts(lines))
  }

  /** With the error looked at, a composed file reads back as its two parts
      exactly when none of its lines is too long, and is refused otherwise. */
  lemma ReadComposeRoundTrip(up: seq<string>, down: seq<string>)
    requires forall i :: 0 <= i < |up| ==> !IsSeparator(up[i]) && '\n' !in up[i]
    requires forall i :: 0 <= i < |down| ==> !IsSeparator(down[i]) && '\n' !in down[i]
    ensures ReadParts(Lines(Compose(up, down))).Ok? <==> Readable(up) && Readable(down)
    ensures ReadParts(Lines(Compose(up, down))).Ok? ==>
      ReadParts(Lines(Compose(up, down))).value == Parts(Unlines(up), Unlines(down))
  {
    ComposedLines(up, down);
    SplitComposed(up, down);
    ReadableConcat(up, [MigSeparator]);
    ReadableConcat(up + [MigSeparator], down);
    assert Readable([MigSeparator]);
  }

  /** The template of a new migration is the file composed of the up lines
      "" and the up placeholder, and the down placeholder as the only down
      line. */
  lemma LayoutComposed()
    ensures Compose(["", UpComment], [DownComment]) == MigLayout
  {
    var up := ["", UpComment];
    UnlinesOne("");
    UnlinesOne(MigSeparator);
    UnlinesOne(DownComment);
    assert up == [""] + [UpComment];
    UnlinesCons("", [UpComment]);
    UnlinesOne(UpComment);
    UnlinesAppend(up + [MigSeparator], [DownComment]);
    UnlinesAppend(up, [MigSeparator]);
  }

  /** The template of a new migration reads back as the up placeholder after an
      empty line, and the down placeholder. */
  lemma LayoutParts()
    ensures SplitParts(Lines(MigLayout)) ==
      Parts("\n" + UpComment + "\n", DownComment + "\n")
  {
    LayoutSplit();
    UnlinesCons("", [UpComment]);
    UnlinesOne(UpComment);
    UnlinesOne(DownComment);
  }

  /** The template splits into the texts of its up and down lines. */
  lemma LayoutSplit()
    ensures SplitParts(Lines(MigLayout)) == Parts(Unlines(["", UpComment]), Unlines([DownComment]))
  {
    LayoutComposed();
    var up, down := ["", UpComment], [DownComment];
    assert '\n' !in UpComment && '\n' !in DownComment;
    assert !IsSeparator("") && !IsSeparator(UpComment) && !IsSeparator(DownComment);
    assert forall i :: 0 <= i < |up| ==> !IsSeparator(up[i]) && '\n' !in up[i];
    ComposeRoundTrip(up, down);
  }
}

=== FILE: naming.dfy ===
/** Naming and layout of new migration files (new.go): the name validator, the
    default name, the timestamped file name and the template a new file gets. */
module Naming {
  import opened Results
  import opened Text

  /** The line that separates the up part of a migration from its down part. */
  const MigSeparator: string := "!========================!"

  /** The name a migration gets when none is given. */
  const DefaultName: string := "new_migration"

  const UpComment: string := "// Up migration code goes here"
  const DownComment: string := "// Down migration code goes here"

  /** The text of a new migration file: an empty line, the up placeholder, the
      separator alone on its line, then the down placeholder. */
  const MigLayout: string := "\n" + UpComment + "\n" + MigSeparator + "\n" + DownComment + "\n"

  predicate IsLower(c: char)
  {
    'a' <= c <= 'z'
  }

  predicate NameChar(c: char)
  {
    IsLower(c) || c == '_'
  }

  /** The names the pattern `^([a-z]|[a-z][a-z_]*[a-z])$` accepts: lower-case
      letters and underscores, starting and ending with a letter. */
  predicate ValidName(s: string)
  {
    |s| >= 1 && IsLower(s[0]) && IsLower(s[|s| - 1]) && forall k :: 0 <= k < |s| ==> NameChar(s[k])
  }

  /** The states of a left-to-right matcher for the pattern: nothing read yet,
      last character a letter, last character an underscore, or rejected. */
  datatype MatchState = Start | AfterLetter | AfterUnderscore | Rejected

  function Feed(st: MatchState, c: char): MatchState
  {
    if st == Rejected || !NameChar(c) then Rejected
    else if st == Start then (if IsLower(c) then AfterLetter else Rejected)
    else if IsLower(c) then AfterLetter
    else AfterUnderscore
  }

  /** What the matcher's state says about the prefix read so far. */
  predicate Describes(st: MatchState, s: string)
  {
    match st
    case Start => s == ""
    case AfterLetter => ValidName(s)
    case AfterUnderscore =>
      |s| >= 2 && IsLower(s[0]) && s[|s| - 1] == '_' && forall k :: 0 <= k < |s| ==> NameChar(s[k])
    case Rejected => s != "" && !(IsLower(s[0]) && forall k :: 0 <= k < |s| ==> NameChar(s[k]))
  }

  /** One matcher step keeps the state's description true of the longer prefix. */
  lemma FeedDescribes(st: MatchState, s: string, c: char)
    requires Describes(st, s)
    ensures Describes(Feed(st, c), s + [c])
  {
    var t := s + [c];
    assert forall k :: 0 <= k < |s| ==> t[k] == s[k];
    if st == Rejected && s != "" && IsLower(s[0]) {
      var k :| 0 <= k < |s| && !NameChar(s[k]);
      assert !NameChar(t[k]);
    }
  }

  /** Checks a name the way the compiled pattern does, one character at a time. */
  method MatchName(s: string) returns (ok: bool)
    ensures ok <==> ValidName(s)
  {
    var st := Start;
    var i := 0;
    while i < |s|
      invariant i <= |s|
      invariant Describes(st, s[..i])
    {
      FeedDescribes(st, s[..i], s[i]);
      assert s[..i] + [s[i]] == s[..i + 1];
      st := Feed(st, s[i]);
      i := i + 1;
    }
    assert s[..i] == s;
    ok := st == AfterLetter;
  }

  /** The migration name for the command's arguments: the default without
      arguments, otherwise the arguments joined by '_', which must be a valid
      name. */
  function MigrationName(args: seq<string>): (r: Result<string>)
    ensures r.Ok? ==> ValidName(r.value)
    ensures |args| == 0 ==> r == Ok(DefaultName)
    ensures |args| > 0 && r.Ok? ==> r.value == JoinWith(args, "_")
    ensures |args| > 0 ==> (r.Ok? <==> ValidName(JoinWith(args, "_")))
    ensures r.Err? ==> |args| > 0 && r.msg == Line(["Invalid migration name:", JoinWith(args, "_")])
  {
    if |args| == 0 then Ok(DefaultName)
    else
      var name := JoinWith(args, "_");
      if ValidName(name) then Ok(name) else Err(Line(["Invalid migration name:", name]))
  }

  /** Arguments that are each a valid name join into a valid name, so the
      command accepts them. */
  lemma {:induction false} JoinValidNames(args: seq<string>)
    requires |args| >= 1
    requires forall i :: 0 <= i < |args| ==> ValidName(args[i])
    ensures ValidName(JoinWith(args, "_"))
    ensures MigrationName(args) == Ok(JoinWith(args, "_"))
    decreases |args|
  {
    if |args| > 1 {
      JoinValidNames(args[1..]);
      var a := args[0];
      var rest := JoinWith(args[1..], "_");
      var s := a + "_" + rest;
      assert JoinWith(args, "_") == s;
      assert forall k :: 0 <= k < |a| ==> s[k] == a[k];
      assert forall k :: |a| + 1 <= k < |s| ==> s[k] == rest[k - |a| - 1];
      assert s[|s| - 1] == rest[|rest| - 1];
    }
  }

  /** Without arguments the default name is used, and it is itself valid. */
  lemma DefaultNameAccepted()
    ensures MigrationName([]) == Ok(DefaultName)
    ensures ValidName(DefaultName)
  {
  }

  // ---------------------------------------------------------------------
  // The timestamp prefix "20060102150405_"

  /** The clock reading a new migration is stamped with. */
  datatype Stamp = Stamp(year: nat, month: nat, day: nat, hour: nat, minute: nat, second: nat)

  /** A reading as the clock gives it: four-digit year, calendar ranges. */
  predicate ValidStamp(t: Stamp)
  {
    t.year <= 9999 && 1 <= t.month <= 12 && 1 <= t.day <= 31 &&
    t.hour <= 23 && t.minute <= 59 && t.second <= 60
  }

  predicate IsDigit(c: char)
  {
    '0' <= c <= '9'
  }

  function Digit(d: nat): (r: char)
    requires d < 10
    ensures IsDigit(r)
  {
    ('0' as int + d) as char
  }

  function Pow10(w: nat): (r: nat)
    ensures r >= 1
  {
    if w == 0 then 1 else 10 * Pow10(w - 1)
  }

  /** The decimal digits of `n`, zero-padded on the left to at least `width`
      characters, as the time formatter writes each field. */
  function Decimal(n: nat, width: nat): (r: string)
    ensures |r| >= 1
    ensures forall k :: 0 <= k < |r| ==> IsDigit(r[k])
    decreases n + width
  {
    if n < 10 && width <= 1 then [Digit(n)]
    else Decimal(n / 10, if width == 0 then 0 else width - 1) + [Digit(n % 10)]
  }

  /** The number a string of decimal digits denotes. */
  function DecimalValue(s: string): nat
    requires forall k :: 0 <= k < |s| ==> IsDigit(s[k])
  {
    if |s| == 0 then 0
    else
      var c := s[|s| - 1];
      assert IsDigit(c);
      10 * DecimalValue(s[..|s| - 1]) + (c as int - '0' as int)
  }

  /** The digits read back as the number they were written from, and a number
      below `10^width` fills exactly `width` places. */
  lemma {:induction false} DecimalRoundTrip(n: nat, width: nat)
    ensures DecimalValue(Decimal(n, width)) == n
    ensures 1 <= width && n < Pow10(width) ==> |Decimal(n, width)| == width
    decreases n + width
  {
    if !(n < 10 && width <= 1) {
      var w' := if width == 0 then 0 else width - 1;
      DecimalRoundTrip(n / 10, w');
      var r := Decimal(n, width);
      assert r[..|r| - 1] == Decimal(n / 10, w');
      if 1 <= width && n < Pow10(width) {
        if width == 1 {
          assert false;
        }
        assert n / 10 < Pow10(w');
      }
    }
  }

  /** The fourteen digits of a timestamp: year, month, day, hour, minute,
      second. */
  function StampDigits(t: Stamp): (r: string)
    ensures forall k :: 0 <= k < |r| ==> IsDigit(r[k])
  {
    Decimal(t.year, 4) + Decimal(t.month, 2) + Decimal(t.day, 2) +
    Decimal(t.hour, 2) + Decimal(t.minute, 2) + Decimal(t.second, 2)
  }

  lemma StampDigitsLength(t: Stamp)
    requires ValidStamp(t)
    ensures |StampDigits(t)| == 14
  {
    DecimalRoundTrip(t.year, 4);
    DecimalRoundTrip(t.month, 2);
    DecimalRoundTrip(t.day, 2);
    DecimalRoundTrip(t.hour, 2);
    DecimalRoundTrip(t.minute, 2);
    DecimalRoundTrip(t.second, 2);
  }

  /** The file name of a new migration: timestamp, '_', name, ".sql". */
  function FileName(t: Stamp, name: string): (r: string)
    ensures |r| > |StampDigits(t)| && r[..|StampDigits(t)|] == StampDigits(t)
    ensures r[|StampDigits(t)|] == '_'
  {
    StampDigits(t) + "_" + name + ".sql"
  }
}

=== FILE: paths.dfy ===
/** The slice of Go's `path/filepath` the program uses, for '/'-separated
    paths. `Ext` and `Base` follow the library's definitions; `Join` and `Dir`
    omit the lexical clean-up (`Clean`) the library applies to its result. */
module Paths {
  import opened Results
  import opened Text

  const Separator: char := '/'

  /** `filepath.IsAbs`. */
  predicate IsAbs(p: string)
  {
    |p| > 0 && p[0] == Separator
  }

  /** The non-empty elements of `elems`, in order. */
  function NonEmptyElems(elems: seq<string>): (r: seq<string>)
    ensures forall i :: 0 <= i < |r| ==> r[i] != ""
    ensures |r| <= |elems|
  {
    if |elems| == 0 then []
    else
      var init := NonEmptyElems(elems[..|elems| - 1]);
      if elems[|elems| - 1] == "" then init else init + [elems[|elems| - 1]]
  }

  /** `filepath.Join`: the non-empty elements joined by the separator, without
      the clean-up of the joined path. */
  function Join(elems: seq<string>): string
  {
    JoinWith(NonEmptyElems(elems), [Separator])
  }

  /** Joining three non-empty elements puts one separator between each. */
  lemma JoinThree(a: string, b: string, c: string)
    requires a != "" && b != "" && c != ""
    ensures Join([a, b, c]) == a + [Separator] + b + [Separator] + c
  {
    assert [a][..0] == [];
    assert NonEmptyElems([a]) == [a];
    assert [a, b][..1] == [a];
    assert NonEmptyElems([a, b]) == [a, b];
    assert [a, b, c][..2] == [a, b];
    assert NonEmptyElems([a, b, c]) == [a, b, c];
    assert [a, b, c][1..] == [b, c];
    assert [b, c][1..] == [c];
    assert JoinWith([b, c], [Separator]) == b + [Separator] + c;
  }

  /** `filepath.Ext`: the suffix starting at the last '.' of the final path
      element, or "" when that element has no '.'. */
  function Ext(p: string): (r: string)
    ensures |r| <= |p| && r == p[|p| - |r|..]
    ensures r != "" ==> r[0] == '.' && Separator !in r && '.' !in r[1..]
    decreases |p|
  {
    if |p| == 0 || p[|p| - 1] == Separator then ""
    else if p[|p| - 1] == '.' then "."
    else
      var e := Ext(p[..|p| - 1]);
      if e == "" then "" else e + [p[|p| - 1]]
  }

  /** A path that ends in an extension-shaped suffix has exactly that extension. */
  lemma {:induction false} ExtOfSuffix(p: string, e: string)
    requires |e| >= 1 && e[0] == '.' && Separator !in e && '.' !in e[1..]
    ensures Ext(p + e) == e
    decreases |e|
  {
    var s := p + e;
    var last := e[|e| - 1];
    assert s[|s| - 1] == last;
    if |e| > 1 {
      var e' := e[..|e| - 1];
      assert last == e[1..][|e| - 2];
      assert s[..|s| - 1] == p + e';
      assert e'[1..] == e[1..][..|e| - 2];
      assert '.' !in e'[1..];
      assert Separator !in e';
      ExtOfSuffix(p, e');
      assert e' + [last] == e;
    }
  }

  /** Joining one more non-empty element appends it after a separator. */
  lemma JoinSnoc(elems: seq<string>, f: string)
    requires f != "" && NonEmptyElems(elems) != []
    ensures Join(elems + [f]) == Join(elems) + [Separator] + f
  {
    assert (elems + [f])[..|elems|] == elems;
    assert NonEmptyElems(elems + [f]) == NonEmptyElems(elems) + [f];
    JoinWithSnoc(NonEmptyElems(elems), [Separator], f);
  }

  /** The extension of a joined path is that of its last element. */
  lemma {:induction false} ExtOfJoin(a: string, b: string)
    ensures Ext(a + [Separator] + b) == Ext(b)
    decreases |b|
  {
    var s := a + [Separator] + b;
    if |b| > 0 {
      var last := b[|b| - 1];
      assert s[|s| - 1] == last;
      if last != Separator && last != '.' {
        assert s[..|s| - 1] == a + [Separator] + b[..|b| - 1];
        ExtOfJoin(a, b[..|b| - 1]);
      }
    } else {
      assert s[|s| - 1] == Separator;
    }
  }

  /** `p` with its trailing separators removed. */
  function TrimTrailingSeparators(p: string): (r: string)
    ensures |r| <= |p| && r == p[..|r|]
    ensures r == "" || r[|r| - 1] != Separator
    decreases |p|
  {
    if |p| > 0 && p[|p| - 1] == Separator then TrimTrailingSeparators(p[..|p| - 1]) else p
  }

  /** `filepath.Base`: the last element of the path; "." for the empty path and
      "/" for a path of separators only. */
  function Base(p: string): (r: string)
    ensures r != ""
    ensures r != [Separator] ==> Separator !in r
  {
    if p == "" then "."
    else
      var q := TrimTrailingSeparators(p);
      if q == "" then [Separator]
      else
        match LastIndexOf(q, Separator)
        case None => q
        case Some(i) => q[i + 1..]
  }

  /** The base of `dir/f` is the file name `f`, whatever the directory. */
  lemma BaseOfJoin(dir: string, f: string)
    requires f != "" && Separator !in f
    ensures Base(dir + [Separator] + f) == f
    ensures Base(f) == f
  {
    var p := dir + [Separator] + f;
    assert p[|p| - 1] == f[|f| - 1];
    LastIndexOfJoin(dir, Separator, f);
    assert p[|dir| + 1..] == f;
  }

  /** `filepath.Dir` without the clean-up: everything before the last separator. */
  function Dir(p: string): (r: string)
    ensures r == "." || r == [Separator] || (|r| < |p| && r == p[..|r|] && p[|r|] == Separator)
  {
    match LastIndexOf(p, Separator)
    case None => "."
    case Some(i) => if i == 0 then [Separator] else p[..i]
  }
}

=== FILE: results.dfy ===
/** Failure-carrying values shared by every module of the model. Errors are the
    text the program would print before giving up. */
module Results {

  datatype Option<+T> = None | Some(value: T)

  /** A value or an error message. */
  datatype Result<+T> = Ok(value: T) | Err(msg: string)

  /** `Some(s)` for a non-empty string, `None` for the empty one: the model of the
      program's many `if len(x) != 0` guards. */
  function NonEmpty(s: string): (r: Option<string>)
    ensures r.Some? <==> s != ""
    ensures r.Some? ==> r.value == s
  {
    if s == "" then None else Some(s)
  }
}

=== FILE: runner.dfy ===
/** The `up` and `rollback` commands of migrate.go: `migrate` for one
    migration, and the step and slice logic of `doMigrations` and `doRollback`.

    The migration files are given as a map from path to the lines the scanner
    reads; the file list is the already sorted list of paths, and the ledger
    rows read at the start are the ledger of the connection. How a command ends
    is an `Outcome`: it ran to the end, it stopped the program with a message,
    or a slice expression went out of range. */
module Runner {
  import opened Results
  import opened Text
  import opened Paths
  import opened Database
  import opened Engines
  import opened MigrationFile
  import opened Splitter
  import opened Sync

  datatype Outcome = Completed(db: Db) | Exited(db: Db, msg: string) | Panicked(db: Db)

  /** The readable migration files: each path to its lines, the text split
      at its newlines. */
  type Files = map<string, seq<string>>

  /** The program's messages. */
  const CouldNotOpen: string := "Could not open file:"
  const ReadFailed: string := "Failed to read file:"
  const NoDownPart: string := "Tried to rollback migration without down:"
  const LedgerUpdateFailed: string := "Error updating migration table:"
  const UpToDate: string := "Up to date."
  const NothingToRollback: string := "Nothing to rollback."
  const NoSuchFile: string := ": no such file or directory"

  /** The error `os.Open` reports for a file that is not there. */
  function OpenError(path: string): string
  {
    "open " + path + NoSuchFile
  }

  /** The part of a migration that runs in the given direction. */
  function Direction(p: Parts, rollback: bool): string
  {
    if rollback then p.down else p.up
  }

  /** The ledger call that records (or, rolling back, forgets) a migration. */
  function LedgerUpdate(k: Kind, db: Db, id: string, rollback: bool): Reply
  {
    if rollback then DeleteMigration(k, db, id) else AddMigration(k, db, id)
  }

  /** `migrate`: read the file, refuse to roll back a migration without a down
      part, run the part's statements, then update the ledger. The file is
      read with the scanner's error looked at, so a line too long for the
      scanner stops the program instead of cutting the part short. */
  function Migrate(k: Kind, fs: Files, db: Db, migration: string, rollback: bool): Outcome
  {
    var shortname := Base(migration);
    if migration !in fs then
      Exited(db, Line([CouldNotOpen, shortname, "-", OpenError(migration)]))
    else
      match ReadParts(fs[migration])
      case Err(e) => Exited(db, Line([ReadFailed, shortname, "-", e]))
      case Ok(parts) =>
        if rollback && parts.down == "" then
          Exited(db, Line([NoDownPart, shortname]))
        else
          match ExecAll(db, Statements(Direction(parts, rollback)))
          case Abort(d, m) => Exited(d, m)
          case Proceed(d) =>
            var rep := LedgerUpdate(k, d, MigFormat(migration), rollback);
            if rep.err.Some? then Exited(rep.db, Line([LedgerUpdateFailed, rep.err.value]))
            else Completed(rep.db)
  }

  /** A line too long for the scanner stops the program with the scanner's
      error before anything is issued. */
  lemma LineTooLongStops(k: Kind, fs: Files, db: Db, migration: string, rollback: bool)
    requires migration in fs && !Readable(fs[migration])
    ensures Migrate(k, fs, db, migration, rollback) ==
      Exited(db, Line([ReadFailed, Base(migration), "-", TokenTooLong]))
  {
  }

  /** Rolling back a migration without a down part stops the program before
      anything is issued: the connection is untouched. */
  lemma RollbackWithoutDown(k: Kind, fs: Files, db: Db, migration: string)
    requires migration in fs && Readable(fs[migration]) && SplitParts(fs[migration]).down == ""
    ensures Migrate(k, fs, db, migration, true) ==
      Exited(db, Line([NoDownPart, Base(migration)]))
  {
  }

  /** A migration goes through exactly when its file is there and readable, it has a down
      part if rolled back, none of its statements fails and the ledger call
      does not fail; then every statement was issued once, in order, followed
      by the ledger call, and the ledger gained (or lost) the migration's id. */
  lemma MigrateCompletes(k: Kind, fs: Files, db: Db, migration: string, rollback: bool)
    requires migration in fs && Readable(fs[migration])
    requires !rollback || SplitParts(fs[migration]).down != ""
    requires forall j :: 0 <= j < |Statements(Direction(SplitParts(fs[migration]), rollback))| ==>
      !Faulty(db, Statements(Direction(SplitParts(fs[migration]), rollback))[j])
    ensures var stmts := Statements(Direction(SplitParts(fs[migration]), rollback));
      var id := MigFormat(migration);
      var call := Call(if rollback then DeleteStatement(k) else AddStatement(k), [id]);
      var r := Migrate(k, fs, db, migration, rollback);
      (r.Completed? <==> call !in db.faults) &&
      (r.Completed? ==> r.db.log == db.log + PlainCalls(stmts) + [call]) &&
      (r.Completed? && !rollback ==> r.db.ledger == db.ledger + [id]) &&
      (r.Completed? && rollback ==> r.db.ledger == Remove(db.ledger, id))
  {
    var stmts := Statements(Direction(SplitParts(fs[migration]), rollback));
    ExecAllProceeds(db, stmts);
  }

  /** When statement `j` of the part is the first the driver rejects, the
      program stops with the driver's error for it, after issuing the
      statements up to it and no ledger call. */
  lemma MigrateStatementFails(k: Kind, fs: Files, db: Db, migration: string, rollback: bool, j: nat)
    requires migration in fs && Readable(fs[migration])
    requires !rollback || SplitParts(fs[migration]).down != ""
    requires var stmts := Statements(Direction(SplitParts(fs[migration]), rollback));
      j < |stmts| && Faulty(db, stmts[j]) && forall i :: 0 <= i < j ==> !Faulty(db, stmts[i])
    ensures var stmts := Statements(Direction(SplitParts(fs[migration]), rollback));
      Migrate(k, fs, db, migration, rollback) ==
        Exited(db.(log := db.log + PlainCalls(stmts[..j + 1])), StmtError(stmts[j], db.faults[Call(stmts[j], [])]))
  {
    var stmts := Statements(Direction(SplitParts(fs[migration]), rollback));
    ExecAllAborts(db, stmts, j);
  }

  /** The program's own `migrate`, with the corrected read check: the line
      loop of `getMigrationParts` over the lines the scanner yields, the
      scanner's error looked at once that loop ends, then the character loop
      of `runMigrationPart`. */
  method MigrateFile(k: Kind, fs: Files, db: Db, migration: string, rollback: bool) returns (r: Outcome)
    ensures r == Migrate(k, fs, db, migration, rollback)
  {
    var shortname := Base(migration);
    if migration !in fs {
      return Exited(db, Line([CouldNotOpen, shortname, "-", OpenError(migration)]));
    }
    var scanned := ScannedLines(fs[migration]);
    var up, down := GetMigrationParts(scanned);
    if |scanned| < |fs[migration]| {
      return Exited(db, Line([ReadFailed, shortname, "-", TokenTooLong]));
    }
    assert scanned == fs[migration];
    PartsAreSafe(fs[migration]);
    if rollback && down == "" {
      return Exited(db, Line([NoDownPart, shortname]));
    }
    var status := RunMigrationPart(db, if rollback then down else up);
    if status.Abort? {
      return Exited(status.db, status.msg);
    }
    var rep := LedgerUpdate(k, status.db, MigFormat(migration), rollback);
    if rep.err.Some? {
      return Exited(rep.db, Line([LedgerUpdateFailed, rep.err.value]));
    }
    return Completed(rep.db);
  }

  // ---------------------------------------------------------------------
  // Several migrations

  /** Takes one step per path in turn, stopping at the first outcome that is
      not a completion. */
  function Steps(step: (Db, string) -> Outcome, db: Db, todo: seq<string>): Outcome
    decreases |todo|
  {
    if |todo| == 0 then Completed(db)
    else
      match step(db, todo[0])
      case Completed(d) => Steps(step, d, todo[1..])
      case other => other
  }

  /** `migrate` in one direction, as a step. */
  function MigrateStep(k: Kind, fs: Files, rollback: bool): (Db, string) -> Outcome
  {
    (d: Db, m: string) => Migrate(k, fs, d, m, rollback)
  }

  /** Migrates each path in turn, stopping at the first that does not
      complete. */
  function ApplyAll(k: Kind, fs: Files, db: Db, todo: seq<string>, rollback: bool): Outcome
  {
    Steps(MigrateStep(k, fs, rollback), db, todo)
  }

  /** A run is its first step, then, if that completed, the rest. */
  lemma StepsFirst(step: (Db, string) -> Outcome, db: Db, todo: seq<string>)
    requires |todo| > 0
    ensures var o := step(db, todo[0]);
      Steps(step, db, todo) == if o.Completed? then Steps(step, o.db, todo[1..]) else o
  {
  }

  /** A run is its first migration, then, if that completed, the rest. */
  lemma ApplyAllFirst(k: Kind, fs: Files, db: Db, todo: seq<string>, rollback: bool)
    requires |todo| > 0
    ensures var o := Migrate(k, fs, db, todo[0], rollback);
      ApplyAll(k, fs, db, todo, rollback) == if o.Completed? then ApplyAll(k, fs, o.db, todo[1..], rollback) else o
  {
    StepsFirst(MigrateStep(k, fs, rollback), db, todo);
  }

  /** A slice's prefix reversed starts with the slice's last element. */
  lemma ReversePrefix(todo: seq<string>, i: nat)
    requires 0 < i <= |todo|
    ensures Reverse(todo[..i])[0] == todo[i - 1]
    ensures Reverse(todo[..i])[1..] == Reverse(todo[..i - 1])
  {
    assert todo[..i][..i - 1] == todo[..i - 1];
  }

  /** A list is its front and its last element; reversed, it starts with the
      last element, followed by the front reversed. */
  lemma ReverseLast(todo: seq<string>)
    requires |todo| > 0
    ensures todo == todo[..|todo| - 1] + [todo[|todo| - 1]]
    ensures Reverse(todo)[0] == todo[|todo| - 1]
    ensures Reverse(todo)[1..] == Reverse(todo[..|todo| - 1])
  {
    SnocSplit(todo);
    var n := |todo| - 1;
    assert Reverse(todo) == [todo[n]] + Reverse(todo[..n]);
  }

  lemma SnocSplit(todo: seq<string>)
    requires |todo| > 0
    ensures todo == todo[..|todo| - 1] + [todo[|todo| - 1]]
  {
  }

  /** Running two lists is running the first, then, if it completed, the
      second from where it left off. */
  lemma {:induction false} StepsAppend(step: (Db, string) -> Outcome, db: Db, a: seq<string>, b: seq<string>)
    ensures Steps(step, db, a + b) ==
      match Steps(step, db, a)
      case Completed(d) => Steps(step, d, b)
      case other => other
    decreases |a|
  {
    if |a| == 0 {
      assert a + b == b;
    } else {
      assert (a + b)[0] == a[0];
      assert (a + b)[1..] == a[1..] + b;
      match step(db, a[0])
      case Completed(d) => StepsAppend(step, d, a[1..], b);
      case _ =>
    }
  }

  /** Every completed step adds the id of its path to the ledger. */
  ghost predicate AddsId(step: (Db, string) -> Outcome)
  {
    forall d: Db, m: string :: step(d, m).Completed? ==> step(d, m).db.ledger == d.ledger + [MigFormat(m)]
  }

  /** Every completed step removes the id of its path from the ledger. */
  ghost predicate RemovesId(step: (Db, string) -> Outcome)
  {
    forall d: Db, m: string :: step(d, m).Completed? ==> step(d, m).db.ledger == Remove(d.ledger, MigFormat(m))
  }

  /** What a completed single migration does to the ledger. */
  lemma MigrateLedger(k: Kind, fs: Files, db: Db, migration: string, rollback: bool)
    requires Migrate(k, fs, db, migration, rollback).Completed?
    ensures var d := Migrate(k, fs, db, migration, rollback).db;
      d.ledger == if rollback then Remove(db.ledger, MigFormat(migration)) else db.ledger + [MigFormat(migration)]
  {
    var parts := SplitParts(fs[migration]);
    var d := ExecAll(db, Statements(Direction(parts, rollback))).db;
    assert d.ledger == db.ledger;
  }

  /** Migrating up adds the id; rolling back removes it. */
  lemma MigrateStepLedger(k: Kind, fs: Files)
    ensures AddsId(MigrateStep(k, fs, false))
    ensures RemovesId(MigrateStep(k, fs, true))
  {
    forall d: Db, m: string | Migrate(k, fs, d, m, false).Completed?
      ensures Migrate(k, fs, d, m, false).db.ledger == d.ledger + [MigFormat(m)]
    {
      MigrateLedger(k, fs, d, m, false);
    }
    forall d: Db, m: string | Migrate(k, fs, d, m, true).Completed?
      ensures Migrate(k, fs, d, m, true).db.ledger == Remove(d.ledger, MigFormat(m))
    {
      MigrateLedger(k, fs, d, m, true);
    }
  }

  /** A run of id-adding steps that completes adds the ids of its paths, in
      order, to the ledger. */
  lemma {:induction false} StepsUpLedger(step: (Db, string) -> Outcome, db: Db, todo: seq<string>)
    requires AddsId(step)
    requires Steps(step, db, todo).Completed?
    ensures Steps(step, db, todo).db.ledger == db.ledger + Ids(todo)
    decreases |todo|
  {
    if |todo| > 0 {
      var d := step(db, todo[0]).db;
      StepsUpLedger(step, d, todo[1..]);
      IdsCons(todo);
      AppendAssoc(db.ledger, [MigFormat(todo[0])], Ids(todo[1..]));
    }
  }

  lemma AppendAssoc(a: seq<string>, b: seq<string>, c: seq<string>)
    ensures (a + b) + c == a + (b + c)
  {
  }

  /** A forward run that completes adds the ids of the migrations run, in
      order, to the ledger. */
  lemma ApplyUpLedger(k: Kind, fs: Files, db: Db, todo: seq<string>)
    requires ApplyAll(k, fs, db, todo, false).Completed?
    ensures ApplyAll(k, fs, db, todo, false).db.ledger == db.ledger + Ids(todo)
  {
    MigrateStepLedger(k, fs);
    StepsUpLedger(MigrateStep(k, fs, false), db, todo);
  }

  /** `s` back to front. */
  function Reverse(s: seq<string>): (r: seq<string>)
    ensures |r| == |s| && forall i :: 0 <= i < |s| ==> r[i] == s[|s| - 1 - i]
  {
    if |s| == 0 then [] else [s[|s| - 1]] + Reverse(s[..|s| - 1])
  }

  /** No value occurs twice. */
  predicate Distinct(s: seq<string>)
  {
    forall i, j :: 0 <= i < j < |s| ==> s[i] != s[j]
  }

  /** A run of id-removing steps over a list back to front that completes,
      over a ledger of distinct ids ending in the ids of the list, leaves the
      ledger without them. */
  lemma {:induction false} StepsDownLedger(step: (Db, string) -> Outcome, db: Db, kept: seq<string>, todo: seq<string>)
    requires RemovesId(step)
    requires db.ledger == kept + Ids(todo) && Distinct(db.ledger)
    requires Steps(step, db, Reverse(todo)).Completed?
    ensures Steps(step, db, Reverse(todo)).db.ledger == kept
    decreases |todo|
  {
    if |todo| == 0 {
      assert db.ledger == kept;
    } else {
      var n := |todo| - 1;
      var last := todo[n];
      var init := todo[..n];
      ReverseLast(todo);
      var d := step(db, last).db;
      DownLedgerStep(kept, init, last, db.ledger);
      StepsDownLedger(step, d, kept, init);
    }
  }

  /** A rollback that completes, over a ledger of distinct ids ending in the ids
      of the migrations rolled back, leaves the ledger without them. */
  lemma ApplyDownLedger(k: Kind, fs: Files, db: Db, kept: seq<string>, todo: seq<string>)
    requires db.ledger == kept + Ids(todo) && Distinct(db.ledger)
    requires ApplyAll(k, fs, db, Reverse(todo), true).Completed?
    ensures ApplyAll(k, fs, db, Reverse(todo), true).db.ledger == kept
  {
    MigrateStepLedger(k, fs);
    StepsDownLedger(MigrateStep(k, fs, true), db, kept, todo);
  }

  /** Removing the last id of a distinct ledger `kept + Ids(init + [last])`
      leaves the distinct ledger `kept + Ids(init)`. */
  lemma DownLedgerStep(kept: seq<string>, init: seq<string>, last: string, ledger: seq<string>)
    requires ledger == kept + Ids(init + [last]) && Distinct(ledger)
    ensures Remove(ledger, MigFormat(last)) == kept + Ids(init)
    ensures Distinct(kept + Ids(init))
  {
    IdsSnoc(init, last);
    var rest := kept + Ids(init);
    assert ledger == rest + [MigFormat(last)];
    DistinctSnoc(rest, MigFormat(last));
    RemoveAfterAppend(rest, MigFormat(last));
  }

  /** The last of distinct values does not occur before it, and the rest stay
      distinct. */
  lemma DistinctSnoc(rest: seq<string>, id: string)
    requires Distinct(rest + [id])
    ensures id !in rest && Distinct(rest)
  {
    var l := rest + [id];
    forall i | 0 <= i < |rest| ensures rest[i] != id {
      assert l[i] == rest[i] && l[|rest|] == id;
    }
    forall i, j | 0 <= i < j < |rest| ensures rest[i] != rest[j] {
      assert l[i] == rest[i] && l[j] == rest[j];
    }
  }

  // ---------------------------------------------------------------------
  // The commands

  /** The number of migrations `up` runs: all outstanding ones when the step
      is 0 or larger than their number. */
  function UpCount(diff: int, step: int): (r: int)
    ensures diff > 0 && step >= 0 ==> 0 < r <= diff
    ensures 0 < step <= diff ==> r == step
    ensures step == 0 || step > diff ==> r == diff
  {
    if step == 0 || step > diff then diff else step
  }

  /** The number of migrations `rollback` undoes: one when the step is 0, and
      never more than have run. */
  function RollbackCount(n: int, step: int): (r: int)
    ensures n > 0 && step >= 0 ==> 0 < r <= n
    ensures 0 < step <= n ==> r == step
    ensures step == 0 && n > 0 ==> r == 1
    ensures step > n ==> r == n
  {
    var s := if step == 0 then 1 else step;
    if s > n then n else s
  }

  /** Go's `s[low:high]` is defined when `0 <= low <= high <= len(s)`. */
  predicate SliceOk(s: seq<string>, low: int, high: int)
  {
    0 <= low <= high <= |s|
  }

  /** What a command decides before migrating anything: stop with a message,
      fail on a slice expression, run a slice of the files up in ascending
      order, or roll a slice back in descending order. */
  datatype Plan = Stop(msg: string) | SliceOutOfRange | Run(todo: seq<string>) | Unwind(todo: seq<string>)

  /** The decisions of `doMigrations`: nothing to do when there are as many
      files as ledger rows, checked before anything else; otherwise the files
      and ledger must agree, and the next `UpCount` files are run in ascending
      order. */
  function UpPlan(files: seq<string>, done: seq<string>, step: int): Plan
  {
    var diff := |files| - |done|;
    if diff == 0 then Stop(UpToDate)
    else
      var s := UpCount(diff, step);
      match EnsureMatch(files, done)
      case OutOfSync(_, msg) => Stop(msg)
      case InSync(_) =>
        if !SliceOk(files, |done|, |done| + s) then SliceOutOfRange
        else Run(files[|done|..|done| + s])
  }

  /** The decisions of `doRollback`: nothing to undo with an empty ledger;
      otherwise the files and ledger must agree, and the last `RollbackCount`
      run files are rolled back in descending order. */
  function RollbackPlan(files: seq<string>, done: seq<string>, step: int): Plan
  {
    if |done| == 0 then Stop(NothingToRollback)
    else
      var s := RollbackCount(|done|, step);
      match EnsureMatch(files, done)
      case OutOfSync(_, msg) => Stop(msg)
      case InSync(_) =>
        if !SliceOk(files, |done| - s, |done|) then SliceOutOfRange
        else Unwind(files[|done| - s..|done|])
  }

  /** Carries out a plan with the given forward and backward steps. */
  function Carry(up: (Db, string) -> Outcome, down: (Db, string) -> Outcome, db: Db, plan: Plan): Outcome
  {
    match plan
    case Stop(msg) => Exited(db, msg)
    case SliceOutOfRange => Panicked(db)
    case Run(todo) => Steps(up, db, todo)
    case Unwind(todo) => Steps(down, db, Reverse(todo))
  }

  /** Carries out a plan by migrating. */
  function Execute(k: Kind, fs: Files, db: Db, plan: Plan): Outcome
  {
    Carry(MigrateStep(k, fs, false), MigrateStep(k, fs, true), db, plan)
  }

  /** `doMigrations`, over the ledger rows of the connection. */
  function DoMigrations(k: Kind, fs: Files, files: seq<string>, db: Db, step: int): Outcome
  {
    Execute(k, fs, db, UpPlan(files, db.ledger, step))
  }

  /** `doRollback`, over the ledger rows of the connection. */
  function DoRollback(k: Kind, fs: Files, files: seq<string>, db: Db, step: int): Outcome
  {
    Execute(k, fs, db, RollbackPlan(files, db.ledger, step))
  }

  /** UpToDate comes before the consistency check: with as many files as
      rows, `up` stops there even when they disagree. */
  lemma UpToDateFirst(k: Kind, fs: Files, files: seq<string>, db: Db, step: int)
    requires |files| == |db.ledger|
    ensures DoMigrations(k, fs, files, db, step) == Exited(db, UpToDate)
  {
  }

  /** Past UpToDate, disagreeing files and ledger stop `up`. */
  lemma UpPlanOutOfSync(files: seq<string>, done: seq<string>, step: int)
    requires |files| != |done| && EnsureMatch(files, done).OutOfSync?
    ensures UpPlan(files, done, step) == Stop(EnsureMatch(files, done).msg)
  {
  }

  /** Past NothingToRollback, disagreeing files and ledger stop
      `rollback`. */
  lemma RollbackPlanOutOfSync(files: seq<string>, done: seq<string>, step: int)
    requires |done| > 0 && EnsureMatch(files, done).OutOfSync?
    ensures RollbackPlan(files, done, step) == Stop(EnsureMatch(files, done).msg)
  {
  }

  /** Disagreeing files and ledger stop both commands, untouched, with the
      message naming the first disagreement. */
  lemma OutOfSyncStops(k: Kind, fs: Files, files: seq<string>, db: Db, step: int)
    requires EnsureMatch(files, db.ledger).OutOfSync?
    ensures |files| != |db.ledger| ==>
      DoMigrations(k, fs, files, db, step) == Exited(db, EnsureMatch(files, db.ledger).msg)
    ensures |db.ledger| > 0 ==>
      DoRollback(k, fs, files, db, step) == Exited(db, EnsureMatch(files, db.ledger).msg)
  {
    if |files| != |db.ledger| {
      UpPlanOutOfSync(files, db.ledger, step);
    }
    if |db.ledger| > 0 {
      RollbackPlanOutOfSync(files, db.ledger, step);
    }
  }

  /** Once the consistency check has passed, a negative step makes the slice
      expression of either command fail, since its low bound passes its high
      bound. For `up`, more ledger rows than files does the same. */
  lemma BadSlicePanics(k: Kind, fs: Files, files: seq<string>, db: Db, step: int)
    requires EnsureMatch(files, db.ledger).InSync?
    requires step < 0 || |db.ledger| > |files|
    ensures |files| != |db.ledger| ==> DoMigrations(k, fs, files, db, step) == Panicked(db)
    ensures |db.ledger| > 0 && step < 0 ==> DoRollback(k, fs, files, db, step) == Panicked(db)
  {
  }

  /** A forward run goes ahead only over a ledger that is the ids of the first
      files, and runs the next `UpCount` files, at least one. */
  lemma UpPlanRuns(files: seq<string>, done: seq<string>, step: int)
    requires UpPlan(files, done, step).Run?
    ensures var s := UpCount(|files| - |done|, step);
      0 < s && |done| + s <= |files| && done == Ids(files[..|done|]) &&
      UpPlan(files, done, step).todo == files[|done|..|done| + s]
  {
    EnsureMatchIds(files, done);
  }

  /** A completed `up` leaves the ledger holding the ids of the first
      `|done| + UpCount` files, in order. */
  lemma UpLedger(k: Kind, fs: Files, files: seq<string>, db: Db, step: int)
    requires DoMigrations(k, fs, files, db, step).Completed?
    ensures var s := UpCount(|files| - |db.ledger|, step);
      0 < s && |db.ledger| + s <= |files| &&
      DoMigrations(k, fs, files, db, step).db.ledger == Ids(files[..|db.ledger| + s])
  {
    MigrateStepLedger(k, fs);
    UpRunLedger(MigrateStep(k, fs, false), MigrateStep(k, fs, true), files, db, step);
  }

  /** With id-adding forward steps, a completed forward plan leaves the
      ledger holding the ids of the first `|ledger| + UpCount` files. */
  lemma UpRunLedger(up: (Db, string) -> Outcome, down: (Db, string) -> Outcome, files: seq<string>, db: Db, step: int)
    requires AddsId(up)
    requires Carry(up, down, db, UpPlan(files, db.ledger, step)).Completed?
    ensures var s := UpCount(|files| - |db.ledger|, step);
      0 < s && |db.ledger| + s <= |files| &&
      Carry(up, down, db, UpPlan(files, db.ledger, step)).db.ledger == Ids(files[..|db.ledger| + s])
  {
    UpPlanCompleted(up, down, db, files, step);
    var n := |db.ledger|;
    RunUpLedger(up, down, db, UpPlan(files, db.ledger, step), files, n, n + UpCount(|files| - n, step));
  }

  /** Only a plan to run the next `UpCount` files, over a ledger holding the
      ids of the files before them, can complete `up`. */
  lemma UpPlanCompleted(up: (Db, string) -> Outcome, down: (Db, string) -> Outcome, db: Db, files: seq<string>, step: int)
    requires Carry(up, down, db, UpPlan(files, db.ledger, step)).Completed?
    ensures var n := |db.ledger|;
      var s := UpCount(|files| - n, step);
      0 < s && n + s <= |files| && db.ledger == Ids(files[..n]) &&
      UpPlan(files, db.ledger, step) == Run(files[n..n + s])
  {
    var plan := UpPlan(files, db.ledger, step);
    CarryCompletes(up, down, db, plan);
    UpPlanNeverUnwinds(files, db.ledger, step);
    assert plan.Run?;
    UpPlanRuns(files, db.ledger, step);
  }

  /** `up` never rolls anything back. */
  lemma UpPlanNeverUnwinds(files: seq<string>, done: seq<string>, step: int)
    ensures !UpPlan(files, done, step).Unwind?
  {
  }

  /** A plan carried out completes only when it runs or rolls back. */
  lemma CarryCompletes(up: (Db, string) -> Outcome, down: (Db, string) -> Outcome, db: Db, plan: Plan)
    requires Carry(up, down, db, plan).Completed?
    ensures plan.Run? || plan.Unwind?
  {
  }

  /** With id-adding forward steps, a completed run of the files from `n` to
      `m`, over a ledger holding the ids of the first `n`, leaves the ledger
      holding the ids of the first `m`. */
  lemma RunUpLedger(up: (Db, string) -> Outcome, down: (Db, string) -> Outcome, db: Db, plan: Plan, files: seq<string>, n: nat, m: nat)
    requires AddsId(up)
    requires n <= m <= |files| && db.ledger == Ids(files[..n])
    requires plan == Run(files[n..m])
    requires Carry(up, down, db, plan).Completed?
    ensures Carry(up, down, db, plan).db.ledger == Ids(files[..m])
  {
    StepsUpLedger(up, db, files[n..m]);
    IdsSplit(files, n, m);
  }

  /** The ids of the first `m` files followed by those of the files from `m`
      to `n` are the ids of the first `n`. */
  lemma IdsSplit(files: seq<string>, m: nat, n: nat)
    requires m <= n <= |files|
    ensures Ids(files[..m]) + Ids(files[m..n]) == Ids(files[..n])
    ensures Ids(files[..n])[..m] == Ids(files[..m])
  {
    assert files[..n] == files[..m] + files[m..n];
    IdsAppend(files[..m], files[m..n]);
  }

  /** A rollback goes ahead only over a ledger that is the ids of the first
      files, and undoes the last `RollbackCount` of them, at least one, last
      first. */
  lemma RollbackPlanRuns(files: seq<string>, done: seq<string>, step: int)
    requires RollbackPlan(files, done, step).Unwind?
    ensures var s := RollbackCount(|done|, step);
      0 < s <= |done| <= |files| && done == Ids(files[..|done|]) &&
      RollbackPlan(files, done, step).todo == files[|done| - s..|done|]
  {
    EnsureMatchIds(files, done);
  }

  /** A completed `rollback` over a ledger of distinct ids leaves the ledger
      without its last `RollbackCount` rows. */
  lemma RollbackLedger(k: Kind, fs: Files, files: seq<string>, db: Db, step: int)
    requires Distinct(db.ledger)
    requires DoRollback(k, fs, files, db, step).Completed?
    ensures var s := RollbackCount(|db.ledger|, step);
      0 < s <= |db.ledger| &&
      DoRollback(k, fs, files, db, step).db.ledger == db.ledger[..|db.ledger| - s]
  {
    MigrateStepLedger(k, fs);
    RollbackRunLedger(MigrateStep(k, fs, false), MigrateStep(k, fs, true), files, db, step);
  }

  /** With id-removing backward steps, a completed plan to roll back over a
      ledger of distinct ids leaves the ledger without its last
      `RollbackCount` rows. */
  lemma RollbackRunLedger(up: (Db, string) -> Outcome, down: (Db, string) -> Outcome, files: seq<string>, db: Db, step: int)
    requires RemovesId(down)
    requires Distinct(db.ledger)
    requires Carry(up, down, db, RollbackPlan(files, db.ledger, step)).Completed?
    ensures var s := RollbackCount(|db.ledger|, step);
      0 < s <= |db.ledger| &&
      Carry(up, down, db, RollbackPlan(files, db.ledger, step)).db.ledger == db.ledger[..|db.ledger| - s]
  {
    RollbackPlanCompleted(up, down, db, files, step);
    var n := |db.ledger|;
    UnwindDownLedger(up, down, db, RollbackPlan(files, db.ledger, step), files, n - RollbackCount(n, step), n);
  }

  /** Only a plan to roll back the last `RollbackCount` files the ledger
      holds the ids of can complete `rollback`. */
  lemma RollbackPlanCompleted(up: (Db, string) -> Outcome, down: (Db, string) -> Outcome, db: Db, files: seq<string>, step: int)
    requires Carry(up, down, db, RollbackPlan(files, db.ledger, step)).Completed?
    ensures var n := |db.ledger|;
      var s := RollbackCount(n, step);
      0 < s <= n <= |files| && db.ledger == Ids(files[..n]) &&
      RollbackPlan(files, db.ledger, step) == Unwind(files[n - s..n])
  {
    CarryCompletes(up, down, db, RollbackPlan(files, db.ledger, step));
    RollbackPlanRuns(files, db.ledger, step);
  }

  /** With id-removing backward steps, a completed roll back of the files
      from `m` to `n`, back to front, over a ledger of distinct ids holding
      the ids of the first `n`, leaves the ledger holding those of the first
      `m`. */
  lemma UnwindDownLedger(up: (Db, string) -> Outcome, down: (Db, string) -> Outcome, db: Db, plan: Plan, files: seq<string>, m: nat, n: nat)
    requires RemovesId(down)
    requires m <= n <= |files| && db.ledger == Ids(files[..n]) && Distinct(db.ledger)
    requires plan == Unwind(files[m..n])
    requires Carry(up, down, db, plan).Completed?
    ensures Carry(up, down, db, plan).db.ledger == db.ledger[..m]
  {
    IdsSplit(files, m, n);
    StepsDownLedger(down, db, Ids(files[..m]), files[m..n]);
  }

  // ---------------------------------------------------------------------
  // The commands as the program runs them

  /** The `for` loops of `doMigrations` and `doRollback`: migrate each path in
      turn, stopping at the first that does not complete. */
  method RunAll(k: Kind, fs: Files, db: Db, todo: seq<string>, rollback: bool) returns (r: Outcome)
    ensures r == ApplyAll(k, fs, db, todo, rollback)
  {
    var cur := db;
    var i := 0;
    while i < |todo|
      invariant 0 <= i <= |todo|
      invariant ApplyAll(k, fs, db, todo, rollback) == ApplyAll(k, fs, cur, todo[i..], rollback)
    {
      var o := MigrateFile(k, fs, cur, todo[i], rollback);
      ApplyAllFirst(k, fs, cur, todo[i..], rollback);
      if !o.Completed? {
        return o;
      }
      assert todo[i..][1..] == todo[i + 1..];
      cur := o.db;
      i := i + 1;
    }
    return Completed(cur);
  }

  /** The descending `for` loop of `doRollback`: roll back each path, last
      first, stopping at the first that does not complete. */
  method RunBackward(k: Kind, fs: Files, db: Db, todo: seq<string>) returns (r: Outcome)
    ensures r == ApplyAll(k, fs, db, Reverse(todo), true)
  {
    var cur := db;
    var i := |todo|;
    assert todo[..i] == todo;
    while i > 0
      invariant 0 <= i <= |todo|
      invariant ApplyAll(k, fs, db, Reverse(todo), true) == ApplyAll(k, fs, cur, Reverse(todo[..i]), true)
    {
      var o := MigrateFile(k, fs, cur, todo[i - 1], true);
      ReversePrefix(todo, i);
      ApplyAllFirst(k, fs, cur, Reverse(todo[..i]), true);
      if !o.Completed? {
        return o;
      }
      cur := o.db;
      i := i - 1;
    }
    return Completed(cur);
  }

  /** The checks of `doMigrations`, in the program's order. */
  method PlanUp(files: seq<string>, done: seq<string>, step: int) returns (p: Plan)
    ensures p == UpPlan(files, done, step)
  {
    var diff := |files| - |done|;
    if diff == 0 {
      return Stop(UpToDate);
    }
    assert |files| != |done|;
    var s := UpCount(diff, step);
    var report := CheckSync(files, done);
    if report.OutOfSync? {
      UpPlanOutOfSync(files, done, step);
      return Stop(report.msg);
    }
    if !SliceOk(files, |done|, |done| + s) {
      return SliceOutOfRange;
    }
    return Run(files[|done|..|done| + s]);
  }

  /** The checks of `doRollback`, in the program's order. */
  method PlanRollback(files: seq<string>, done: seq<string>, step: int) returns (p: Plan)
    ensures p == RollbackPlan(files, done, step)
  {
    if |done| == 0 {
      return Stop(NothingToRollback);
    }
    var s := RollbackCount(|done|, step);
    var report := CheckSync(files, done);
    if report.OutOfSync? {
      RollbackPlanOutOfSync(files, done, step);
      return Stop(report.msg);
    }
    if !SliceOk(files, |done| - s, |done|) {
      return SliceOutOfRange;
    }
    return Unwind(files[|done| - s..|done|]);
  }

  /** `doMigrations` as the program runs it, each file read with the corrected
      read check of `MigrateFile`. */
  method Up(k: Kind, fs: Files, files: seq<string>, db: Db, step: int) returns (r: Outcome)
    ensures r == DoMigrations(k, fs, files, db, step)
  {
    var plan := PlanUp(files, db.ledger, step);
    match plan
    case Stop(msg) => r := Exited(db, msg);
    case SliceOutOfRange => r := Panicked(db);
    case Run(todo) => r := RunAll(k, fs, db, todo, false);
    case Unwind(todo) => assert false;
  }

  /** `doRollback` as the program runs it, each file read with the corrected
      read check of `MigrateFile`. */
  method Rollback(k: Kind, fs: Files, files: seq<string>, db: Db, step: int) returns (r: Outcome)
    ensures r == DoRollback(k, fs, files, db, step)
  {
    var plan := PlanRollback(files, db.ledger, step);
    match plan
    case Stop(msg) => r := Exited(db, msg);
    case SliceOutOfRange => r := Panicked(db);
    case Run(todo) => assert false;
    case Unwind(todo) => r := RunBackward(k, fs, db, todo);
  }
}

=== FILE: splitter.dfy ===
/** The statement splitter of migrate.go (`runMigrationPart`).

    The reference definition is a per-character automaton: `ModeAt(part, k)` is
    the scanner's state just before character `k`. A `;` read in `Code` mode is a
    cut, and the statements are the slices of the text that end at the cuts.
    `RunMigrationPart` is the program's index-based loop, with its look-ahead
    and comment-skipping inner loops; it is proved to execute exactly those
    statements. */
module Splitter {
  import opened Results
  import opened Text
  import opened Database

  /** What the scanner is inside of. `afterStar` records whether the previous
      character of a block comment was '*'. */
  datatype Mode = Code | Quoted(q: char) | LineComment | BlockComment(afterStar: bool)

  predicate IsQuote(c: char)
  {
    c == '\'' || c == '"' || c == '`'
  }

  /** A line comment starts at `k`: '#' or "--". */
  predicate StartsLineComment(part: string, k: nat)
    requires k < |part|
  {
    part[k] == '#' || (part[k] == '-' && k + 1 < |part| && part[k + 1] == '-')
  }

  /** A block comment starts at `k`: '/' followed by '*'. */
  predicate StartsBlockComment(part: string, k: nat)
    requires k < |part|
  {
    part[k] == '/' && k + 1 < |part| && part[k + 1] == '*'
  }

  /** The transition on character `k`; the look-ahead to `k + 1` matters only
      in `Code` mode. */
  function Next(m: Mode, part: string, k: nat): Mode
    requires k < |part|
  {
    var c := part[k];
    match m
    case Code =>
      if IsQuote(c) then Quoted(c)
      else if StartsLineComment(part, k) then LineComment
      else if StartsBlockComment(part, k) then BlockComment(false)
      else Code
    case Quoted(q) => if c == q then Code else m
    case LineComment => if c == '\n' then Code else LineComment
    case BlockComment(star) => if star && c == '/' then Code else BlockComment(c == '*')
  }

  /** The state before character `k` (after the first `k` characters). */
  function ModeAt(part: string, k: nat): Mode
    requires k <= |part|
  {
    if k == 0 then Code else Next(ModeAt(part, k - 1), part, k - 1)
  }

  /** A top-level semicolon: one that ends a statement. */
  predicate IsCut(part: string, k: nat)
  {
    k < |part| && part[k] == ';' && ModeAt(part, k) == Code
  }

  predicate Increasing(cs: seq<nat>)
  {
    forall a, b :: 0 <= a < b < |cs| ==> cs[a] < cs[b]
  }

  /** The cuts among the first `n` characters, in ascending order. */
  function Cuts(part: string, n: nat): (r: seq<nat>)
    requires n <= |part|
    ensures forall j :: 0 <= j < |r| ==> r[j] < n
  {
    if n == 0 then [] else Cuts(part, n - 1) + (if IsCut(part, n - 1) then [n - 1] else [])
  }

  /** The cuts are in ascending order, inside the text. */
  lemma {:induction false} CutsValid(part: string, n: nat)
    requires n <= |part|
    ensures ValidCuts(part, Cuts(part, n))
  {
    if n > 0 {
      CutsValid(part, n - 1);
    }
  }

  /** `Cuts` lists every top-level `;` before `n`, and nothing else. */
  lemma {:induction false} CutsExactly(part: string, n: nat)
    requires n <= |part|
    ensures forall k: nat :: k in Cuts(part, n) <==> k < n && IsCut(part, k)
  {
    if n > 0 {
      CutsExactly(part, n - 1);
    }
  }

  /** Where the text after the cuts `cs` starts. */
  function StartAfter(cs: seq<nat>): nat
  {
    if |cs| == 0 then 0 else cs[|cs| - 1] + 1
  }

  predicate ValidCuts(part: string, cs: seq<nat>)
  {
    Increasing(cs) && forall j :: 0 <= j < |cs| ==> cs[j] < |part|
  }

  /** `part[lo..hi]`, or "" for bounds that are out of order (cuts never
      produce those). */
  function Slice(part: string, lo: nat, hi: nat): (r: string)
    ensures lo <= hi <= |part| ==> r == part[lo..hi]
  {
    if lo <= hi <= |part| then part[lo..hi] else ""
  }

  /** The statements ending at the cuts `cs`: each runs from just after the
      previous cut (or the start) through its own cut. */
  function Slices(part: string, cs: seq<nat>): (r: seq<string>)
    ensures |r| == |cs|
  {
    if |cs| == 0 then []
    else
      var init := cs[..|cs| - 1];
      Slices(part, init) + [Slice(part, StartAfter(init), cs[|cs| - 1] + 1)]
  }

  /** The statements the splitter executes for `part`. */
  function Statements(part: string): seq<string>
  {
    Slices(part, Cuts(part, |part|))
  }

  /** Where the text that is never executed starts. */
  function Pending(part: string): nat
  {
    StartAfter(Cuts(part, |part|))
  }

  // ---------------------------------------------------------------------
  // Properties of the reference definition

  lemma {:induction false} SliceAt(part: string, cs: seq<nat>, j: nat)
    requires ValidCuts(part, cs) && j < |cs|
    ensures StartAfter(cs[..j]) <= cs[j] + 1
    ensures Slices(part, cs)[j] == part[StartAfter(cs[..j])..cs[j] + 1]
    decreases |cs|
  {
    var init := cs[..|cs| - 1];
    assert ValidCuts(part, init);
    if j < |cs| - 1 {
      SliceAt(part, init, j);
      assert init[..j] == cs[..j];
    } else {
      assert init == cs[..j];
    }
  }

  /** The statements, concatenated, are exactly the text up to the last cut:
      consecutive, non-overlapping slices. */
  lemma {:induction false} SlicesConcat(part: string, cs: seq<nat>)
    requires ValidCuts(part, cs)
    ensures StartAfter(cs) <= |part|
    ensures Concat(Slices(part, cs)) == part[..StartAfter(cs)]
    decreases |cs|
  {
    if |cs| > 0 {
      var init := cs[..|cs| - 1];
      assert ValidCuts(part, init);
      SlicesConcat(part, init);
      var ss := Slices(part, cs);
      assert ss[..|ss| - 1] == Slices(part, init);
      assert part[..StartAfter(cs)] == part[..StartAfter(init)] + part[StartAfter(init)..StartAfter(cs)];
    }
  }

  lemma {:induction false} SlicesPrefix(part: string, cs: seq<nat>, k: nat)
    requires k <= |cs|
    ensures Slices(part, cs[..k]) == Slices(part, cs)[..k]
    decreases |cs|
  {
    if k < |cs| {
      var init := cs[..|cs| - 1];
      SlicesPrefix(part, init, k);
      assert init[..k] == cs[..k];
    } else {
      assert cs[..k] == cs;
    }
  }

  lemma {:induction false} CutsPrefix(part: string, n: nat, m: nat)
    requires n <= m <= |part|
    ensures |Cuts(part, n)| <= |Cuts(part, m)|
    ensures Cuts(part, m)[..|Cuts(part, n)|] == Cuts(part, n)
    decreases m
  {
    if n < m {
      CutsPrefix(part, n, m - 1);
    }
  }

  /** Every statement ends in the `;` that cut it, and keeps the text before it
      (leading whitespace included). */
  lemma StatementsEndInSemicolon(part: string)
    ensures forall j :: 0 <= j < |Statements(part)| ==>
      |Statements(part)[j]| > 0 && Statements(part)[j][|Statements(part)[j]| - 1] == ';'
  {
    var cs := Cuts(part, |part|);
    CutsValid(part, |part|);
    forall j | 0 <= j < |Statements(part)|
      ensures |Statements(part)[j]| > 0 && Statements(part)[j][|Statements(part)[j]| - 1] == ';'
    {
      SliceAt(part, cs, j);
      CutsExactly(part, |part|);
      assert cs[j] in cs;
    }
  }

  /** The statements cover the text through the last top-level `;`, and no
      `;` after that point ends a statement: the tail is never executed. */
  lemma StatementsCoverPrefix(part: string)
    ensures Pending(part) <= |part|
    ensures Concat(Statements(part)) == part[..Pending(part)]
    ensures forall k :: Pending(part) <= k < |part| ==> !IsCut(part, k)
  {
    var cs := Cuts(part, |part|);
    CutsValid(part, |part|);
    SlicesConcat(part, cs);
    CutsExactly(part, |part|);
    forall k: nat | k < |part| && IsCut(part, k)
      ensures k < Pending(part)
    {
      assert k in cs;
      var j :| 0 <= j < |cs| && cs[j] == k;
      assert j == |cs| - 1 || cs[j] < cs[|cs| - 1];
    }
  }

  /** A character ends a statement exactly when it is a top-level `;`. */
  lemma StatementEnds(part: string, k: nat)
    requires k < |part|
    ensures IsCut(part, k) <==> exists j :: 0 <= j < |Statements(part)| && Cuts(part, |part|)[j] == k
  {
    var cs := Cuts(part, |part|);
    CutsExactly(part, |part|);
    assert |Statements(part)| == |cs|;
    if IsCut(part, k) {
      assert k in cs;
      var j :| 0 <= j < |cs| && cs[j] == k;
      assert 0 <= j < |Statements(part)| && Cuts(part, |part|)[j] == k;
    } else {
      forall j | 0 <= j < |cs|
        ensures cs[j] != k
      {
        assert cs[j] in cs;
      }
    }
  }

  /** Inside a quoted string, up to its closing quote, no `;` ends a statement. */
  lemma {:induction false} QuotedSpan(part: string, p: nat, e: nat)
    requires p < e <= |part|
    requires ModeAt(part, p) == Code && IsQuote(part[p])
    requires forall k :: p < k < e ==> part[k] != part[p]
    ensures forall k :: p < k <= e ==> ModeAt(part, k) == Quoted(part[p])
    ensures forall k :: p <= k < e ==> !IsCut(part, k)
    ensures e < |part| && part[e] == part[p] ==> ModeAt(part, e + 1) == Code && !IsCut(part, e)
    decreases e - p
  {
    if e > p + 1 {
      QuotedSpan(part, p, e - 1);
    }
    assert ModeAt(part, e) == Quoted(part[p]);
    if e < |part| {
      assert ModeAt(part, e + 1) == Next(ModeAt(part, e), part, e);
    }
  }

  /** A line comment runs to its newline; no `;` in it ends a statement. */
  lemma {:induction false} LineCommentSpan(part: string, p: nat, e: nat)
    requires p < e <= |part|
    requires ModeAt(part, p) == Code && StartsLineComment(part, p)
    requires forall k :: p <= k < e ==> part[k] != '\n'
    ensures forall k :: p < k <= e ==> ModeAt(part, k) == LineComment
    ensures forall k :: p <= k < e ==> !IsCut(part, k)
    ensures e < |part| && part[e] == '\n' ==> ModeAt(part, e + 1) == Code && !IsCut(part, e)
    decreases e - p
  {
    if e > p + 1 {
      LineCommentSpan(part, p, e - 1);
    }
    assert ModeAt(part, e) == LineComment;
    if e < |part| {
      assert ModeAt(part, e + 1) == Next(ModeAt(part, e), part, e);
    }
  }

  /** A block comment opened at `p` lasts up to the first '/' preceded by '*'
      (the '*' of the opener counts, so slash-star-slash is a whole comment); when no such
      '/' follows, it lasts to the end of the text. No `;` in it ends a
      statement. */
  lemma {:induction false} BlockCommentSpan(part: string, p: nat, e: nat)
    requires p < |part| && StartsBlockComment(part, p) && ModeAt(part, p) == Code
    requires p + 2 <= e <= |part|
    requires forall k :: p + 2 <= k < e ==> !(part[k - 1] == '*' && part[k] == '/')
    ensures ModeAt(part, p + 1) == BlockComment(false)
    ensures forall k :: p + 2 <= k <= e ==> ModeAt(part, k) == BlockComment(part[k - 1] == '*')
    ensures forall k :: p <= k < e ==> !IsCut(part, k)
    ensures e < |part| && part[e - 1] == '*' && part[e] == '/' ==> ModeAt(part, e + 1) == Code && !IsCut(part, e)
    decreases e - p
  {
    if e > p + 2 {
      BlockCommentSpan(part, p, e - 1);
    }
    assert ModeAt(part, e) == BlockComment(part[e - 1] == '*');
    if e < |part| {
      assert ModeAt(part, e + 1) == Next(ModeAt(part, e), part, e);
    }
  }

  /** An unterminated block comment swallows the rest of the text: nothing from
      its opening on is ever executed. */
  lemma UnterminatedBlockComment(part: string, p: nat)
    requires p < |part| && StartsBlockComment(part, p) && ModeAt(part, p) == Code
    requires forall k :: p + 2 <= k < |part| ==> !(part[k - 1] == '*' && part[k] == '/')
    ensures Pending(part) <= p
  {
    BlockCommentSpan(part, p, |part|);
    var cs := Cuts(part, |part|);
    CutsExactly(part, |part|);
    if |cs| > 0 {
      assert cs[|cs| - 1] in cs;
    }
  }

  /** A text that is empty or ends in a newline leaves no line comment open: the
      program's unchecked skip to the next newline stays inside the buffer. */
  lemma NewlineEndedIsSafe(part: string)
    requires |part| == 0 || part[|part| - 1] == '\n'
    ensures ModeAt(part, |part|) != LineComment
  {
  }

  /** A character that neither opens a quote nor can start a comment. */
  predicate Plain(c: char)
  {
    !IsQuote(c) && c != '#' && c != '-' && c != '/'
  }

  /** Plain characters keep the scanner in `Code`. */
  lemma {:induction false} CodeRun(part: string, a: nat, b: nat)
    requires a <= b <= |part| && ModeAt(part, a) == Code
    requires forall k :: a <= k < b ==> Plain(part[k])
    ensures forall k :: a <= k <= b ==> ModeAt(part, k) == Code
    decreases b - a
  {
    if a < b {
      assert ModeAt(part, a + 1) == Code;
      CodeRun(part, a + 1, b);
    }
  }

  /** A stretch without top-level `;` adds no statement. */
  lemma {:induction false} NoCutsBetween(part: string, a: nat, b: nat)
    requires a <= b <= |part|
    requires forall k :: a <= k < b ==> !IsCut(part, k)
    ensures Cuts(part, b) == Cuts(part, a)
    decreases b - a
  {
    if a < b {
      NoCutsBetween(part, a, b - 1);
    }
  }

  /** A line of plain text without `;`, terminated by `;` and a newline, is
      exactly one statement: the line through its `;`. */
  lemma SingleStatement(s: string)
    requires forall k :: 0 <= k < |s| ==> Plain(s[k]) && s[k] != ';'
    ensures Statements(s + ";\n") == [s + ";"]
  {
    var part := s + ";\n";
    assert forall k :: 0 <= k < |s| ==> part[k] == s[k];
    CodeRun(part, 0, |s| + 1);
    NoCutsBetween(part, 0, |s|);
    CutStep(part, |s|);
    NoCutsBetween(part, |s| + 1, |s| + 2);
    var cs := Cuts(part, |part|);
    assert cs == [|s|];
    assert cs[..0] == [];
    assert part[0..|s| + 1] == s + ";";
  }

  // ---------------------------------------------------------------------
  // The program's three quote flags

  datatype Quotes = Quotes(single: bool, double: bool, back: bool)

  predicate AtMostOne(f: Quotes)
  {
    !(f.single && f.double) && !(f.single && f.back) && !(f.double && f.back)
  }

  predicate InQuote(f: Quotes)
  {
    f.single || f.double || f.back
  }

  /** The flag for quote character `c`. */
  function Open(f: Quotes, c: char): bool
    requires IsQuote(c)
  {
    if c == '\'' then f.single else if c == '"' then f.double else f.back
  }

  /** Some quote other than `c` is open. */
  predicate OtherOpen(f: Quotes, c: char)
    requires IsQuote(c)
  {
    (c != '\'' && f.single) || (c != '"' && f.double) || (c != '`' && f.back)
  }

  /** The automaton state the flags stand for. */
  function QuoteMode(f: Quotes): Mode
  {
    if f.single then Quoted('\'') else if f.double then Quoted('"') else if f.back then Quoted('`') else Code
  }

  /** A quote character toggles its own flag, and only when no other quote is
      open; otherwise it is literal text. */
  function Toggle(f: Quotes, c: char): (r: Quotes)
    requires IsQuote(c)
    ensures AtMostOne(f) ==> AtMostOne(r)
    ensures Open(r, c) == (if OtherOpen(f, c) then Open(f, c) else !Open(f, c))
    ensures forall d :: IsQuote(d) && d != c ==> Open(r, d) == Open(f, d)
  {
    if c == '\'' then (if f.double || f.back then f else f.(single := !f.single))
    else if c == '"' then (if f.single || f.back then f else f.(double := !f.double))
    else (if f.single || f.double then f else f.(back := !f.back))
  }

  /** The flags track the automaton's quote states. */
  lemma ToggleFollowsAutomaton(f: Quotes, part: string, k: nat)
    requires AtMostOne(f) && k < |part| && IsQuote(part[k])
    ensures QuoteMode(Toggle(f, part[k])) == Next(QuoteMode(f), part, k)
  {
  }

  function Clip(i: nat, n: nat): nat
  {
    if i <= n then i else n
  }

  /** A character that neither opens nor closes anything leaves the state and
      the cuts as they were. */
  lemma QuietStep(part: string, i: nat, f: Quotes)
    requires i < |part| && AtMostOne(f) && ModeAt(part, i) == QuoteMode(f)
    requires !IsQuote(part[i])
    requires InQuote(f) || !(StartsLineComment(part, i) || StartsBlockComment(part, i) || part[i] == ';')
    ensures ModeAt(part, i + 1) == QuoteMode(f)
    ensures Cuts(part, i + 1) == Cuts(part, i)
  {
  }

  /** Only a `;` can add a cut. */
  lemma QuietCuts(part: string, i: nat)
    requires i < |part| && part[i] != ';'
    ensures Cuts(part, i + 1) == Cuts(part, i)
  {
  }

  /** A top-level `;` adds one statement: the text since the previous cut. */
  lemma CutStep(part: string, i: nat)
    requires IsCut(part, i)
    ensures ModeAt(part, i + 1) == Code
    ensures Cuts(part, i + 1) == Cuts(part, i) + [i]
    ensures StartAfter(Cuts(part, i)) <= i
    ensures Slices(part, Cuts(part, i + 1)) == Slices(part, Cuts(part, i)) + [part[StartAfter(Cuts(part, i))..i + 1]]
  {
    var done := Cuts(part, i);
    assert (done + [i])[..|done|] == done;
  }

  /** A statement the driver rejects ends the whole run. */
  lemma AbortIsFinal(db: Db, part: string, n: nat)
    requires n <= |part|
    requires ExecAll(db, Slices(part, Cuts(part, n))).Abort?
    ensures ExecAll(db, Statements(part)) == ExecAll(db, Slices(part, Cuts(part, n)))
  {
    var all := Cuts(part, |part|);
    var pre := Cuts(part, n);
    CutsPrefix(part, n, |part|);
    var k := |pre|;
    assert all[..k] == pre;
    SlicesPrefix(part, all, k);
    ExecAllAbortTake(db, Slices(part, all), k);
  }

  /** Executes the statement ending at the top-level `;` at `i`
      (migrate.go:186-194). */
  method ExecCut(db: Db, part: string, i: nat, cur: Db) returns (r: Status)
    requires IsCut(part, i)
    requires ExecAll(db, Slices(part, Cuts(part, i))) == Proceed(cur)
    ensures r == ExecAll(db, Slices(part, Cuts(part, i + 1)))
    ensures r.Abort? ==> r == ExecAll(db, Statements(part))
    ensures r.Proceed? ==> Executed(db, part, i + 1, i + 1, r.db)
  {
    CutStep(part, i);
    var done := Slices(part, Cuts(part, i));
    var cmd := part[StartAfter(Cuts(part, i))..i + 1];
    var rep := Exec(cur, Call(cmd, []));
    ExecAllSnoc(db, done, cmd);
    if rep.err.Some? {
      r := Abort(rep.db, StmtError(cmd, rep.err.value));
      AbortIsFinal(db, part, i + 1);
    } else {
      r := Proceed(rep.db);
    }
  }

  /** The line-comment skip (migrate.go:172-174): from the comment's first
      character to its newline, which the precondition guarantees exists. */
  method SkipLineComment(part: string, start: nat) returns (j: nat)
    requires start < |part| && ModeAt(part, start) == Code && StartsLineComment(part, start)
    requires ModeAt(part, |part|) != LineComment
    ensures start < j < |part| && part[j] == '\n'
    ensures ModeAt(part, j + 1) == Code
    ensures Cuts(part, j + 1) == Cuts(part, start)
    ensures Cuts(part, Clip(j + 1, |part|)) == Cuts(part, start)
  {
    j := start;
    while part[j] != '\n'
      invariant start <= j < |part|
      invariant ModeAt(part, start + 1) == LineComment
      invariant j > start ==> ModeAt(part, j) == LineComment
      invariant Cuts(part, j) == Cuts(part, start)
      decreases |part| - j
    {
      assert ModeAt(part, j + 1) == LineComment;
      j := j + 1;
    }
  }

  /** The block-comment skip (migrate.go:179-183): from the opening '/' to the
      first '/' preceded by '*', or to the end of the text. */
  method SkipBlockComment(part: string, start: nat) returns (j: nat)
    requires start < |part| && ModeAt(part, start) == Code && StartsBlockComment(part, start)
    ensures start + 2 <= j <= |part|
    ensures j < |part| ==> part[j - 1] == '*' && part[j] == '/' && ModeAt(part, j + 1) == Code
    ensures Cuts(part, Clip(j + 1, |part|)) == Cuts(part, start)
  {
    j := start + 2;
    while j < |part| && !(part[j - 1] == '*' && part[j] == '/')
      invariant start + 2 <= j <= |part|
      invariant ModeAt(part, j) == BlockComment(part[j - 1] == '*')
      invariant Cuts(part, j) == Cuts(part, start)
      decreases |part| - j
    {
      j := j + 1;
    }
  }

  /** The statements cut among the first `n` characters have gone through,
      leaving the connection `cur`, and the next one starts at `lastIndex`. */
  predicate Executed(db: Db, part: string, n: nat, lastIndex: nat, cur: Db)
  {
    n <= |part| && lastIndex == StartAfter(Cuts(part, n)) &&
    ExecAll(db, Slices(part, Cuts(part, n))) == Proceed(cur)
  }

  lemma ExecutedSameCuts(db: Db, part: string, a: nat, b: nat, lastIndex: nat, cur: Db)
    requires Executed(db, part, a, lastIndex, cur)
    requires b <= |part| && Cuts(part, b) == Cuts(part, a)
    ensures Executed(db, part, b, lastIndex, cur)
  {
  }

  /** The loop state after `n` characters agrees with the reference
      definition: the quote flags give the automaton's state, and the
      statements cut so far have been executed. `n` may pass the end by one,
      as it does after an unterminated block comment. */
  predicate Scanned(db: Db, part: string, n: nat, quotes: Quotes, lastIndex: nat, cur: Db)
  {
    && n <= |part| + 1
    && AtMostOne(quotes)
    && (n <= |part| ==> ModeAt(part, n) == QuoteMode(quotes))
    && Executed(db, part, Clip(n, |part|), lastIndex, cur)
  }

  lemma QuoteCase(db: Db, part: string, i: nat, quotes: Quotes, lastIndex: nat, cur: Db)
    requires i < |part| && IsQuote(part[i]) && Scanned(db, part, i, quotes, lastIndex, cur)
    ensures Scanned(db, part, i + 1, Toggle(quotes, part[i]), lastIndex, cur)
  {
    ToggleFollowsAutomaton(quotes, part, i);
    QuietCuts(part, i);
    ExecutedSameCuts(db, part, i, i + 1, lastIndex, cur);
  }

  lemma QuietCase(db: Db, part: string, i: nat, quotes: Quotes, lastIndex: nat, cur: Db)
    requires i < |part| && !IsQuote(part[i]) && Scanned(db, part, i, quotes, lastIndex, cur)
    requires InQuote(quotes) || !(StartsLineComment(part, i) || StartsBlockComment(part, i) || part[i] == ';')
    ensures Scanned(db, part, i + 1, quotes, lastIndex, cur)
  {
    QuietStep(part, i, quotes);
    ExecutedSameCuts(db, part, i, i + 1, lastIndex, cur);
  }

  lemma CutCase(db: Db, part: string, i: nat, quotes: Quotes, cur: Db)
    requires IsCut(part, i) && AtMostOne(quotes) && !InQuote(quotes)
    requires Executed(db, part, i + 1, i + 1, cur)
    ensures Scanned(db, part, i + 1, quotes, i + 1, cur)
  {
    CutStep(part, i);
  }

  /** Resuming after a block comment that ends at `j`, or runs to the end. */
  lemma BlockCase(db: Db, part: string, i: nat, j: nat, quotes: Quotes, lastIndex: nat, cur: Db)
    requires i < |part| && Scanned(db, part, i, quotes, lastIndex, cur) && !InQuote(quotes)
    requires i + 2 <= j <= |part|
    requires j < |part| ==> ModeAt(part, j + 1) == Code
    requires Cuts(part, Clip(j + 1, |part|)) == Cuts(part, i)
    ensures Scanned(db, part, j + 1, quotes, lastIndex, cur)
  {
    if j < |part| {
      assert Clip(j + 1, |part|) == j + 1;
      ExecutedSameCuts(db, part, i, j + 1, lastIndex, cur);
    } else {
      assert Clip(j + 1, |part|) == |part|;
      ExecutedSameCuts(db, part, i, |part|, lastIndex, cur);
    }
  }

  /** The line-comment branch: skips the comment and its newline. */
  method LineCommentStep(db: Db, part: string, i: nat, quotes: Quotes, lastIndex: nat, cur: Db) returns (n: nat)
    requires i < |part| && Scanned(db, part, i, quotes, lastIndex, cur)
    requires ModeAt(part, |part|) != LineComment
    requires StartsLineComment(part, i) && !InQuote(quotes)
    ensures i < n && Scanned(db, part, n, quotes, lastIndex, cur)
  {
    assert ModeAt(part, i) == Code;
    var j := SkipLineComment(part, i);
    ExecutedSameCuts(db, part, i, Clip(j + 1, |part|), lastIndex, cur);
    assert j + 1 <= |part| ==> ModeAt(part, j + 1) == QuoteMode(quotes);
    assert Scanned(db, part, j + 1, quotes, lastIndex, cur);
    n := j + 1;
  }

  /** The block-comment branch: skips the comment and its closing '/'. */
  method BlockCommentStep(db: Db, part: string, i: nat, quotes: Quotes, lastIndex: nat, cur: Db) returns (n: nat)
    requires i < |part| && Scanned(db, part, i, quotes, lastIndex, cur)
    requires StartsBlockComment(part, i) && !InQuote(quotes)
    ensures i < n && Scanned(db, part, n, quotes, lastIndex, cur)
  {
    assert ModeAt(part, i) == Code;
    var j := SkipBlockComment(part, i);
    BlockCase(db, part, i, j, quotes, lastIndex, cur);
    n := j + 1;
  }

  /** The `;` branch: executes the statement, or reports the final status
      when the driver rejects it. */
  method CutStatementStep(db: Db, part: string, i: nat, quotes: Quotes, lastIndex: nat, cur: Db)
    returns (cur': Db, stop: Option<Status>)
    requires i < |part| && Scanned(db, part, i, quotes, lastIndex, cur)
    requires part[i] == ';' && !InQuote(quotes)
    ensures stop.Some? ==> stop.value == ExecAll(db, Statements(part))
    ensures stop.None? ==> Scanned(db, part, i + 1, quotes, i + 1, cur')
  {
    var st := ExecCut(db, part, i, cur);
    cur', stop := st.db, None;
    if st.Abort? {
      stop := Some(st);
    } else {
      CutCase(db, part, i, quotes, st.db);
    }
  }

  /** One iteration of the scanning loop of `runMigrationPart`
      (migrate.go:155-196): reads the character at `i` and returns the index
      the next iteration starts at, or the final status when a statement
      fails. */
  method ScanStep(db: Db, part: string, i: nat, quotes: Quotes, lastIndex: nat, cur: Db)
    returns (i': nat, quotes': Quotes, lastIndex': nat, cur': Db, stop: Option<Status>)
    requires i < |part| && Scanned(db, part, i, quotes, lastIndex, cur)
    requires ModeAt(part, |part|) != LineComment
    ensures stop.Some? ==> stop.value == ExecAll(db, Statements(part))
    ensures stop.None? ==> i < i' && Scanned(db, part, i', quotes', lastIndex', cur')
  {
    var c := part[i];
    quotes', lastIndex', cur', stop := quotes, lastIndex, cur, None;
    if IsQuote(c) {
      QuoteCase(db, part, i, quotes, lastIndex, cur);
      quotes' := Toggle(quotes, c);
      i' := i + 1;
    } else if (c == '#' || (c == '-' && i + 1 < |part| && part[i + 1] == '-')) && !InQuote(quotes) {
      i' := LineCommentStep(db, part, i, quotes, lastIndex, cur);
    } else if c == '/' && !InQuote(quotes) && i + 1 < |part| && part[i + 1] == '*' {
      i' := BlockCommentStep(db, part, i, quotes, lastIndex, cur);
    } else if c == ';' && !InQuote(quotes) {
      cur', stop := CutStatementStep(db, part, i, quotes, lastIndex, cur);
      lastIndex' := i + 1;
      i' := i + 1;
    } else {
      QuietCase(db, part, i, quotes, lastIndex, cur);
      i' := i + 1;
    }
  }

  /** `runMigrationPart`: scans `part` and executes each statement as soon as
      its `;` is read, aborting at the first statement the driver rejects. The
      program reads past the buffer when a line comment has no newline after
      it; the precondition excludes exactly those buffers. */
  method RunMigrationPart(db: Db, part: string) returns (r: Status)
    requires ModeAt(part, |part|) != LineComment
    ensures r == ExecAll(db, Statements(part))
  {
    var quotes := Quotes(false, false, false);
    var lastIndex := 0;
    var cur := db;
    var i := 0;
    while i < |part|
      invariant Scanned(db, part, i, quotes, lastIndex, cur)
      decreases |part| + 1 - i
    {
      var stop;
      i, quotes, lastIndex, cur, stop := ScanStep(db, part, i, quotes, lastIndex, cur);
      if stop.Some? {
        return stop.value;
      }
    }
    return Proceed(cur);
  }
}

=== FILE: splitter_vectors.dfy ===
/** The splitter cases of migrate_test.go, evaluated on the reference automaton:
    each delimiter hides the semicolons inside it, and the statements are cut
    at the semicolons outside. Each vector first steps the automaton through
    the text one character at a time, then reads the statements off the cuts. */
module SplitterVectors {
  import opened Splitter


  /** One step of the automaton, from a known state and known cuts. */
  lemma Step(part: string, k: nat, m: Mode, cs: seq<nat>)
    requires k < |part| && ModeAt(part, k) == m && Cuts(part, k) == cs
    ensures ModeAt(part, k + 1) == Next(m, part, k)
    ensures Cuts(part, k + 1) == cs + (if part[k] == ';' && m == Code then [k] else [])
  {
  }

  /** Text whose only cuts close `a` and `b` splits into exactly `a` and `b`. */
  lemma TwoStatements(part: string, a: string, b: string)
    requires part == a + b && a != "" && b != ""
    requires Cuts(part, |part|) == [|a| - 1, |part| - 1]
    ensures Statements(part) == [a, b]
  {
    var cs: seq<nat> := [|a| - 1, |part| - 1];
    assert cs[..1] == [|a| - 1];
    assert [|a| - 1][..0] == [];
    assert Slices(part, [|a| - 1]) == [Slice(part, 0, |a|)];
    assert Slices(part, cs) == [Slice(part, 0, |a|), Slice(part, |a|, |part|)];
    assert part[..|a|] == a;
    assert part[|a|..|part|] == b;
  }

  /** The state of the block-comment case after 5 characters. */
  lemma BlockCommentVectorPrefix5()
    ensures ModeAt("a /* b;\n */; c;", 5) == BlockComment(false) && Cuts("a /* b;\n */; c;", 5) == []
  {
    var p := "a /* b;\n */; c;";
    Step(p, 0, Code, []);
    Step(p, 1, Code, []);
    Step(p, 2, Code, []);
    Step(p, 3, BlockComment(false), []);
    Step(p, 4, BlockComment(true), []);
  }

  /** The state of the block-comment case after 10 characters. */
  lemma BlockCommentVectorPrefix10()
    ensures ModeAt("a /* b;\n */; c;", 10) == BlockComment(true) && Cuts("a /* b;\n */; c;", 10) == []
  {
    var p := "a /* b;\n */; c;";
    BlockCommentVectorPrefix5();
    Step(p, 5, BlockComment(false), []);
    Step(p, 6, BlockComment(false), []);
    Step(p, 7, BlockComment(false), []);
    Step(p, 8, BlockComment(false), []);
    Step(p, 9, BlockComment(false), []);
  }

  /** The cuts of the block-comment case. */
  lemma BlockCommentVectorCuts()
    ensures Cuts("a /* b;\n */; c;", 15) == [11, 14]
  {
    var p := "a /* b;\n */; c;";
    BlockCommentVectorPrefix10();
    Step(p, 10, BlockComment(true), []);
    Step(p, 11, Code, []);
    Step(p, 12, Code, [11]);
    Step(p, 13, Code, [11]);
    Step(p, 14, Code, [11]);
  }

  /** A semicolon inside a block comment does not end the statement. */
  lemma BlockCommentVector()
    ensures Statements("a /* b;\n */; c;") == ["a /* b;\n */;", " c;"]
  {
    var p := "a /* b;\n */; c;";
    BlockCommentVectorCuts();
    TwoStatements(p, "a /* b;\n */;", " c;");
  }

  /** The state of the dash-comment case after 5 characters. */
  lemma DashCommentVectorPrefix5()
    ensures ModeAt("a--b;\nc;d;", 5) == LineComment && Cuts("a--b;\nc;d;", 5) == []
  {
    var p := "a--b;\nc;d;";
    Step(p, 0, Code, []);
    Step(p, 1, Code, []);
    Step(p, 2, LineComment, []);
    Step(p, 3, LineComment, []);
    Step(p, 4, LineComment, []);
  }

  /** The cuts of the dash-comment case. */
  lemma DashCommentVectorCuts()
    ensures Cuts("a--b;\nc;d;", 10) == [7, 9]
  {
    var p := "a--b;\nc;d;";
    DashCommentVectorPrefix5();
    Step(p, 5, LineComment, []);
    Step(p, 6, Code, []);
    Step(p, 7, Code, []);
    Step(p, 8, Code, [7]);
    Step(p, 9, Code, [7]);
  }

  /** A semicolon inside a "--" comment does not end the statement. */
  lemma DashCommentVector()
    ensures Statements("a--b;\nc;d;") == ["a--b;\nc;", "d;"]
  {
    var p := "a--b;\nc;d;";
    DashCommentVectorCuts();
    TwoStatements(p, "a--b;\nc;", "d;");
  }

  /** The state of the hash-comment case after 5 characters. */
  lemma HashCommentVectorPrefix5()
    ensures ModeAt("a#b;\nc;d;", 5) == Code && Cuts("a#b;\nc;d;", 5) == []
  {
    var p := "a#b;\nc;d;";
    Step(p, 0, Code, []);
    Step(p, 1, Code, []);
    Step(p, 2, LineComment, []);
    Step(p, 3, LineComment, []);
    Step(p, 4, LineComment, []);
  }

  /** The cuts of the hash-comment case. */
  lemma HashCommentVectorCuts()
    ensures Cuts("a#b;\nc;d;", 9) == [6, 8]
  {
    var p := "a#b;\nc;d;";
    HashCommentVectorPrefix5();
    Step(p, 5, Code, []);
    Step(p, 6, Code, []);
    Step(p, 7, Code, [6]);
    Step(p, 8, Code, [6]);
  }

  /** A semicolon inside a '#' comment does not end the statement. */
  lemma HashCommentVector()
    ensures Statements("a#b;\nc;d;") == ["a#b;\nc;", "d;"]
  {
    var p := "a#b;\nc;d;";
    HashCommentVectorCuts();
    TwoStatements(p, "a#b;\nc;", "d;");
  }

  /** The state of the single-quote case after 5 characters. */
  lemma SingleQuoteVectorPrefix5()
    ensures ModeAt("a'/*--;#`\"';b;", 5) == Quoted('\'') && Cuts("a'/*--;#`\"';b;", 5) == []
  {
    var p := "a'/*--;#`\"';b;";
    Step(p, 0, Code, []);
    Step(p, 1, Code, []);
    Step(p, 2, Quoted('\''), []);
    Step(p, 3, Quoted('\''), []);
    Step(p, 4, Quoted('\''), []);
  }

  /** The state of the single-quote case after 10 characters. */
  lemma SingleQuoteVectorPrefix10()
    ensures ModeAt("a'/*--;#`\"';b;", 10) == Quoted('\'') && Cuts("a'/*--;#`\"';b;", 10) == []
  {
    var p := "a'/*--;#`\"';b;";
    SingleQuoteVectorPrefix5();
    Step(p, 5, Quoted('\''), []);
    Step(p, 6, Quoted('\''), []);
    Step(p, 7, Quoted('\''), []);
    Step(p, 8, Quoted('\''), []);
    Step(p, 9, Quoted('\''), []);
  }

  /** The cuts of the single-quote case. */
  lemma SingleQuoteVectorCuts()
    ensures Cuts("a'/*--;#`\"';b;", 14) == [11, 13]
  {
    var p := "a'/*--;#`\"';b;";
    SingleQuoteVectorPrefix10();
    Step(p, 10, Quoted('\''), []);
    Step(p, 11, Code, []);
    Step(p, 12, Code, [11]);
    Step(p, 13, Code, [11]);
  }

  /** Comment starters and semicolons inside single quotes are text. */
  lemma SingleQuoteVector()
    ensures Statements("a'/*--;#`\"';b;") == ["a'/*--;#`\"';", "b;"]
  {
    var p := "a'/*--;#`\"';b;";
    SingleQuoteVectorCuts();
    TwoStatements(p, "a'/*--;#`\"';", "b;");
  }

  /** The state of the double-quote case after 5 characters. */
  lemma DoubleQuoteVectorPrefix5()
    ensures ModeAt("a\"/*--;#`'\";b;", 5) == Quoted('"') && Cuts("a\"/*--;#`'\";b;", 5) == []
  {
    var p := "a\"/*--;#`'\";b;";
    Step(p, 0, Code, []);
    Step(p, 1, Code, []);
    Step(p, 2, Quoted('"'), []);
    Step(p, 3, Quoted('"'), []);
    Step(p, 4, Quoted('"'), []);
  }

  /** The state of the double-quote case after 10 characters. */
  lemma DoubleQuoteVectorPrefix10()
    ensures ModeAt("a\"/*--;#`'\";b;", 10) == Quoted('"') && Cuts("a\"/*--;#`'\";b;", 10) == []
  {
    var p := "a\"/*--;#`'\";b;";
    DoubleQuoteVectorPrefix5();
    Step(p, 5, Quoted('"'), []);
    Step(p, 6, Quoted('"'), []);
    Step(p, 7, Quoted('"'), []);
    Step(p, 8, Quoted('"'), []);
    Step(p, 9, Quoted('"'), []);
  }

  /** The cuts of the double-quote case. */
  lemma DoubleQuoteVectorCuts()
    ensures Cuts("a\"/*--;#`'\";b;", 14) == [11, 13]
  {
    var p := "a\"/*--;#`'\";b;";
    DoubleQuoteVectorPrefix10();
    Step(p, 10, Quoted('"'), []);
    Step(p, 11, Code, []);
    Step(p, 12, Code, [11]);
    Step(p, 13, Code, [11]);
  }

  /** Comment starters and semicolons inside double quotes are text. */
  lemma DoubleQuoteVector()
    ensures Statements("a\"/*--;#`'\";b;") == ["a\"/*--;#`'\";", "b;"]
  {
    var p := "a\"/*--;#`'\";b;";
    DoubleQuoteVectorCuts();
    TwoStatements(p, "a\"/*--;#`'\";", "b;");
  }

  /** The state of the backquote case after 5 characters. */
  lemma BackQuoteVectorPrefix5()
    ensures ModeAt("a`/*--;#'\"`;b;", 5) == Quoted('`') && Cuts("a`/*--;#'\"`;b;", 5) == []
  {
    var p := "a`/*--;#'\"`;b;";
    Step(p, 0, Code, []);
    Step(p, 1, Code, []);
    Step(p, 2, Quoted('`'), []);
    Step(p, 3, Quoted('`'), []);
    Step(p, 4, Quoted('`'), []);
  }

  /** The state of the backquote case after 10 characters. */
  lemma BackQuoteVectorPrefix10()
    ensures ModeAt("a`/*--;#'\"`;b;", 10) == Quoted('`') && Cuts("a`/*--;#'\"`;b;", 10) == []
  {
    var p := "a`/*--;#'\"`;b;";
    BackQuoteVectorPrefix5();
    Step(p, 5, Quoted('`'), []);
    Step(p, 6, Quoted('`'), []);
    Step(p, 7, Quoted('`'), []);
    Step(p, 8, Quoted('`'), []);
    Step(p, 9, Quoted('`'), []);
  }

  /** The cuts of the backquote case. */
  lemma BackQuoteVectorCuts()
    ensures Cuts("a`/*--;#'\"`;b;", 14) == [11, 13]
  {
    var p := "a`/*--;#'\"`;b;";
    BackQuoteVectorPrefix10();
    Step(p, 10, Quoted('`'), []);
    Step(p, 11, Code, []);
    Step(p, 12, Code, [11]);
    Step(p, 13, Code, [11]);
  }

  /** Comment starters and semicolons inside backquotes are text. */
  lemma BackQuoteVector()
    ensures Statements("a`/*--;#'\"`;b;") == ["a`/*--;#'\"`;", "b;"]
  {
    var p := "a`/*--;#'\"`;b;";
    BackQuoteVectorCuts();
    TwoStatements(p, "a`/*--;#'\"`;", "b;");
  }

}

=== FILE: sync.dfy ===
/** How migration files on disk are matched against the ledger
    (migrate.go: `migFormat`, `ensureRunMigrationsMatch`), and where `new`
    puts a migration file (new.go). */
module Sync {
  import opened Results
  import opened Text
  import opened Paths
  import opened Naming

  /** The directory, under the data directory, that holds migration files. */
  const MigDir: string := "migrate"

  // ---------------------------------------------------------------------
  // Ledger ids

  /** `migFormat`: the ledger id of a migration file, the base name up to its
      first '_', or the whole base name when it has none. */
  function MigFormat(path: string): string
  {
    SplitOn(Base(path), '_')[0]
  }

  /** The id is a '_'-free prefix of the base name that is either all of it or
      stops at a '_'. */
  lemma MigFormatPrefix(path: string)
    ensures var r := MigFormat(path);
      '_' !in r && |r| <= |Base(path)| && r == Base(path)[..|r|] &&
      (|r| == |Base(path)| || Base(path)[|r|] == '_')
  {
    SplitFirst(Base(path), '_');
  }

  /** The three properties of `MigFormat` pin the id down: a string is the id
      of a path exactly when it is a '_'-free prefix of the base name that is
      either all of it or stops at a '_'. */
  lemma MigFormatCharacterized(path: string, id: string)
    ensures id == MigFormat(path) <==>
      '_' !in id && |id| <= |Base(path)| && id == Base(path)[..|id|] &&
      (|id| == |Base(path)| || Base(path)[|id|] == '_')
  {
    var b := Base(path);
    var m := MigFormat(path);
    MigFormatPrefix(path);
    if '_' !in id && |id| <= |b| && id == b[..|id|] && (|id| == |b| || b[|id|] == '_') {
      if |id| < |m| {
        assert false;
      } else if |m| < |id| {
        assert false;
      }
      assert id == m;
    }
  }

  // ---------------------------------------------------------------------
  // Where `new` writes a migration

  /** `<workingDir>/db/migrate`. */
  function MigrationDir(workingDir: string): string
  {
    Join([workingDir, "db", MigDir])
  }

  /** The file `new` creates for a name accepted at clock reading `t`. */
  function NewMigrationPath(workingDir: string, t: Stamp, name: string): string
  {
    Join([MigrationDir(workingDir), FileName(t, name)])
  }

  /** A migration directory is never the empty path. */
  lemma MigrationDirNonEmpty(workingDir: string)
    ensures MigrationDir(workingDir) != ""
    ensures NonEmptyElems([workingDir, "db", MigDir]) != []
  {
    var e := [workingDir, "db", MigDir];
    assert e[..2] == [workingDir, "db"];
    assert [workingDir, "db"][..1] == [workingDir];
    var n := NonEmptyElems([workingDir, "db"]);
    assert "db" in n;
    assert MigDir in NonEmptyElems(e);
    var r := NonEmptyElems(e);
    assert r[|r| - 1] == MigDir;
    if |r| > 1 {
      JoinWithSnoc(r[..|r| - 1], [Separator], MigDir);
      assert r[..|r| - 1] + [MigDir] == r;
    }
  }

  /** The file a new migration is written to is `<dir>/<file name>`. */
  lemma NewMigrationPathShape(workingDir: string, t: Stamp, name: string)
    ensures NewMigrationPath(workingDir, t, name) ==
      MigrationDir(workingDir) + [Separator] + FileName(t, name)
  {
    var d := MigrationDir(workingDir);
    var f := FileName(t, name);
    MigrationDirNonEmpty(workingDir);
    assert [d][..0] == [];
    assert NonEmptyElems([d]) == [d];
    JoinSnoc([d], f);
    assert [d] + [f] == [d, f];
  }

  /** A file name contains no separator, and its first '_' is the one right
      after the timestamp digits. */
  lemma FileNameParts(t: Stamp, name: string)
    requires ValidName(name)
    ensures Separator !in FileName(t, name)
    ensures FileName(t, name) == StampDigits(t) + ['_'] + (name + ".sql")
    ensures '_' !in StampDigits(t)
  {
    var digits := StampDigits(t);
    var f := FileName(t, name);
    assert f == digits + ['_'] + (name + ".sql");
    forall k | 0 <= k < |f| ensures f[k] != Separator {
      if k < |digits| {
        assert f[k] == digits[k];
      } else if |digits| < k < |digits| + 1 + |name| {
        assert f[k] == name[k - |digits| - 1];
        assert NameChar(name[k - |digits| - 1]);
      }
    }
    forall k | 0 <= k < |digits| ensures digits[k] != '_' {
      assert IsDigit(digits[k]);
    }
  }

  /** The ledger id of a file name is its timestamp digits. */
  lemma FileNameId(dir: string, t: Stamp, name: string)
    requires ValidName(name)
    ensures MigFormat(dir + [Separator] + FileName(t, name)) == StampDigits(t)
  {
    var f := FileName(t, name);
    FileNameParts(t, name);
    BaseOfJoin(dir, f);
    IndexOfJoin(StampDigits(t), '_', name + ".sql");
  }

  /** A file name ends in ".sql", wherever it is put. */
  lemma FileNameExt(dir: string, t: Stamp, name: string)
    ensures Ext(dir + [Separator] + FileName(t, name)) == ".sql"
  {
    var p := dir + [Separator] + StampDigits(t) + "_" + name;
    ExtOfSuffix(p, ".sql");
    assert p + ".sql" == dir + [Separator] + FileName(t, name);
  }

  /** A new migration file is found again by the migration scan (its
      extension is ".sql"), and its ledger id is exactly the fourteen digits of
      its timestamp. */
  lemma NewMigrationId(workingDir: string, t: Stamp, name: string)
    requires ValidStamp(t) && ValidName(name)
    ensures MigFormat(NewMigrationPath(workingDir, t, name)) == StampDigits(t)
    ensures |MigFormat(NewMigrationPath(workingDir, t, name))| == 14
    ensures Ext(NewMigrationPath(workingDir, t, name)) == ".sql"
  {
    NewMigrationPathShape(workingDir, t, name);
    FileNameId(MigrationDir(workingDir), t, name);
    FileNameExt(MigrationDir(workingDir), t, name);
    StampDigitsLength(t);
  }

  // ---------------------------------------------------------------------
  // Matching the files against the ledger

  /** The ids of a list of files, in order. */
  function Ids(files: seq<string>): (r: seq<string>)
    ensures |r| == |files| && forall i :: 0 <= i < |files| ==> r[i] == MigFormat(files[i])
  {
    seq(|files|, i requires 0 <= i < |files| => MigFormat(files[i]))
  }

  /** The ids of two lists one after the other are the ids of each. */
  lemma IdsAppend(a: seq<string>, b: seq<string>)
    ensures Ids(a + b) == Ids(a) + Ids(b)
  {
    var l := Ids(a + b);
    var r := Ids(a) + Ids(b);
    forall i | 0 <= i < |l| ensures l[i] == r[i] {
      if i < |a| {
        assert (a + b)[i] == a[i];
      } else {
        assert (a + b)[i] == b[i - |a|];
      }
    }
  }

  lemma IdsCons(files: seq<string>)
    requires |files| > 0
    ensures Ids(files) == [MigFormat(files[0])] + Ids(files[1..])
  {
    assert files == [files[0]] + files[1..];
    IdsAppend([files[0]], files[1..]);
  }

  lemma IdsSnoc(files: seq<string>, f: string)
    ensures Ids(files + [f]) == Ids(files) + [MigFormat(f)]
  {
    IdsAppend(files, [f]);
  }

  /** Position `i` holds both a file and a ledger row, and the file's id is
      not the row. */
  predicate Mismatch(files: seq<string>, done: seq<string>, i: nat)
  {
    i < |files| && i < |done| && MigFormat(files[i]) != done[i]
  }

  /** The first disagreeing position at or after `from`. */
  function FirstMismatch(files: seq<string>, done: seq<string>, from: nat): (r: Option<nat>)
    ensures r.Some? ==> from <= r.value && Mismatch(files, done, r.value)
    ensures r.Some? ==> forall j :: from <= j < r.value ==> !Mismatch(files, done, j)
    ensures r.None? ==> forall j :: from <= j ==> !Mismatch(files, done, j)
    decreases |files| - from
  {
    if from >= |files| || from >= |done| then None
    else if MigFormat(files[from]) != done[from] then Some(from)
    else FirstMismatch(files, done, from + 1)
  }

  /** The message for a ledger row that has no matching file. */
  function NoMatchMsg(id: string, base: string): string
  {
    NoMatchHead + id + NoMatchMiddle + base + "\n"
  }

  const NoMatchHead: string := "Error: Migrations are out of sync\nPossible problems:\n   Migration file starting with \""
  const NoMatchMiddle: string := "\" missing OR\n   Migration file created after migrations run: "

  /** The verdict of the consistency check: in sync, with the ledger rows
      that have no file (printed as missing files, which does not stop the
      program); or out of sync at a position, with the message the program
      stops with. */
  datatype SyncReport = InSync(missing: seq<string>) | OutOfSync(at: nat, msg: string)

  /** `ensureRunMigrationsMatch`: walks files and ledger rows side by side and
      stops at the first disagreement, naming the row and the file's base
      name; ledger rows beyond the last file are only reported. */
  function EnsureMatch(files: seq<string>, done: seq<string>): (r: SyncReport)
    ensures r.InSync? ==> forall i: nat :: !Mismatch(files, done, i)
    ensures r.InSync? ==> r.missing == if |done| > |files| then done[|files|..] else []
    ensures r.OutOfSync? ==> Mismatch(files, done, r.at)
    ensures r.OutOfSync? ==> forall j :: 0 <= j < r.at ==> !Mismatch(files, done, j)
    ensures r.OutOfSync? ==> r.msg == NoMatchMsg(done[r.at], Base(files[r.at]))
  {
    match FirstMismatch(files, done, 0)
    case Some(i) => OutOfSync(i, NoMatchMsg(done[i], Base(files[i])))
    case None => InSync(if |done| > |files| then done[|files|..] else [])
  }

  /** A ledger that is the ids of the first files passes. */
  lemma IdsPass(files: seq<string>, done: seq<string>)
    requires |done| <= |files| && done == Ids(files[..|done|])
    ensures EnsureMatch(files, done).InSync?
  {
    if EnsureMatch(files, done).OutOfSync? {
      assert false;
    }
  }

  /** A ledger that passes, and is no longer than the file list, is the ids of
      the first files. */
  lemma PassIsIds(files: seq<string>, done: seq<string>)
    requires |done| <= |files| && EnsureMatch(files, done).InSync?
    ensures done == Ids(files[..|done|])
  {
    var ids := Ids(files[..|done|]);
    forall i | 0 <= i < |done| ensures done[i] == ids[i] {
      assert !Mismatch(files, done, i);
      assert files[..|done|][i] == files[i];
    }
  }

  /** A ledger no longer than the file list passes exactly when it is the ids
      of the first files, in order. */
  lemma EnsureMatchIds(files: seq<string>, done: seq<string>)
    requires |done| <= |files|
    ensures EnsureMatch(files, done).InSync? <==> done == Ids(files[..|done|])
  {
    if done == Ids(files[..|done|]) {
      IdsPass(files, done);
    }
    if EnsureMatch(files, done).InSync? {
      PassIsIds(files, done);
    }
  }

  /** The first disagreement decides the report. */
  lemma EnsureMatchAt(files: seq<string>, done: seq<string>, i: nat)
    requires Mismatch(files, done, i)
    requires forall j :: 0 <= j < i ==> !Mismatch(files, done, j)
    ensures EnsureMatch(files, done) == OutOfSync(i, NoMatchMsg(done[i], Base(files[i])))
  {
    match EnsureMatch(files, done)
    case InSync(_) => assert false;
    case OutOfSync(at, _) =>
      if at < i {
        assert false;
      } else if at > i {
        assert false;
      }
  }

  /** With no disagreement while both lists last, the report is in sync with
      the rows left over. */
  lemma EnsureMatchEnd(files: seq<string>, done: seq<string>, i: nat)
    requires i == |files| || i == |done|
    requires i <= |files| && i <= |done|
    requires forall j :: 0 <= j < i ==> !Mismatch(files, done, j)
    ensures EnsureMatch(files, done) == InSync(if i < |done| then done[i..] else [])
  {
    if EnsureMatch(files, done).OutOfSync? {
      assert false;
    }
  }

  /** The program's own loop: files and ledger rows side by side while both
      last, then whatever rows are left over. */
  method CheckSync(files: seq<string>, done: seq<string>) returns (r: SyncReport)
    ensures r == EnsureMatch(files, done)
  {
    var i := 0;
    while i < |files| && i < |done|
      invariant 0 <= i <= |files| && i <= |done|
      invariant forall j :: 0 <= j < i ==> !Mismatch(files, done, j)
    {
      if MigFormat(files[i]) != done[i] {
        EnsureMatchAt(files, done, i);
        return OutOfSync(i, NoMatchMsg(done[i], Base(files[i])));
      }
      i := i + 1;
    }
    EnsureMatchEnd(files, done, i);
    if i < |done| {
      return InSync(done[i..]);
    }
    return InSync([]);
  }
}

=== FILE: text.dfy ===
/** String helpers standing in for the parts of Go's `strings`, `bytes` and `fmt`
    packages the program relies on: `strings.Split` on one character,
    `strings.Join`, `strings.HasPrefix`, and the space-joined output of
    `fmt.Println`. */
module Text {
  import opened Results

  /** Position of the first `c` in `s`. */
  function IndexOf(s: string, c: char): (r: Option<nat>)
    ensures r.None? <==> c !in s
    ensures r.Some? ==> r.value < |s| && s[r.value] == c && c !in s[..r.value]
  {
    if |s| == 0 then None
    else if s[0] == c then Some(0)
    else
      match IndexOf(s[1..], c)
      case None => None
      case Some(i) =>
        assert s[..i + 1] == [s[0]] + s[1..][..i];
        Some(i + 1)
  }

  /** Position of the last `c` in `s`. */
  function LastIndexOf(s: string, c: char): (r: Option<nat>)
    ensures r.None? <==> c !in s
    ensures r.Some? ==> r.value < |s| && s[r.value] == c && c !in s[r.value + 1..]
  {
    if |s| == 0 then None
    else if s[|s| - 1] == c then Some(|s| - 1)
    else
      match LastIndexOf(s[..|s| - 1], c)
      case None =>
        assert s == s[..|s| - 1] + [s[|s| - 1]];
        None
      case Some(i) =>
        assert s[i + 1..] == s[..|s| - 1][i + 1..] + [s[|s| - 1]];
        Some(i)
  }

  lemma IndexOfJoin(a: string, c: char, b: string)
    requires c !in a
    ensures IndexOf(a + [c] + b, c) == Some(|a|)
  {
    var s := a + [c] + b;
    assert s[|a|] == c;
    var r := IndexOf(s, c);
    assert forall k :: 0 <= k < |a| ==> s[k] == a[k];
    assert forall n :: |a| < n <= |s| ==> s[..n][|a|] == c;
  }

  lemma {:induction false} LastIndexOfJoin(a: string, c: char, b: string)
    requires c !in b
    ensures LastIndexOf(a + [c] + b, c) == Some(|a|)
    decreases |b|
  {
    var s := a + [c] + b;
    if |b| > 0 {
      assert s[..|s| - 1] == a + [c] + b[..|b| - 1];
      LastIndexOfJoin(a, c, b[..|b| - 1]);
    }
  }

  /** `strings.Join(xs, sep)`. */
  function JoinWith(xs: seq<string>, sep: string): string
  {
    if |xs| == 0 then ""
    else if |xs| == 1 then xs[0]
    else xs[0] + sep + JoinWith(xs[1..], sep)
  }

  /** Joining one more piece adds the separator and the piece at the end. */
  lemma {:induction false} JoinWithSnoc(xs: seq<string>, sep: string, x: string)
    requires |xs| >= 1
    ensures JoinWith(xs + [x], sep) == JoinWith(xs, sep) + sep + x
    decreases |xs|
  {
    if |xs| > 1 {
      assert (xs + [x])[1..] == xs[1..] + [x];
      JoinWithSnoc(xs[1..], sep, x);
    } else {
      assert xs + [x] == [xs[0], x];
      assert [xs[0], x][1..] == [x];
    }
  }

  /** The line `fmt.Println` prints for string operands (operands joined by one
      space), without its final newline. */
  function Line(parts: seq<string>): string
  {
    JoinWith(parts, " ")
  }

  /** `strings.Split(s, string(c))`: the pieces between occurrences of `c`; an
      empty string gives one empty piece. */
  function SplitOn(s: string, c: char): (r: seq<string>)
    ensures |r| >= 1
    ensures forall i :: 0 <= i < |r| ==> c !in r[i]
    ensures JoinWith(r, [c]) == s
    decreases |s|
  {
    match IndexOf(s, c)
    case None => [s]
    case Some(i) =>
      var rest := SplitOn(s[i + 1..], c);
      assert s == s[..i] + [c] + s[i + 1..];
      [s[..i]] + rest
  }

  /** Splitting undoes joining when no piece contains the separator. */
  lemma {:induction false} SplitJoin(xs: seq<string>, c: char)
    requires |xs| >= 1
    requires forall i :: 0 <= i < |xs| ==> c !in xs[i]
    ensures SplitOn(JoinWith(xs, [c]), c) == xs
    decreases |xs|
  {
    if |xs| == 1 {
      assert JoinWith(xs, [c]) == xs[0];
    } else {
      var tail := JoinWith(xs[1..], [c]);
      var s := xs[0] + [c] + tail;
      assert JoinWith(xs, [c]) == s;
      IndexOfJoin(xs[0], c, tail);
      assert s[..|xs[0]|] == xs[0];
      assert s[|xs[0]| + 1..] == tail;
      assert SplitOn(s, c) == [xs[0]] + SplitOn(tail, c);
      SplitJoin(xs[1..], c);
      assert xs == [xs[0]] + xs[1..];
    }
  }

  /** The first piece of a split is the text before the first separator. */
  lemma SplitFirst(s: string, c: char)
    ensures var p := SplitOn(s, c)[0];
      p == s[..|p|] && (|p| == |s| || s[|p|] == c)
  {
    match IndexOf(s, c)
    case None =>
    case Some(i) =>
  }

  /** The concatenation of a sequence of strings. */
  function Concat(xs: seq<string>): string
  {
    if |xs| == 0 then "" else Concat(xs[..|xs| - 1]) + xs[|xs| - 1]
  }

  predicate HasPrefix(s: string, p: string)
  {
    |p| <= |s| && s[..|p|] == p
  }

  /** `sub` occurs in `s` at some position. */
  predicate Contains(s: string, sub: string)
  {
    exists i :: 0 <= i <= |s| - |sub| && HasPrefix(s[i..], sub)
  }

  /** A string occurs in any text built around it. */
  lemma ContainsMiddle(a: string, b: string, c: string)
    ensures Contains(a + b + c, b)
  {
    var s := a + b + c;
    assert s[|a|..][..|b|] == b;
  }
}
